=== FILE: README.md ===
# ATS backend: resume parsing, candidate search and the routes around them

This project is a Dafny model of the core of a small applicant-tracking backend. The backend is a
FastAPI service. Recruiters upload resumes, which are parsed by a language model with a rule-based
fallback, embedded, and stored per user. Recruiters then search their candidates by free text,
location and years of experience, read structured details, generate screening questions and see
a dashboard.

The model covers five source files:

- `search_engine.dfy` models `app/services/search_engine.py`, the `SearchEngine` class. It covers:
  - the per-row scoring of `search`: keyword hits, the zero-keyword gate, the location step, the
    experience penalty and the 0.3 threshold;
  - the scoring loop, the sort and the cut to five matches;
  - building the matches;
  - the answer built from retrieval and generation, including its error paths;
  - `semantic_search`: its skill and summary boosts, clamping, sort and cut.
- `resume_parser.dfy` models `app/services/resume_parser.py`, the `ResumeParser` class. It covers:
  - stripping the code fence from the model's reply;
  - the defaults applied to the decoded fields;
  - the embedding text;
  - the rule-based fallback: name, skills, experience, education, and contact with the location
    keyword search, as written (a label found in the lower-cased text but absent with its own case
    in the line raises `IndexError`) and in the case-blind reading evidently intended;
  - the outcome of the parse, which fails with "Failed to process PDF file" when the fallback
    raises.
- `screening_generator.dfy` models `app/services/screening_generator.py`: cleaning the numbered
  questions and the five fallback questions.
- `search_routes.dfy` models the logic in `app/routes/search.py`. It covers:
  - post-processing the matches;
  - the resume details: first name, education details and certifications;
  - choosing the skill and level for screening questions, and the key skills of the e-mail;
  - the dashboard metrics loop with its `continue` semantics and its counters.
- `resume_routes.dfy` models `upload_resume` in `app/routes/resume.py`. It covers:
  - file validation and the `os.path.splitext` extension;
  - the storage key;
  - the text blob that is embedded;
  - the outcome of the handler, including how a 400 is re-wrapped as a 500, the cleanup of the
    stored object, the row `store_resume` (`app/services/database.py`) refuses without a name,
    and the response that cannot be built when the experience, education or summary is missing.

Supporting modules model the Python built-ins the core relies on:

- `text.dfy`: `str.split()`, `split(sep)`, `strip`, `lstrip(chars)`, `in`, `find`, ASCII
  `lower` and `join`.
- `numerals.dfy`: `float()` of a token, `str(int)` and `int()` of a float.
- `sorting.dfy`: sorting in descending order, and slicing.
- `lists.dfy`: filtering, mapping and `collections.Counter`.
- `records.dfy`: the JSON columns of a resume row, truthiness and `dict.get`.

Several things are inputs rather than computations:

- what the database returns;
- the cosine similarities computed from embeddings;
- the reply of the language model, or its absence when the call raises;
- the result of `json.loads`;
- what the regular expressions match;
- the clock, the random id and the storage outcome.

Code that loops and updates variables is modelled as methods with loop invariants. Each such
method is proved equal to a specification function, and the source's promises are stated as
lemmas about those functions.

## Model

| member | source | states |
|---|---|---|
| SearchEngine.Max | app/services/search_engine.py:349 | the result is one of the two arguments and at least both |
| SearchEngine.Clamp01 | app/services/search_engine.py:333 | the clamp lies in [0, 1], is the identity inside it and saturates at 0 and 1 outside |
| SearchEngine.ClampMonotone | app/services/search_engine.py:374 | clamping preserves the order of two scores |
| SearchEngine.PowerBelowOne | app/services/search_engine.py:349 | 0.4 to a positive whole power lies strictly between 0 and 1 |
| SearchEngine.PowerAntitone | app/services/search_engine.py:349 | 0.4 to a larger power is no larger and stays positive |
| SearchEngine.Ceiling | app/services/search_engine.py:349 | the ceiling is the least integer not below its argument, used to extend 0.4 ** n to real shortfalls |
| SearchEngine.DecayModelSatisfiable | app/services/search_engine.py:349 | a decay that meets every assumed property of `0.4 ** shortfall` exists, so the lemmas assuming it are not vacuous |
| SearchEngine.LocationSimilarity | app/services/search_engine.py:268-288 | raises exactly when the contact decodes to JSON that is not an object; otherwise 0.3 when the contact holds no location, 0.5 when the contact does not decode, and the location cosine otherwise |
| SearchEngine.KeywordTextOf | app/services/search_engine.py:298-314 | the skills searched are the row's skills lower-cased one by one, in order |
| SearchEngine.AnyContainsIff | app/services/search_engine.py:318-320 | a word hits the skills exactly when some lower-cased skill contains it |
| SearchEngine.KeywordHits | app/services/search_engine.py:316-321 | at most one hit per query word; no hit exactly when no word is found in the education, the skills or the summary |
| SearchEngine.KeywordHitsCountsPositions | app/services/search_engine.py:316-321 | the count is the number of query positions that hit, so a repeated word counts each time |
| SearchEngine.CountKeywordMatches | app/services/search_engine.py:316-321 | the counting loop computes exactly the number of hits |
| SearchEngine.KeywordScore | app/services/search_engine.py:323-329 | without a hit the score is zeroed; with hits it is the cosine plus 0.1 per hit, so at least the cosine plus 0.1 |
| SearchEngine.LocationScore | app/services/search_engine.py:331-338 | the similarity is clamped to [0, 1]; above 0.7 it adds ten times itself (a full match adds 10), below 0.3 the score is scaled by 0.7, in between it is unchanged; a non-negative score never drops below 70% |
| SearchEngine.ShortfallPenalty | app/services/search_engine.py:349 | the penalty factor never drops below 0.05 |
| SearchEngine.ShortfallPenaltyRange | app/services/search_engine.py:345-350 | a positive shortfall costs a factor in [0.05, 1), and a larger shortfall costs no less |
| SearchEngine.LeadingYears | app/services/search_engine.py:344 | the years are `float()` of the first whitespace-separated word, and absent when there is no word |
| SearchEngine.ExperienceScore | app/services/search_engine.py:340-353 | a number of years that meets the requirement leaves the score unchanged (the other two cases are stated by `ExperienceScoreCases`) |
| SearchEngine.ExperienceScoreCases | app/services/search_engine.py:345-353 | for every input: unreadable years multiply the score by 0.4, a shortfall multiplies it by max(0.05, decay(shortfall)), and enough years leave it unchanged |
| SearchEngine.Evaluate | app/services/search_engine.py:260-361 | a row is scored only when it has a usable embedding; it aborts the search only on a non-object contact or a dimension mismatch |
| SearchEngine.ScoreResume | app/services/search_engine.py:260-361 | the loop body, step by step, yields the verdict of `Evaluate` |
| SearchEngine.ApplyExperience | app/services/search_engine.py:340-353 | the experience step computes the score of `ExperienceScore` |
| SearchEngine.ZeroKeywordGate | app/services/search_engine.py:323-338 | with no keyword hit and no location boost the score is 0 |
| SearchEngine.LocationRevivesZeroKeyword | app/services/search_engine.py:323-338 | a location cosine above 0.7 turns a zeroed score into 10 times the cosine, above the threshold |
| SearchEngine.LocationStepEffect | app/services/search_engine.py:331-338 | the default location scores leave the score alone; a boost adds more than 7 and at most 10; the step never cuts below 70% |
| SearchEngine.ScaleMonotone | app/services/search_engine.py:350 | scaling a non-negative score by a larger factor gives no less |
| SearchEngine.ScaleBelow | app/services/search_engine.py:350 | scaling a non-negative score by a factor of at most 1 gives no more |
| SearchEngine.ExperienceNeverRaises | app/services/search_engine.py:340-353 | the experience step keeps a non-negative score between 5% of itself and itself |
| SearchEngine.ExperienceMonotone | app/services/search_engine.py:340-353 | asking for more years never raises a non-negative score |
| SearchEngine.ShortfallOrder | app/services/search_engine.py:345-350 | ordered penalties give ordered scores for one candidate at two requirements |
| SearchEngine.LeadingYearsOfNat | app/services/search_engine.py:344 | an experience such as "3 years" reads as that whole number |
| SearchEngine.ExperienceShortfallExample | app/services/search_engine.py:345-350 | three years against five required cost a factor 0.16 |
| SearchEngine.TenantRows | app/services/search_engine.py:238-248 | the rows searched are exactly the caller's rows with a non-NULL embedding |
| SearchEngine.Judged | app/services/search_engine.py:260-361 | each row is paired with its own verdict, in row order |
| SearchEngine.Collect | app/services/search_engine.py:260-361 | on success, the kept candidates are exactly the rows scored above 0.3; on failure, the error is that of a row that aborted |
| SearchEngine.CollectFailureStays | app/services/search_engine.py:403-408 | once a row aborts, the remaining rows do not change the outcome |
| SearchEngine.KeptIff | app/services/search_engine.py:355-357 | a candidate is kept if and only if its row is searched and scores above the threshold with that score |
| SearchEngine.KeptFailure | app/services/search_engine.py:403-408 | a failed scoring pass carries the exception of one of its rows |
| SearchEngine.Ranked | app/services/search_engine.py:364-368 | the top list is sorted by descending score, has min(5, n) entries, is a sub-multiset of the kept candidates, and no left-out candidate beats a chosen one |
| Sorting.TakeSubMultiset | app/services/search_engine.py:368 | a slice `[:k]` of a list is a sub-multiset of it |
| Sorting.TopByKey | app/services/search_engine.py:183 | the first k of a list sorted by descending key are in order, drawn from the list, k of them or all when fewer, and nothing left out has a larger key than anything kept |
| SearchEngine.MatchOf | app/services/search_engine.py:369-387 | a match carries its row and a score clamped to [0, 1] |
| SearchEngine.MatchesOf | app/services/search_engine.py:367-387 | one match per ranked candidate, in order |
| SearchEngine.JoinError | app/services/search_engine.py:418-421 | `', '.join` of a list column fails exactly when the column is not a decoded list |
| SearchEngine.DumpError | app/services/search_engine.py:422 | rendering the work history fails exactly when the column does not decode |
| SearchEngine.ContextError | app/services/search_engine.py:415-424 | building the context fails exactly when some match cannot be rendered |
| SearchEngine.GenerateAnswer | app/services/search_engine.py:410-448 | no matches give the fixed text; an unrenderable match is an error; otherwise the answer is the model's reply or the fixed failure text |
| SearchEngine.SearchResult | app/services/search_engine.py:226-408 | without a user id the response is the "user_id is required" error; never more than five matches |
| SearchEngine.ScoreRows | app/services/search_engine.py:257-361 | the scoring loop returns the kept candidates or the first exception, as `Kept` defines |
| SearchEngine.BuildMatches | app/services/search_engine.py:367-387 | the loop builds exactly the matches of the ranked candidates |
| SearchEngine.Search | app/services/search_engine.py:226-408 | the method returns the response that `SearchResult` defines |
| SearchEngine.SearchEmptyCases | app/services/search_engine.py:230-256 | without a user id the error response comes back; with no searchable rows the "no resumes" response does |
| SearchEngine.SearchMatchesScoped | app/services/search_engine.py:238-248 | every match is one of the caller's rows with an embedding, scored above the threshold, with its score clamped |
| SearchEngine.MatchesAreRanked | app/services/search_engine.py:364-387 | non-empty matches are the ranked result of a successful scoring pass over the caller's rows |
| SearchEngine.SearchMatchesRanked | app/services/search_engine.py:364-387 | at most five matches, each with a score in (0.3, 1], in non-increasing order |
| SearchEngine.SearchKeepsBest | app/services/search_engine.py:364-368 | a row that qualified but was not returned scores no higher than any returned match |
| SearchEngine.ZeroKeywordNeverReturned | app/services/search_engine.py:323-338 | a row with no keyword hit and no location boost is never returned |
| SearchEngine.SearchAnalysis | app/services/search_engine.py:389-408 | with matches the analysis is the model's answer or the failure text; without matches it is one of the fixed texts or an error message |
| SearchEngine.SearchMatchesRenderable | app/services/search_engine.py:396-408 | every returned match could be rendered into the context; otherwise the search fails as a whole |
| SearchEngine.SemanticScore | app/services/search_engine.py:126-176 | a row is scored exactly when it has a decoded embedding and a decoded skill list; its score is the cosine plus 0.1 when a query word occurs in the joined lower-cased skills, plus 0.1 when the summary is non-empty and holds a query word, clamped to [0, 1] |
| SearchEngine.WithEmbedding | app/services/search_engine.py:113-118 | the rows considered are every row with a non-NULL embedding, whoever owns it |
| SearchEngine.SemanticKept | app/services/search_engine.py:126-176 | every collected entry is the id and score of some row |
| SearchEngine.SemanticFailureStays | app/services/search_engine.py:222-224 | once a row raises, the remaining rows do not change the outcome |
| SearchEngine.SemanticKeptStep | app/services/search_engine.py:126-176 | one more pass of the loop aborts, skips or appends the row's score |
| SearchEngine.SemanticTop | app/services/search_engine.py:105-185 | no row with an embedding, or an exception in the loop, gives the empty list; a non-negative top_k bounds the length |
| SearchEngine.SemanticSearch | app/services/search_engine.py:105-185 | the loop, sort and cut return exactly `SemanticTop` |
| SearchEngine.SemanticTopRanked | app/services/search_engine.py:178-185 | exactly min(top_k, n) of the n scores collected for a non-negative top_k, in non-increasing order, forming a sub-multiset of them, none left out scoring above one kept, each a row with an embedding and a score in [0, 1] |
| ResumeParser.ExtractName | app/services/resume_parser.py:131-136 | the name is one line with no surrounding whitespace |
| ResumeParser.ExtractNameFirstLine | app/services/resume_parser.py:131-136 | the name is the stripped first line of the text |
| ResumeParser.ExtractSkills | app/services/resume_parser.py:138-147 | the skills found are exactly the keywords occurring in the text ignoring case, in keyword order and without repeats |
| ResumeParser.SkillsFoundDistinct | app/services/resume_parser.py:138-147 | no keyword is reported twice, since the keyword list holds no repeats |
| ResumeParser.SkillsFound | app/services/resume_parser.py:138-147 | at most one entry per keyword (membership is stated by `SkillsFoundIff`) |
| ResumeParser.SkillsFoundIff | app/services/resume_parser.py:138-147 | a keyword is found if and only if it occurs in the lower-cased text |
| ResumeParser.SkillImpliedByLonger | app/services/resume_parser.py:138-147 | a keyword found implies every keyword it contains is found too |
| ResumeParser.JavaScriptImpliesJava | app/services/resume_parser.py:9-14 | a resume that mentions JavaScript is also credited with Java |
| ResumeParser.ExtractExperience | app/services/resume_parser.py:149-162 | the loop returns "<n> years" for the first pattern that matched, or the fixed text |
| ResumeParser.ExperienceOf | app/services/resume_parser.py:149-162 | with no capture the experience is "Experience not specified"; with any capture it ends in " years" |
| ResumeParser.FirstCapture | app/services/resume_parser.py:157-160 | the capture used is one of the captures |
| ResumeParser.ExperienceReadsBack | app/services/resume_parser.py:157-162 | the search engine reads the extracted experience back as the captured number, and reads nothing when no pattern matched |
| ResumeParser.LeadingYearsOfWord | app/services/resume_parser.py:162 | the fallback text "Experience not specified" has no leading number of years |
| ResumeParser.FirstKeywordIndex | app/services/resume_parser.py:169-174 | the index is the first line holding one of the keywords, or the end |
| ResumeParser.FirstKeywordLineIsFirst | app/services/resume_parser.py:169-174 | the education is the stripped first line holding a keyword, or absent |
| ResumeParser.FirstKeywordLineFrom | app/services/resume_parser.py:169-174 | scanning from a line returns that line when it holds a keyword, and continues otherwise |
| ResumeParser.LineHasKeyword | app/services/resume_parser.py:170-172 | the inner loop finds a keyword exactly when one occurs in the line |
| ResumeParser.ScanLines | app/services/resume_parser.py:169-174 | the nested loops return the first line holding a keyword |
| ResumeParser.ExtractEducation | app/services/resume_parser.py:164-174 | the method returns the education that `EducationOf` defines |
| ResumeParser.EducationOf | app/services/resume_parser.py:164-174 | the education is the stripped first line holding a keyword with its case, or absent when no line does |
| ResumeParser.FirstLineWith | app/services/resume_parser.py:200-203 | the index is the first line containing the label in any case, or the end |
| ResumeParser.SplitAfter | app/services/resume_parser.py:202 | `split(kw, 1)[1]` raises `IndexError` exactly when the label has no case-sensitive occurrence; otherwise it is the text after the first occurrence |
| ResumeParser.AfterKeywordAsWritten | app/services/resume_parser.py:202 | raises exactly when the split does; otherwise the stripped first line of what follows the first occurrence of the label with its own case |
| ResumeParser.AfterKeywordAsWrittenFails | app/services/resume_parser.py:202 | the split raises exactly when the line does not hold the label with its own case |
| ResumeParser.AfterKeyword | app/services/resume_parser.py:202 | the case-blind reading: the stripped first line of what follows the first occurrence of the label in any case, with no line break and no surrounding whitespace |
| ResumeParser.AfterKeywordAgrees | app/services/resume_parser.py:202 | the two readings agree whenever the first case-blind occurrence of the label is one with its own case |
| ResumeParser.FirstLabelled | app/services/resume_parser.py:196-205 | the index is the first label that occurs both in the text and in a line, or the end |
| ResumeParser.LocationByKeywordAsWritten | app/services/resume_parser.py:194-205 | no location exactly when no label occurs in the text and a line; any failure is the `IndexError` of line 202 |
| ResumeParser.LocationByKeyword | app/services/resume_parser.py:194-205 | with the case-blind split, no location exactly when no label occurs in the text and a line |
| ResumeParser.LocationAsWrittenFirst | app/services/resume_parser.py:194-205 | the search as written reads after the first label present, on the first line holding it, and fails when that line holds it only in another case |
| ResumeParser.LocationAsWrittenFrom | app/services/resume_parser.py:196-205 | trying a label either reads the location, raises, or moves on to the next label |
| ResumeParser.LocationByKeywordFirst | app/services/resume_parser.py:194-205 | with the case-blind split, the location is the text after the first label present, on the first line holding it, or absent |
| ResumeParser.ContactAsWritten | app/services/resume_parser.py:176-207 | raises exactly when no "City, ST" matched and the label search raises; otherwise the contact is absent exactly when no email, phone, "City, ST" or label was found, and is never an empty dictionary |
| ResumeParser.ContactOf | app/services/resume_parser.py:176-207 | with the case-blind split, the contact is absent exactly when no email, phone, "City, ST" or labelled location was found; otherwise it is not empty |
| ResumeParser.ContactAsWrittenAgrees | app/services/resume_parser.py:176-207 | the extraction as written equals the case-blind one whenever "City, ST" matched or no label is present |
| ResumeParser.LowerCaseLabelFailsAsWritten | app/services/resume_parser.py:194-205 | a line with a lower-case label and no "City, ST" match makes the contact extraction as written raise, while the case-blind version finds a location |
| ResumeParser.LowerCaseLabelExample | app/services/resume_parser.py:202 | the text "location: Paris" makes the contact extraction as written raise |
| ResumeParser.FindLine | app/services/resume_parser.py:200-203 | the line loop stops at the first line holding the label |
| ResumeParser.TryLabel | app/services/resume_parser.py:196-205 | one label: found exactly when it is in the text and in some line, and then the location or the `IndexError` that the split of its first line gives |
| ResumeParser.ScanLabels | app/services/resume_parser.py:195-205 | the label loop returns the location or the `IndexError` that `LocationByKeywordAsWritten` defines |
| ResumeParser.FindLocation | app/services/resume_parser.py:194-205 | the keyword fallback returns what `LocationByKeywordAsWritten` defines for the text |
| ResumeParser.ExtractContact | app/services/resume_parser.py:176-207 | the method returns the contact or the error that `ContactAsWritten` defines |
| ResumeParser.StripFence | app/services/resume_parser.py:78-80 | the cleaned reply has no surrounding whitespace; a reply without a fence is only stripped |
| ResumeParser.Unfence | app/services/resume_parser.py:79-80 | removing the fence keeps the reply free of surrounding whitespace |
| ResumeParser.CloseFence | app/services/resume_parser.py:80 | removing the closing fence keeps the text free of surrounding whitespace |
| ResumeParser.StripFenceOfStripped | app/services/resume_parser.py:78-80 | a fenced reply with no surrounding whitespace goes straight to the fence removal |
| ResumeParser.UnfenceJsonShape | app/services/resume_parser.py:79-80 | a "```json" reply loses its seven-character opening before the closing fence is removed |
| ResumeParser.OpenJsonFence | app/services/resume_parser.py:79-80 | the opening "```json" and the line break after it are removed |
| ResumeParser.CloseFenceEmpty | app/services/resume_parser.py:80 | an empty fenced body comes back empty |
| ResumeParser.CloseFenceOf | app/services/resume_parser.py:80 | a trailing "```" and the whitespace before it are removed |
| ResumeParser.CloseFenceBody | app/services/resume_parser.py:80 | the closing fence after a body is removed and the body is kept |
| ResumeParser.CloseFenceAfter | app/services/resume_parser.py:80 | the body before the closing fence is kept whole, the empty body included |
| ResumeParser.StripFenceRoundTrip | app/services/resume_parser.py:78-80 | a body fenced as "```json" comes back exactly |
| ResumeParser.UnfencePlain | app/services/resume_parser.py:79-80 | a plain "```" fence loses only its closing half |
| ResumeParser.PlainFenceKeepsOpening | app/services/resume_parser.py:78-80 | a reply fenced with a plain "```" keeps its opening fence, so the JSON decode sees it |
| ResumeParser.EmbeddingMentionsLists | app/services/resume_parser.py:98-109 | every skill and every certification is written into the embedding text |
| ResumeParser.EmbeddingText | app/services/resume_parser.py:99-108 | the text holds the name, summary, experience, education and location lines |
| ResumeParser.FromLlm | app/services/resume_parser.py:86-111 | the decoded reply is usable exactly when skills and certifications are not JSON null; a null list raises in the join and falls back to the rules |
| ResumeParser.FromReply | app/services/resume_parser.py:74-111 | the model's parse is used only when there is a reply whose unfenced text decodes |
| ResumeParser.Fallback | app/services/resume_parser.py:113-126 | fails exactly when the contact extraction raises; otherwise the raw text is the embedding text, with a name, an experience text, the education line found by keyword, the fixed summary, no certifications and no work history, and the contact found |
| ResumeParser.ParseOutcome | app/services/resume_parser.py:16-129 | a usable reply is returned as parsed; otherwise the rule-based parse; the parse fails, with "Failed to process PDF file", exactly when the reply is unusable and the contact extraction raises |
| ResumeParser.ParseResumeText | app/services/resume_parser.py:16-129 | the method returns the result or the error that `ParseOutcome` defines |
| ResumeParser.ReadReply | app/services/resume_parser.py:74-111 | the reply is unfenced, decoded and given its defaults as `FromReply` defines |
| ResumeParser.ParseByRules | app/services/resume_parser.py:113-126 | the fallback computes the parse or the error that `Fallback` defines |
| ResumeParser.FallbackWhenUnusable | app/services/resume_parser.py:113-129 | without a usable reply, the parse fails exactly when the contact extraction raises; otherwise it uses the rule-based name, skills and contact, the fixed summary, no certifications, no work history, and the raw text as embedding text |
| ResumeParser.EmptyReplyDefaults | app/services/resume_parser.py:86-95 | a decoded reply with none of the keys gets every default |
| ResumeParser.LlmListsInEmbedding | app/services/resume_parser.py:98-109 | the skills and certifications of a usable reply all appear in its embedding text |
| ScreeningGenerator.UnnumberAll | app/services/screening_generator.py:14 | each line loses its leading digits, dots, dashes and spaces |
| ScreeningGenerator.Cleaned | app/services/screening_generator.py:12-16 | every cleaned question is non-empty and does not start with numbering |
| ScreeningGenerator.CleanedIsFilter | app/services/screening_generator.py:12-16 | cleaning keeps, in order, exactly the unnumbered questions that are not empty |
| ScreeningGenerator.CleanedMembers | app/services/screening_generator.py:12-16 | a text is a cleaned question if and only if it is non-empty and some line unnumbers to it |
| ScreeningGenerator.CleanQuestions | app/services/screening_generator.py:12-16 | the loop returns the cleaned questions |
| ScreeningGenerator.FallbackQuestions | app/services/screening_generator.py:20-26 | there are exactly five fallback questions |
| ScreeningGenerator.FallbackMentionsSkill | app/services/screening_generator.py:20-26 | every fallback question names the skill |
| ScreeningGenerator.GenerateQuestions | app/services/screening_generator.py:5-26 | without a reply, the five fallback questions; with one, the first five cleaned non-blank lines, each without numbering |
| ScreeningGenerator.NumberingRemoved | app/services/screening_generator.py:14 | numbering before a question is removed and the question is kept whole |
| ScreeningGenerator.NumberingOnlyDropped | app/services/screening_generator.py:14-16 | a line holding only numbering yields no question |
| ScreeningGenerator.NumberedLineCleaned | app/services/screening_generator.py:11-16 | "1. What is X?" yields "What is X?" |
| SearchRoutes.ScoreValue | app/routes/search.py:138-144 | the score is in [0, 1], equal to a numeric score already in range, and 0 for one that is not a number |
| SearchRoutes.ScoreValueMonotone | app/routes/search.py:144 | clamping keeps the order of two numeric scores |
| SearchRoutes.ProcessMatch | app/routes/search.py:124-155 | the plain fields are copied; undecodable skills become [] and undecodable contact {}; the rest is kept; the score is clamped |
| SearchRoutes.ProcessMatches | app/routes/search.py:116-160 | one processed entry per match, in order |
| SearchRoutes.RouteMatches | app/routes/search.py:116-160 | the route returns as many entries as the search matched |
| SearchRoutes.RouteKeepsRanking | app/routes/search.py:116-160 | the route returns at most five entries, keeps the engine's scores in (0.3, 1] and keeps their order |
| SearchRoutes.FirstName | app/routes/search.py:266 | raises exactly on a non-empty all-whitespace name; gives "" for no name; otherwise the first whitespace-free word |
| SearchRoutes.EducationDetails | app/routes/search.py:268-278 | a detail is a non-empty stripped comma-separated part of a non-empty education |
| SearchRoutes.Certifications | app/routes/search.py:280-290 | a certification is a stripped comma-separated part of a non-empty education that holds a certification keyword |
| SearchRoutes.ParseEducation | app/routes/search.py:268-290 | the details and certifications are those of `EducationDetails` and `Certifications` |
| SearchRoutes.KeepDegrees | app/routes/search.py:272-278 | the loop keeps exactly the non-empty parts, in order |
| SearchRoutes.KeepCertifications | app/routes/search.py:284-290 | the loop keeps exactly the parts holding a certification keyword, in order |
| SearchRoutes.EducationDetailsMembers | app/routes/search.py:268-278 | a detail is a non-empty stripped comma-separated part, and the details keep the parts' order |
| SearchRoutes.CertificationNonEmpty | app/routes/search.py:283-285 | a part holding a certification keyword is not empty |
| SearchRoutes.CertificationsAmongDetails | app/routes/search.py:268-290 | the certifications are the details that hold a keyword, in order |
| SearchRoutes.ChosenSkill | app/routes/search.py:337 | the first listed skill, or "developer" when there is none |
| SearchRoutes.IsSenior | app/routes/search.py:338 | an experience holding "5", or "senior" in any case, makes the candidate senior, and a senior candidate has a non-empty experience |
| SearchRoutes.Level | app/routes/search.py:338 | "senior" exactly when the experience mentions "5" or "senior", and "mid" otherwise |
| SearchRoutes.FiveMeansSenior | app/routes/search.py:338 | any experience containing "5", such as "1.5 years", asks senior questions |
| SearchRoutes.ScreeningQuestions | app/routes/search.py:320-343 | the level follows `Level`; at most five questions; without a reply, five questions each naming the chosen skill |
| SearchRoutes.KeySkills | app/routes/search.py:361-362 | with no skills the key skills are "developer" |
| SearchRoutes.KeySkillsMentionAll | app/routes/search.py:361-362 | the key skills name every skill, and so the chosen one |
| SearchRoutes.RowContribution | app/routes/search.py:449-472 | an unreadable experience adds nothing; a contact that does not decode to an object adds no location and no skills; a location is added only when non-empty |
| SearchRoutes.GatherConcat | app/routes/search.py:448-472 | gathering over two runs of contributions joins what each gathers |
| SearchRoutes.GatheredConcat | app/routes/search.py:448-472 | gathering over two runs of rows joins what each run gathers |
| SearchRoutes.GatheredSnoc | app/routes/search.py:448-472 | one more row adds its own contribution |
| SearchRoutes.SilentRowDropped | app/routes/search.py:448-472 | a row that adds nothing can be dropped |
| SearchRoutes.UnreadableRowIgnored | app/routes/search.py:450-455 | a row whose experience cannot be read is skipped entirely |
| SearchRoutes.StoppedRowAddsNoSkills | app/routes/search.py:458-464 | a row whose contact does not decode to an object adds no location and no skills |
| SearchRoutes.GatherRows | app/routes/search.py:443-472 | the loop collects what `Gathered` defines |
| SearchRoutes.ReadRow | app/routes/search.py:449-472 | one pass of the loop body appends the row's contribution |
| SearchRoutes.SumBounds | app/routes/search.py:475 | the sum of values within bounds lies within the count times those bounds |
| SearchRoutes.AverageBounds | app/routes/search.py:475 | the average lies between the smallest and largest years read |
| SearchRoutes.YearBins | app/routes/search.py:493 | one bin per number of years |
| SearchRoutes.YearsCaptions | app/routes/search.py:495-496 | each bin is named "<n> years" and keeps its count |
| SearchRoutes.YearsCaptionsSum | app/routes/search.py:495-496 | naming the bins keeps the total count |
| SearchRoutes.CaptionInjective | app/routes/search.py:496 | distinct bins get distinct names |
| SearchRoutes.DashboardMetrics | app/routes/search.py:430-503 | the method returns the metrics that `MetricsOf` defines |
| SearchRoutes.MetricsOf | app/routes/search.py:430-503 | the total is the number of rows, and the average is 0 without years (the distributions are stated by `DistributionsCount`) |
| SearchRoutes.DistributionsCount | app/routes/search.py:483-503 | each distribution lists every collected value once, with its number of occurrences, and the counts add up to the number collected; without years the average is 0 |
| ResumeRoutes.Validate | app/routes/resume.py:30-37 | accepted exactly when a non-empty file name ends, ignoring case, in .pdf, .doc or .docx; otherwise one of the three 400 messages |
| ResumeRoutes.Allowed | app/routes/resume.py:36 | an allowed name has at least four characters |
| ResumeRoutes.UpperCaseAccepted | app/routes/resume.py:35 | "CV.PDF" is accepted |
| ResumeRoutes.InnerExtensionRefused | app/routes/resume.py:35 | "cv.pdf.exe" is refused |
| ResumeRoutes.RFind | app/routes/resume.py:41 | the index is the last position holding the character, or -1 |
| ResumeRoutes.SplitExt | app/routes/resume.py:41 | stem and extension make up the name; the extension starts with its only '.' and holds no '/' |
| ResumeRoutes.Extension | app/routes/resume.py:41 | the extension is a suffix of the name, starts with its only '.' and holds no '/' |
| ResumeRoutes.ExtensionChars | app/routes/resume.py:41 | what follows the last '.' after the last '/' holds neither character again |
| ResumeRoutes.RFindPrefix | app/routes/resume.py:41 | the last occurrence is found in the prefix when the tail does not hold the character |
| ResumeRoutes.RFindAt | app/routes/resume.py:41 | a position that no later occurrence follows is the last occurrence |
| ResumeRoutes.AllowedAreDotSuffixes | app/routes/resume.py:35 | every allowed extension is a dot followed by letters |
| ResumeRoutes.AcceptedSuffix | app/routes/resume.py:35-41 | an accepted name's suffix begins at its last '.' and holds no '/' |
| ResumeRoutes.AcceptedExtension | app/routes/resume.py:35-41 | the extension of an accepted name is the accepted suffix as written, unless only dots precede it |
| ResumeRoutes.ExtensionAt | app/routes/resume.py:41 | the extension starts at the last '.' after the last '/', unless only dots precede it |
| ResumeRoutes.AcceptedNameExtension | app/routes/resume.py:35-41 | an accepted name's extension is empty or, lower-cased, one of the allowed ones |
| ResumeRoutes.DotOnlyNameExample | app/routes/resume.py:35-42 | a file called ".pdf" is accepted yet has no extension |
| ResumeRoutes.S3Key | app/routes/resume.py:42 | the key starts with "resumes/<user>/" and ends with the extension |
| ResumeRoutes.KeyComponents | app/routes/resume.py:42 | the key splits on '/' into "resumes", the user and the file part |
| ResumeRoutes.NoSlashInStem | app/routes/resume.py:42 | the file part holds no '/' when its pieces do not |
| ResumeRoutes.ThreeComponents | app/routes/resume.py:42 | three pieces without '/' joined by '/' split back into those three |
| ResumeRoutes.EntryKeys | app/routes/resume.py:72 | the keys of the contact entries, in order |
| ResumeRoutes.ContactValues | app/routes/resume.py:72 | a contact has values exactly when it has entries, and the first value is the one the first key looks up |
| ResumeRoutes.ContactValuesMembers | app/routes/resume.py:72 | the values listed are exactly those the contact's keys look up |
| ResumeRoutes.ContactValuesOfDistinct | app/routes/resume.py:72 | without repeated keys the values are those of the entries, in order |
| ResumeRoutes.TextParts | app/routes/resume.py:67-73 | five parts: the first is the summary when it is non-empty, the second holds every skill, and the last holds the value of the first contact key |
| ResumeRoutes.TextBlob | app/routes/resume.py:67-74 | building the blob fails exactly when the contact is `None`, with the `.values()` error |
| ResumeRoutes.PartInJoin | app/routes/resume.py:74 | each part is contained in the join of the non-empty parts |
| ResumeRoutes.JoinNonEmpty | app/routes/resume.py:74 | the join of non-empty parts is empty exactly when there are none |
| ResumeRoutes.BlobMentions | app/routes/resume.py:67-74 | the blob contains the summary, experience, education, every skill and every contact value |
| ResumeRoutes.BlobEmptyIff | app/routes/resume.py:67-74 | the blob is empty exactly when all five parts are |
| ResumeRoutes.FallbackWithoutContactHasNoBlob | app/routes/resume.py:67-74 | a rule-based parse that finds no contact and no label succeeds but makes the blob fail |
| ResumeRoutes.NoneFields | app/models.py:89-95 | lists the string fields of the response that the parse left empty, and is empty exactly when name, experience, education and summary are all present |
| ResumeRoutes.NoneFieldsMembers | app/models.py:89-95 | each of the four string fields is listed exactly when the parse left it empty |
| ResumeRoutes.Respond | app/routes/resume.py:76-104 | after the blob: succeeds exactly when the embedding and save succeed and no response field is missing; a missing name is refused by the database (app/models.py:29) with "Error storing resume: " and nothing saved; any other missing field fails the response after the row was committed; every failure deletes the key |
| ResumeRoutes.UploadResume | app/routes/resume.py:19-104 | failures are 500s prefixed "Error processing resume: " that clean up exactly when a key was assigned; a stored resume passed every check, was parsed with a contact and with every response field present, and has a key under its user; a failure that leaves a saved row comes from a parse with a name but another response field missing |
| ResumeRoutes.RejectionRewrapped | app/routes/resume.py:30-37 | a 400 from validation reaches the client as a 500 carrying "400: " and the message, with no cleanup |
| ResumeRoutes.CleanupRemovesKey | app/routes/resume.py:97-104 | after validation, any failure deletes exactly the key that was written |
| ResumeRoutes.UploadStores | app/routes/resume.py:40-95 | when nothing fails and name, experience, education and summary are present, the resume is stored under its key with its blob |
| ResumeRoutes.MissingFieldUploadFails | app/routes/resume.py:81-104 | a parse with a name but no experience, education or summary is saved, then fails the response; the upload reports a 500 and deletes the stored file, leaving the saved row |
| ResumeRoutes.NamelessUploadFails | app/services/database.py:8-39 | a parse without a name is refused by the database: a 500 carrying "Error storing resume: ", the stored file deleted and no row saved |
| ResumeRoutes.OnlyEducationMissing | app/models.py:89-95 | a parse missing only the education lists education alone |
| ResumeRoutes.FallbackLacksOnlyEducation | app/services/resume_parser.py:113-126 | a rule-based parse of a resume naming no degree misses the education alone |
| ResumeRoutes.NoEducationUploadFails | app/routes/resume.py:81-104 | uploading a resume parsed by the rules that names no degree fails with the response's error over education, deletes the stored file and leaves the saved row |
| ResumeRoutes.RespondIntended | app/routes/resume.py:76-104 | with the response accepting empty optional fields: succeeds exactly when the embedding and save succeed and the name is present, and no failure leaves a saved row |
| ResumeRoutes.RespondAgreesWhenComplete | app/routes/resume.py:76-104 | the response step as written and as intended agree whenever every response field is present |
| ResumeRoutes.UploadWithoutContactFails | app/routes/resume.py:60-104 | a rule-based parse with no contact fails the upload and removes the stored file |
| ResumeRoutes.UploadBlobFails | app/routes/resume.py:67-104 | a blob that cannot be built fails the upload and removes the stored file |
| ResumeRoutes.LowerCaseLabelUploadFails | app/routes/resume.py:60-104 | uploading "location: Paris" without a usable reply fails with "Failed to process PDF file" and removes the stored file |

## Left out

- Reading the PDF text with PyMuPDF (`resume_parser.py` and `resume.py`): the text is an input.
- Calls to the language model: the reply is an input.
  - In the resume parser, `None` stands for a call that raised.
  - In the screening generator, `None` stands for the fallback path.
  - In retrieval and generation, `Narration` stands for the answer or a failed call.
  - The prompts themselves are left out. The `level` only shapes the prompt, so it has no effect on the questions modelled.
- Regular expressions: the matches of the email, phone, "City, ST" and experience patterns are inputs (`PatternMatches` and the captures).
- `json.loads`: the decoded reply is an input. JSON columns are datatypes with a malformed case. Reply values of another JSON type than the prompt asks for are not modelled: for example a plain string for `skills`, which `', '.join` at `resume_parser.py` line 102 would spread into single characters.
- Unicode: `lower`, `isspace` and digits are modelled on ASCII only.
- SearchEngine.ExperienceScore: its own contract states only the case where the years meet the requirement; the 0.4 factor for unreadable years and the shortfall product are stated for all inputs by the lemma `ExperienceScoreCases`, so that the proofs unfolding the function (such as `ShortfallOrder`) do not carry the products.
- ResumeParser.SkillsFound: its own contract bounds only the length; which keywords are found is stated by `SkillsFoundIff` and `ExtractSkills`, and the absence of repeats by `SkillsFoundDistinct`.
- ResumeParser.ContactOf, ResumeParser.LocationByKeyword, ResumeParser.AfterKeyword: these are the case-blind reading of line 202 (see Findings); the code as written is `ContactAsWritten`, `LocationByKeywordAsWritten` and `AfterKeywordAsWritten`, which the parse and the upload use.
- Numerals.ParseFloat: does not accept "inf", "infinity", "nan" or underscores, which Python's `float()` reads.
- Sorting ties: `search` sorts `(similarity, row)` tuples (line 364) and `semantic_search` sorts `(similarity, id)` tuples (line 183), so equal scores are ordered by comparing the row or id in descending order. The model compares scores only: its sort is specified as ordered by score and a permutation, so nothing is stated about the order of equal scores.
- SearchRoutes.MetricsOf: leaves out `round` of the average (line 475) and the percentages of the skill distribution (line 488). It also leaves out the most frequent location and skill, chosen by `max(set(...))` (lines 476-477), because set iteration order is not specified.
- `0.4 ** shortfall` on real shortfalls is the parameter `decay`. Its assumed properties (`DecayModel`) are that it lies in (0, 1), never increases and equals 0.4^n on whole numbers.
- The database, authentication, the storage service and embeddings are inputs. The rows returned, cosine similarities, the user id, upload errors and deletion are all inputs.
- Fetching and re-ordering full rows after `semantic_search` (lines 187-221) is not modelled. The model ends with the top ids and scores.
- The route handlers' request parsing (`search.py` lines 76-106) is not modelled.
- E-mail sending, `get_resume`, `verify_database`, `SearchEngine.store_resume` and `clear_index` are not part of this model. Of `store_resume` in `app/services/database.py`, the model keeps only its outcome: the commit, or the "Error storing resume: " failure when the row has no name.
- ResumeRoutes.UploadResume: the texts of the database's and the response model's errors are the parameter `rejected`, given the names of the missing fields.
- Scores are exact reals: the floating-point rounding of the similarities, boosts, penalties and averages is not modelled, so ties and threshold comparisons that rounding could flip are decided exactly.
- ResumeRoutes.Validate: "No file provided" cannot occur through the framework, but is kept as the `None` case.
- ResumeRoutes.KeyComponents: assumes no '/' in the user id, random id and extension. The first two come from outside the code.
- Cleanup failures inside the `except` block (`resume.py` lines 99-103) are swallowed in the source; the model records only which key is deleted.

## Findings

| source | as written | input that shows it | evidently intended | confidence | as-written member | corrected member |
|---|---|---|---|---|---|---|
| app/routes/resume.py:81-104 | the row is committed by `store_resume` before the response is built, and `ResumeUploadResponse` declares experience, education and summary as `str` although the table lets them be empty; a missing field makes building the response raise, and the handler then deletes the stored file but not the saved row, whose `s3_location` names the deleted file | a resume parsed by the rules in which no line names a degree, so its education is `None` | a response accepting the empty fields, so that the upload succeeds once the row is saved | not executed | ResumeRoutes.NoEducationUploadFails, ResumeRoutes.MissingFieldUploadFails | ResumeRoutes.RespondIntended |
| app/services/resume_parser.py:202 | the line is found by a case-blind test but split on the label with its original case, so `split(kw, 1)[1]` raises IndexError when the label appears only in another case; the parse then raises "Failed to process PDF file" and the upload fails with a 500 | the text "location: Paris" with no "City, ST" match and no usable reply | split after the label found in any case, giving "Paris" | not executed | ResumeParser.LowerCaseLabelExample, ResumeRoutes.LowerCaseLabelUploadFails | ResumeParser.LocationByKeywordFirst, ResumeParser.ContactOf |

=== FILE: lists.dfy ===
/** Order-preserving selection from a list, as Python's list comprehensions with an `if` and the
    append-in-a-loop idiom produce it. */
module Lists {
  import opened Text

  /** The elements of `s` that satisfy `p`, in their original order. */
  function Filter<T(!new)>(s: seq<T>, p: T -> bool): (r: seq<T>)
    ensures |r| <= |s|
    ensures forall x :: x in r <==> x in s && p(x)
    decreases |s|
  {
    if s == [] then []
    else
      var init := s[..|s| - 1];
      var last := s[|s| - 1];
      assert s == init + [last];
      Filter(init, p) + (if p(last) then [last] else [])
  }

  /** `a` can be obtained from `b` by deleting elements. */
  predicate IsSubsequence<T(==)>(a: seq<T>, b: seq<T>)
    decreases |b|
  {
    a == [] ||
    (b != [] &&
      if a[|a| - 1] == b[|b| - 1] then IsSubsequence(a[..|a| - 1], b[..|b| - 1])
      else IsSubsequence(a, b[..|b| - 1]))
  }

  /** Filtering one more element of a prefix: the step of a loop that builds a filter. */
  lemma FilterStep<T(!new)>(s: seq<T>, i: nat, p: T -> bool)
    requires i < |s|
    ensures Filter(s[..i + 1], p) == Filter(s[..i], p) + (if p(s[i]) then [s[i]] else [])
  {
    assert s[..i + 1][..i] == s[..i];
  }

  /** Filtering keeps the relative order of what it keeps. */
  lemma {:induction false} FilterIsSubsequence<T(!new)>(s: seq<T>, p: T -> bool)
    ensures IsSubsequence(Filter(s, p), s)
    decreases |s|
  {
    if s != [] {
      var init := s[..|s| - 1];
      var last := s[|s| - 1];
      var kept := Filter(init, p);
      FilterIsSubsequence(init, p);
      if p(last) {
        assert (kept + [last])[..|kept|] == kept;
      } else {
        assert Filter(s, p) == kept;
        assert s[..|s| - 1] == init;
        if kept != [] {
          assert kept[|kept| - 1] in kept;
          assert p(kept[|kept| - 1]);
        }
      }
    }
  }

  /** `[f(x) for x in s]`. */
  function MapSeq<A, B>(f: A -> B, s: seq<A>): (r: seq<B>)
    ensures |r| == |s|
    ensures forall i :: 0 <= i < |s| ==> r[i] == f(s[i])
  {
    seq(|s|, i requires 0 <= i < |s| => f(s[i]))
  }

  /** Mapping distributes over concatenation. */
  lemma MapSeqConcat<A, B>(f: A -> B, a: seq<A>, b: seq<A>)
    ensures MapSeq(f, a + b) == MapSeq(f, a) + MapSeq(f, b)
  {
    var r := MapSeq(f, a + b);
    forall i | 0 <= i < |r|
      ensures r[i] == (MapSeq(f, a) + MapSeq(f, b))[i]
    {
      if i < |a| {
        assert (a + b)[i] == a[i];
      } else {
        assert (a + b)[i] == b[i - |a|];
      }
    }
  }

  /** A list without repeated elements. */
  predicate Distinct<T(==)>(s: seq<T>) {
    forall i, j :: 0 <= i < j < |s| ==> s[i] != s[j]
  }

  /** Filtering a list without repeats gives a list without repeats. */
  lemma {:induction false} FilterDistinct<T(!new)>(s: seq<T>, p: T -> bool)
    requires Distinct(s)
    ensures Distinct(Filter(s, p))
    decreases |s|
  {
    if s != [] {
      var init := s[..|s| - 1];
      var last := s[|s| - 1];
      assert Distinct(init);
      FilterDistinct(init, p);
      var kept := Filter(init, p);
      if p(last) {
        assert last !in init;
        assert last !in kept;
        var r := kept + [last];
        forall i, j | 0 <= i < j < |r|
          ensures r[i] != r[j]
        {
          if j == |kept| {
            assert r[i] in kept;
          }
        }
      }
    }
  }

  /** Filtering by a condition that implies another is filtering twice. */
  lemma {:induction false} FilterNarrower<T(!new)>(s: seq<T>, p: T -> bool, q: T -> bool)
    requires forall x :: p(x) ==> q(x)
    ensures Filter(s, p) == Filter(Filter(s, q), p)
    decreases |s|
  {
    if s != [] {
      var init := s[..|s| - 1];
      var last := s[|s| - 1];
      FilterNarrower(init, p, q);
      assert s[..|s| - 1] == init;
      if q(last) {
        var wide := Filter(init, q) + [last];
        assert Filter(s, q) == wide;
        assert wide[..|wide| - 1] == Filter(init, q) && wide[|wide| - 1] == last;
        assert Filter(wide, p) == Filter(Filter(init, q), p) + (if p(last) then [last] else []);
      } else {
        assert Filter(s, q) == Filter(init, q);
      }
    }
  }

  // ---------------------------------------------------------------------------
  // Stripped parts

  /** `[p.strip() for p in parts if p.strip()]`: the parts that are not blank, stripped, in
      order. */
  function NonBlankParts(parts: seq<string>): (r: seq<string>)
    ensures forall i :: 0 <= i < |r| ==> r[i] != [] && Stripped(r[i])
  {
    var stripped := StripAll(parts);
    FilterStripped(stripped);
    Filter(stripped, NonEmpty)
  }

  lemma FilterStripped(stripped: seq<string>)
    requires forall i :: 0 <= i < |stripped| ==> Stripped(stripped[i])
    ensures forall i :: 0 <= i < |Filter(stripped, NonEmpty)| ==>
      Filter(stripped, NonEmpty)[i] != [] && Stripped(Filter(stripped, NonEmpty)[i])
  {
    var kept := Filter(stripped, NonEmpty);
    forall i | 0 <= i < |kept|
      ensures kept[i] != [] && Stripped(kept[i])
    {
      assert kept[i] in kept;
      var j :| 0 <= j < |stripped| && stripped[j] == kept[i];
    }
  }

  /** A part is kept, stripped, exactly when it is not blank; kept parts stay in order. */
  lemma NonBlankMembers(parts: seq<string>)
    ensures forall x :: x in NonBlankParts(parts) <==>
      x != [] && exists i :: 0 <= i < |parts| && Strip(parts[i]) == x
    ensures IsSubsequence(NonBlankParts(parts), StripAll(parts))
  {
    var stripped := StripAll(parts);
    assert IsSubsequence(NonBlankParts(parts), stripped) by {
      FilterIsSubsequence(stripped, NonEmpty);
    }
    assert forall x :: x in Filter(stripped, NonEmpty) <==>
      x != [] && exists i :: 0 <= i < |parts| && Strip(parts[i]) == x
    by {
      assert stripped == MapSeq(Strip, parts);
      FilterMapMembers(Strip, parts, NonEmpty);
    }
  }

  /** What filtering a mapped list keeps: the images that pass the test. */
  lemma FilterMapMembers<A, B(!new)>(f: A -> B, s: seq<A>, p: B -> bool)
    ensures forall x :: x in Filter(MapSeq(f, s), p) <==>
      p(x) && exists i :: 0 <= i < |s| && f(s[i]) == x
  {
    var images := MapSeq(f, s);
    forall x
      ensures x in images <==> exists i :: 0 <= i < |s| && f(s[i]) == x
    {
      if x in images {
        var i :| 0 <= i < |images| && images[i] == x;
        assert f(s[i]) == x;
      }
      if exists i :: 0 <= i < |s| && f(s[i]) == x {
        var i :| 0 <= i < |s| && f(s[i]) == x;
        assert images[i] == x;
      }
    }
  }

  // ---------------------------------------------------------------------------
  // Counting (Python's `collections.Counter`)

  /** The keys of a tally, in order. */
  function Keys<T>(t: seq<(T, nat)>): (ks: seq<T>)
    ensures |ks| == |t|
    ensures forall i :: 0 <= i < |t| ==> ks[i] == t[i].0
  {
    seq(|t|, i requires 0 <= i < |t| => t[i].0)
  }

  /** The count a tally records for `x` (its first entry for `x`), 0 when it has none. */
  function CountOf<T(==)>(t: seq<(T, nat)>, x: T): nat {
    if t == [] then 0 else if t[0].0 == x then t[0].1 else CountOf(t[1..], x)
  }

  /** The sum of the counts of a tally. */
  function SumCounts<T>(t: seq<(T, nat)>): nat {
    if t == [] then 0 else t[0].1 + SumCounts(t[1..])
  }

  /** One more occurrence of `x`: its entry goes up by one, or a new entry is added last. */
  function Bump<T(==)>(t: seq<(T, nat)>, x: T): seq<(T, nat)> {
    if t == [] then [(x, 1)]
    else if t[0].0 == x then [(x, t[0].1 + 1)] + t[1..]
    else [t[0]] + Bump(t[1..], x)
  }

  /** `Counter(s)`, in the order its items are listed: one entry per distinct element, in
      order of first occurrence. */
  function Tally<T(==)>(s: seq<T>): seq<(T, nat)>
    decreases |s|
  {
    if s == [] then [] else Bump(Tally(s[..|s| - 1]), s[|s| - 1])
  }

  lemma {:induction false} BumpKeys<T>(t: seq<(T, nat)>, x: T)
    ensures Keys(Bump(t, x)) == if x in Keys(t) then Keys(t) else Keys(t) + [x]
    decreases |t|
  {
    if t != [] {
      KeysCons(t[0], t[1..]);
      assert [t[0]] + t[1..] == t;
      if t[0].0 == x {
        KeysCons((x, t[0].1 + 1), t[1..]);
      } else {
        BumpKeys(t[1..], x);
        KeysCons(t[0], Bump(t[1..], x));
      }
    }
  }

  lemma KeysCons<T>(h: (T, nat), t: seq<(T, nat)>)
    ensures Keys([h] + t) == [h.0] + Keys(t)
  {
  }

  lemma {:induction false} BumpCount<T>(t: seq<(T, nat)>, x: T, y: T)
    ensures CountOf(Bump(t, x), y) == CountOf(t, y) + (if y == x then 1 else 0)
    decreases |t|
  {
    if t != [] && t[0].0 != x {
      BumpCount(t[1..], x, y);
      assert ([t[0]] + Bump(t[1..], x))[1..] == Bump(t[1..], x);
    } else if t != [] {
      assert ([(x, t[0].1 + 1)] + t[1..])[1..] == t[1..];
    }
  }

  lemma {:induction false} BumpSum<T>(t: seq<(T, nat)>, x: T)
    ensures SumCounts(Bump(t, x)) == SumCounts(t) + 1
    decreases |t|
  {
    if t != [] && t[0].0 != x {
      BumpSum(t[1..], x);
      assert ([t[0]] + Bump(t[1..], x))[1..] == Bump(t[1..], x);
    } else if t != [] {
      assert ([(x, t[0].1 + 1)] + t[1..])[1..] == t[1..];
    }
  }

  /** The tally lists each element of `s` once, and nothing else, in order of first
      occurrence. */
  lemma TallyKeys<T>(s: seq<T>)
    ensures Distinct(Keys(Tally(s)))
    ensures forall x :: x in Keys(Tally(s)) <==> x in s
    ensures s != [] ==> Keys(Tally(s))[0] == s[0]
  {
    TallyKeysDistinct(s);
    TallyKeysMembers(s);
    if s != [] {
      TallyKeysFirst(s);
    }
  }

  lemma {:induction false} TallyKeysDistinct<T>(s: seq<T>)
    ensures Distinct(Keys(Tally(s)))
    decreases |s|
  {
    if s != [] {
      var init := s[..|s| - 1];
      var last := s[|s| - 1];
      TallyKeysDistinct(init);
      BumpKeys(Tally(init), last);
      if last !in Keys(Tally(init)) {
        DistinctSnoc(Keys(Tally(init)), last);
      }
    }
  }

  lemma {:induction false} TallyKeysMembers<T>(s: seq<T>)
    ensures forall x :: x in Keys(Tally(s)) <==> x in s
    decreases |s|
  {
    if s != [] {
      var init := s[..|s| - 1];
      var last := s[|s| - 1];
      assert s == init + [last];
      TallyKeysMembers(init);
      BumpKeys(Tally(init), last);
    }
  }

  lemma {:induction false} TallyKeysFirst<T>(s: seq<T>)
    requires s != []
    ensures Keys(Tally(s))[0] == s[0]
    decreases |s|
  {
    var init := s[..|s| - 1];
    var last := s[|s| - 1];
    BumpKeys(Tally(init), last);
    if init == [] {
      assert Tally(s) == [(last, 1)];
    } else {
      TallyKeysFirst(init);
      assert init[0] == s[0];
    }
  }

  /** Two lists without repeats and with no common element join into one without repeats. */
  lemma DistinctConcat<T>(a: seq<T>, b: seq<T>)
    requires Distinct(a) && Distinct(b)
    requires forall x :: x in a ==> x !in b
    ensures Distinct(a + b)
  {
    var r := a + b;
    forall i, j | 0 <= i < j < |r|
      ensures r[i] != r[j]
    {
      if i < |a| <= j {
        assert r[i] in a && r[j] == b[j - |a|];
      }
    }
  }

  lemma DistinctSnoc<T>(ks: seq<T>, x: T)
    requires Distinct(ks) && x !in ks
    ensures Distinct(ks + [x])
  {
    var r := ks + [x];
    forall i, j | 0 <= i < j < |r|
      ensures r[i] != r[j]
    {
      if j == |ks| {
        assert r[i] in ks;
      }
    }
  }

  /** A list without repeats is its own list of keys. */
  lemma {:induction false} TallyKeysOfDistinct<T>(s: seq<T>)
    requires Distinct(s)
    ensures Keys(Tally(s)) == s
    decreases |s|
  {
    if s != [] {
      var init := s[..|s| - 1];
      var last := s[|s| - 1];
      assert s == init + [last];
      assert Distinct(init);
      TallyKeysOfDistinct(init);
      BumpKeys(Tally(init), last);
      assert last !in init;
    }
  }

  /** Each element's count is the number of times it occurs in `s`. */
  lemma {:induction false} TallyCounts<T>(s: seq<T>, x: T)
    ensures CountOf(Tally(s), x) == multiset(s)[x]
    decreases |s|
  {
    if s != [] {
      var init := s[..|s| - 1];
      var last := s[|s| - 1];
      assert s == init + [last];
      TallyCounts(init, x);
      BumpCount(Tally(init), last, x);
    }
  }

  /** The counts add up to the length of `s`. */
  lemma {:induction false} TallySum<T>(s: seq<T>)
    ensures SumCounts(Tally(s)) == |s|
    decreases |s|
  {
    if s != [] {
      TallySum(s[..|s| - 1]);
      BumpSum(Tally(s[..|s| - 1]), s[|s| - 1]);
    }
  }
}

=== FILE: numerals.dfy ===
/** Decimal numerals: Python's `float(token)` on a whitespace-free token and `str(n)` on integers. */
module Numerals {
  import opened Wrappers

  predicate IsDigit(c: char) {
    '0' <= c <= '9'
  }

  predicate IsDigits(s: string) {
    forall i :: 0 <= i < |s| ==> IsDigit(s[i])
  }

  function DigitValue(c: char): nat
    requires IsDigit(c)
  {
    c as int - '0' as int
  }

  function DigitChar(d: nat): (c: char)
    requires d < 10
    ensures IsDigit(c) && DigitValue(c) == d
  {
    ('0' as int + d) as char
  }

  /** The value of a decimal digit string, most significant digit first. */
  function DigitsValue(s: string): nat
    requires IsDigits(s)
    decreases |s|
  {
    if s == [] then 0 else DigitsValue(s[..|s| - 1]) * 10 + DigitValue(s[|s| - 1])
  }

  function Pow10(n: nat): (p: nat)
    ensures p >= 1
  {
    if n == 0 then 1 else 10 * Pow10(n - 1)
  }

  /** `str(n)` for a natural number: its decimal digits, which read back as `n`. */
  function NatToString(n: nat): (s: string)
    ensures s != [] && IsDigits(s)
    ensures DigitsValue(s) == n
    decreases n
  {
    if n < 10 then [DigitChar(n)]
    else
      var prefix := NatToString(n / 10);
      var s := prefix + [DigitChar(n % 10)];
      assert s[..|s| - 1] == prefix;
      s
  }

  /** `str(i)` for an integer. */
  function IntToString(i: int): (s: string)
    ensures s != []
    ensures i < 0 <==> s[0] == '-'
  {
    if i < 0 then "-" + NatToString(-i) else NatToString(i)
  }

  /** Python's `int(x)` on a float: truncation toward zero. */
  function Truncate(x: real): (i: int)
    ensures 0.0 <= x ==> i as real <= x < i as real + 1.0
    ensures x < 0.0 ==> i as real - 1.0 < x <= i as real
  {
    if x >= 0.0 then x.Floor else -((-x).Floor)
  }

  // ---------------------------------------------------------------------------
  // float(token)

  /** Index of the first character of `s` that is in `cs`, or `|s|` if there is none. */
  function IndexOfAny(s: string, cs: set<char>): (i: nat)
    ensures i <= |s|
    ensures i < |s| ==> s[i] in cs
    ensures forall j :: 0 <= j < i ==> s[j] !in cs
    decreases |s|
  {
    if s == [] then 0 else if s[0] in cs then 0 else 1 + IndexOfAny(s[1..], cs)
  }

  /** The value of a mantissa: digits with at most one decimal point and at least one digit. */
  function ParseMantissa(m: string): Option<real> {
    var p := IndexOfAny(m, {'.'});
    if p == |m| then
      if m != [] && IsDigits(m) then Some(DigitsValue(m) as real) else None
    else
      var whole := m[..p];
      var frac := m[p + 1..];
      if IsDigits(whole) && IsDigits(frac) && (whole != [] || frac != []) then
        Some(DigitsValue(whole) as real + DigitsValue(frac) as real / Pow10(|frac|) as real)
      else None
  }

  /** The value of an exponent: an optional sign and at least one digit. */
  function ParseExponent(x: string): Option<int> {
    var negative := x != [] && x[0] == '-';
    var digits := if x != [] && (x[0] == '-' || x[0] == '+') then x[1..] else x;
    if digits != [] && IsDigits(digits) then
      Some(if negative then 0 - DigitsValue(digits) as int else DigitsValue(digits) as int)
    else None
  }

  function Scale(e: int): (r: real)
    ensures r > 0.0
  {
    if e >= 0 then Pow10(e) as real else 1.0 / Pow10(-e) as real
  }

  /** Python's `float(token)` for a token without whitespace: an optional sign, a decimal
      mantissa and an optional exponent introduced by `e` or `E`. `None` is the `ValueError`. */
  function ParseFloat(t: string): Option<real> {
    var negative := t != [] && t[0] == '-';
    var body := if t != [] && (t[0] == '-' || t[0] == '+') then t[1..] else t;
    var e := IndexOfAny(body, {'e', 'E'});
    match ParseMantissa(body[..e])
    case None => None
    case Some(m) =>
      var magnitude :=
        if e == |body| then Some(m)
        else match ParseExponent(body[e + 1..])
          case None => None
          case Some(x) => Some(m * Scale(x));
      match magnitude
      case None => None
      case Some(v) => Some(if negative then -v else v)
  }

  /** A string of decimal digits, such as the output of `str(n)`, reads back as its value. */
  lemma ParseFloatDigits(s: string)
    requires s != [] && IsDigits(s)
    ensures ParseFloat(s) == Some(DigitsValue(s) as real)
  {
    assert !IsDigit('-') && !IsDigit('+') && !IsDigit('e') && !IsDigit('E') && !IsDigit('.');
    assert s[0] != '-' && s[0] != '+';
    var e := IndexOfAny(s, {'e', 'E'});
    assert e == |s|;
    assert s[..e] == s;
    assert IndexOfAny(s, {'.'}) == |s|;
  }

  /** `str(n)` followed by `float()` gives `n` back. */
  lemma ParseFloatOfNat(n: nat)
    ensures ParseFloat(NatToString(n)) == Some(n as real)
  {
    ParseFloatDigits(NatToString(n));
  }

  /** An ASCII letter. */
  predicate IsLetter(c: char) {
    'A' <= c <= 'Z' || 'a' <= c <= 'z'
  }

  /** A mantissa that starts with a letter has no value. */
  lemma MantissaRejectsLetter(m: string)
    requires m != [] && IsLetter(m[0])
    ensures ParseMantissa(m) == None
  {
    assert !IsDigit(m[0]);
    var p := IndexOfAny(m, {'.'});
    if p < |m| && p > 0 {
      assert m[..p][0] == m[0];
    }
  }

  /** A token that starts with an ASCII letter is not a number (`float()` also accepts the
      spellings "inf", "infinity" and "nan", which this model does not). */
  lemma ParseFloatRejectsWord(t: string)
    requires t != [] && IsLetter(t[0])
    ensures ParseFloat(t) == None
  {
    var e := IndexOfAny(t, {'e', 'E'});
    if e > 0 {
      assert t[..e][0] == t[0];
      MantissaRejectsLetter(t[..e]);
    } else {
      assert t[..e] == [];
    }
  }
}

=== FILE: records.dfy ===
/** A row of the `resumes` table (app/models.py) as the search code reads it. The JSON columns
    arrive as raw text: NULL, text that does not decode, or a decoded value. */
module Records {
  import opened Wrappers

  /** A JSON column that should hold a list of strings: `skills`, `certifications`,
      `work_history` (for the last, only whether it is NULL, malformed or decoded matters). */
  datatype JsonList =
    | ListNull
    | ListMalformed(decodeError: string)
    | ListOf(items: seq<string>)

  /** The `contact` JSON column. `ContactOther` is valid JSON that is not an object (a list, a
      string, a number, a boolean or `null`), named by the Python type it decodes to. */
  datatype ContactColumn =
    | ContactNull
    | ContactMalformed(decodeError: string)
    | ContactObject(entries: seq<(string, string)>)
    | ContactOther(typeName: string)

  /** The `embedding` JSON column, reduced to what the search does with it: the cosine similarity
      between the stored vector and the current query's vector is an input of the model, and a
      vector of the wrong length stands for the `ValueError` numpy raises. */
  datatype EmbeddingColumn =
    | EmbeddingNull
    | EmbeddingEmpty
    | EmbeddingMalformed(decodeError: string)
    | EmbeddingVector(cosine: real)
    | EmbeddingMismatch(shapeError: string)

  /** One resume. `locationCosine` is the cosine similarity between the embedding of the query's
      location and that of the resume's contact location, as the embedding model yields it. */
  datatype ResumeRow = ResumeRow(
    id: int,
    userId: string,
    name: string,
    skills: JsonList,
    experience: Option<string>,
    education: Option<string>,
    contact: ContactColumn,
    summary: Option<string>,
    embedding: EmbeddingColumn,
    locationCosine: real,
    certifications: JsonList,
    workHistory: JsonList)

  /** Python truthiness of an optional string: present and non-empty. */
  predicate Truthy(s: Option<string>) {
    s.Some? && s.value != ""
  }

  /** `s or ""`. */
  function OrEmpty(s: Option<string>): (r: string)
    ensures Truthy(s) ==> r == s.value
    ensures !Truthy(s) ==> r == ""
  {
    if s.Some? then s.value else ""
  }

  /** `d.get(key, '')` on a decoded JSON object; `json.loads` keeps the last value of a
      repeated key. */
  function Lookup(entries: seq<(string, string)>, key: string): (v: string)
    ensures v != "" ==> exists i :: 0 <= i < |entries| && entries[i] == (key, v)
    decreases |entries|
  {
    if entries == [] then ""
    else if entries[|entries| - 1].0 == key then entries[|entries| - 1].1
    else Lookup(entries[..|entries| - 1], key)
  }

  /** With no repeated key, each key looks up its own value. */
  lemma {:induction false} LookupDistinct(entries: seq<(string, string)>, i: nat)
    requires forall a, b :: 0 <= a < b < |entries| ==> entries[a].0 != entries[b].0
    requires i < |entries|
    ensures Lookup(entries, entries[i].0) == entries[i].1
    decreases |entries|
  {
    if i != |entries| - 1 {
      LookupDistinct(entries[..|entries| - 1], i);
    }
  }

  /** The skills list as the search reads it: a decoded list, otherwise empty. */
  function SkillsOf(column: JsonList): seq<string> {
    if column.ListOf? then column.items else []
  }
}

=== FILE: resume_parser.dfy ===
/** The resume parser of app/services/resume_parser.py: the reply of the language model is
    cleaned of a Markdown fence, decoded and completed with defaults; when that fails, a
    rule-based extraction from the resume's text takes over. */
module ResumeParser {
  import opened Wrappers
  import opened Text
  import opened Numerals
  import opened Lists
  import opened Records
  import SearchEngine

  // ---------------------------------------------------------------------------
  // Rule-based extraction (lines 131-207)

  /** The skills the fallback looks for, in the order it looks for them (lines 9-14). */
  const TechKeywords: seq<string> := [
    "Python", "JavaScript", "React", "Node.js", "AWS", "Docker",
    "Kubernetes", "Machine Learning", "Data Science", "SQL",
    "MongoDB", "TypeScript", "Angular", "Vue.js", "Java", "C++",
    "Go", "Rust", "DevOps", "CI/CD"]

  /** The words that mark a line as education (line 166); matched with their case. */
  const EducationKeywords: seq<string> := ["Bachelor", "Master", "PhD", "B.Tech", "M.Tech", "MBA"]

  /** The labels after which a location is read when no "City, ST" pattern matched (line 195). */
  const LocationKeywords: seq<string> := ["Location:", "Address:", "City:"]

  const NoExperienceText := "Experience not specified"
  const NoSummaryText := "No summary available"
  const UnknownName := "Unknown"

  /** The name: the first line of the text, stripped. `str.split('\n')` never yields an empty
      list, so the "Unknown" branch of lines 134-136 is never taken. */
  function ExtractName(text: string): (name: string)
    ensures '\n' !in name
    ensures name == [] || (!IsSpace(name[0]) && !IsSpace(name[|name| - 1]))
  {
    var first := SplitOn(text, '\n')[0];
    StripChars(first);
    Strip(first)
  }

  /** The name is the first line whenever there is a line break, and the whole text otherwise. */
  lemma ExtractNameFirstLine(line: string, rest: string)
    requires '\n' !in line
    ensures ExtractName(line + "\n" + rest) == Strip(line)
    ensures ExtractName(line) == Strip(line)
  {
    SplitOnPrefix(line, '\n', rest);
    SplitOnWithout(line, '\n');
  }

  /** The test that picks a keyword: its lower-case form occurs in the lower-cased text. */
  function SkillTest(lowerText: string): string -> bool {
    skill => Contains(lowerText, Lower(skill))
  }

  /** The skills of lines 138-147: the keywords found in the text ignoring case. */
  function SkillsFound(text: string): (skills: seq<string>)
    ensures |skills| <= |TechKeywords|
  {
    Filter(TechKeywords, SkillTest(Lower(text)))
  }

  /** The first ten keywords hold no repeats. */
  lemma FrontKeywordsDistinct()
    ensures Distinct(TechKeywords[..10])
  {
    assert TechKeywords[..10] == ["Python", "JavaScript", "React", "Node.js", "AWS", "Docker",
      "Kubernetes", "Machine Learning", "Data Science", "SQL"];
  }

  /** The last ten keywords hold no repeats. */
  lemma BackKeywordsDistinct()
    ensures Distinct(TechKeywords[10..])
  {
    assert TechKeywords[10..] == ["MongoDB", "TypeScript", "Angular", "Vue.js", "Java", "C++",
      "Go", "Rust", "DevOps", "CI/CD"];
  }

  /** No keyword appears in both halves of the list. */
  lemma KeywordHalvesDisjoint()
    ensures forall x :: x in TechKeywords[..10] ==> x !in TechKeywords[10..]
  {
  }

  /** The keyword list holds no repeats. */
  lemma TechKeywordsDistinct()
    ensures Distinct(TechKeywords)
  {
    FrontKeywordsDistinct();
    BackKeywordsDistinct();
    KeywordHalvesDisjoint();
    DistinctConcat(TechKeywords[..10], TechKeywords[10..]);
    assert TechKeywords[..10] + TechKeywords[10..] == TechKeywords;
  }

  /** Each keyword is reported at most once. */
  lemma SkillsFoundDistinct(text: string)
    ensures Distinct(SkillsFound(text))
  {
    TechKeywordsDistinct();
    FilterDistinct(TechKeywords, SkillTest(Lower(text)));
  }

  /** Lines 138-147, one keyword at a time. */
  method ExtractSkills(text: string) returns (found: seq<string>)
    ensures found == SkillsFound(text)
    ensures forall s :: s in found <==> s in TechKeywords && Contains(Lower(text), Lower(s))
    ensures IsSubsequence(found, TechKeywords)
    ensures Distinct(found)
  {
    var textLower := Lower(text);
    found := [];
    var i := 0;
    while i < |TechKeywords|
      invariant 0 <= i <= |TechKeywords|
      invariant found == Filter(TechKeywords[..i], SkillTest(textLower))
    {
      FilterStep(TechKeywords, i, SkillTest(textLower));
      if Contains(textLower, Lower(TechKeywords[i])) {
        found := found + [TechKeywords[i]];
      }
      i := i + 1;
    }
    assert TechKeywords[..i] == TechKeywords;
    FilterIsSubsequence(TechKeywords, SkillTest(textLower));
    SkillsFoundDistinct(text);
  }

  /** Matching is by substring: a keyword whose lower-case form begins another's is found
      whenever the other is. */
  lemma SkillImpliedByLonger(text: string, longer: string, shorter: string)
    requires longer in SkillsFound(text) && shorter in TechKeywords
    requires Lower(shorter) <= Lower(longer)
    ensures shorter in SkillsFound(text)
  {
    var t := Lower(text);
    var l := Lower(longer);
    var s := Lower(shorter);
    assert SkillTest(t)(longer);
    ContainsMiddle([], s, l[|s|..]);
    assert [] + s + l[|s|..] == l;
    ContainsTrans(t, l, s);
    assert SkillTest(t)(shorter);
  }

  /** So a resume that mentions JavaScript is also credited with Java. */
  lemma JavaScriptImpliesJava(text: string)
    requires "JavaScript" in SkillsFound(text)
    ensures "Java" in SkillsFound(text)
  {
    JavaLowered();
    JavaIsKeyword();
    SkillImpliedByLonger(text, "JavaScript", "Java");
  }

  lemma JavaLowered()
    ensures Lower("Java") <= Lower("JavaScript")
  {
    assert Lower("Java") == "java";
    assert Lower("JavaScript") == "javascript";
  }

  lemma JavaIsKeyword()
    ensures "Java" in TechKeywords
  {
    assert TechKeywords[14] == "Java";
  }

  /** The experience of lines 149-162, given what the three patterns capture, in order (`None`
      where a pattern does not match the lower-cased text): the first capture followed by
      " years". */
  function ExperienceOf(captures: seq<Option<string>>): (experience: string)
    ensures (forall i :: 0 <= i < |captures| ==> captures[i].None?) ==> experience == NoExperienceText
    ensures (exists i :: 0 <= i < |captures| && captures[i].Some?) ==> EndsWith(experience, " years")
    decreases |captures|
  {
    if captures == [] then NoExperienceText
    else if captures[0].Some? then captures[0].value + " years"
    else ExperienceOf(captures[1..])
  }

  /** Lines 157-162. */
  method ExtractExperience(captures: seq<Option<string>>) returns (experience: string)
    ensures experience == ExperienceOf(captures)
  {
    var i := 0;
    while i < |captures|
      invariant 0 <= i <= |captures|
      invariant ExperienceOf(captures) == ExperienceOf(captures[i..])
    {
      if captures[i].Some? {
        return captures[i].value + " years";
      }
      assert captures[i..][1..] == captures[i + 1..];
      i := i + 1;
    }
    return NoExperienceText;
  }

  /** The first pattern that matched, if any. */
  function FirstCapture(captures: seq<Option<string>>): (r: Option<string>)
    ensures r.Some? ==> r in captures
    decreases |captures|
  {
    if captures == [] then None
    else if captures[0].Some? then captures[0]
    else FirstCapture(captures[1..])
  }

  /** The experience text reads back, in the search's experience filter, as the captured number
      of years; without a capture it reads as no number at all. */
  lemma {:induction false} ExperienceReadsBack(captures: seq<Option<string>>)
    requires forall c :: c in captures && c.Some? ==> c.value != [] && IsDigits(c.value)
    ensures FirstCapture(captures).Some? ==>
      SearchEngine.LeadingYears(ExperienceOf(captures)) == Some(DigitsValue(FirstCapture(captures).value) as real)
    ensures FirstCapture(captures).None? ==> SearchEngine.LeadingYears(ExperienceOf(captures)) == None
    decreases |captures|
  {
    if captures == [] {
      LeadingYearsOfWord(NoExperienceText);
    } else if captures[0].Some? {
      var d := captures[0].value;
      assert NoSpace(d) by {
        forall i | 0 <= i < |d|
          ensures !IsSpace(d[i])
        {
          assert IsDigit(d[i]);
        }
      }
      WordsCons(d, " years");
      ParseFloatDigits(d);
    } else {
      ExperienceReadsBack(captures[1..]);
    }
  }

  /** A text that starts with a letter has no leading number of years. */
  lemma LeadingYearsOfWord(s: string)
    requires s != [] && ('A' <= s[0] <= 'Z' || 'a' <= s[0] <= 'z')
    ensures SearchEngine.LeadingYears(s) == None
  {
    var n := WordLength(s);
    var w := s[..n];
    assert Words(s) != [] && Words(s)[0] == w by {
      assert TrimLeft(s) == s;
    }
    assert ParseFloat(w) == None by {
      assert w != [] && w[0] == s[0];
      ParseFloatRejectsWord(w);
    }
  }

  /** A line holds one of the keywords, with its case. */
  predicate HasKeyword(line: string, keywords: seq<string>) {
    exists k :: 0 <= k < |keywords| && Contains(line, keywords[k])
  }

  /** Index of the first line that holds one of the keywords, or `|lines|`. */
  function FirstKeywordIndex(lines: seq<string>, keywords: seq<string>): (i: nat)
    ensures i <= |lines|
    ensures i < |lines| ==> HasKeyword(lines[i], keywords)
    ensures forall j :: 0 <= j < i ==> !HasKeyword(lines[j], keywords)
    decreases |lines|
  {
    if lines == [] then 0
    else if HasKeyword(lines[0], keywords) then 0
    else 1 + FirstKeywordIndex(lines[1..], keywords)
  }

  /** The first line that holds one of the keywords, stripped, and `None` when no line does. */
  function FirstKeywordLine(lines: seq<string>, keywords: seq<string>): Option<string>
    decreases |lines|
  {
    if lines == [] then None
    else if HasKeyword(lines[0], keywords) then Some(Strip(lines[0]))
    else FirstKeywordLine(lines[1..], keywords)
  }

  /** The line found is the first line that holds a keyword, and there is one exactly when some
      line holds a keyword. */
  lemma {:induction false} FirstKeywordLineIsFirst(lines: seq<string>, keywords: seq<string>)
    ensures var i := FirstKeywordIndex(lines, keywords);
      FirstKeywordLine(lines, keywords) == if i < |lines| then Some(Strip(lines[i])) else None
    decreases |lines|
  {
    if lines != [] && !HasKeyword(lines[0], keywords) {
      FirstKeywordLineIsFirst(lines[1..], keywords);
      var i := FirstKeywordIndex(lines[1..], keywords);
      if i < |lines| - 1 {
        assert lines[1..][i] == lines[i + 1];
      }
    }
  }

  /** The education of lines 164-174: the first line that holds an education keyword. */
  function EducationOf(text: string): (education: Option<string>)
    ensures var lines := SplitOn(text, '\n');
      var i := FirstKeywordIndex(lines, EducationKeywords);
      education == if i < |lines| then Some(Strip(lines[i])) else None
  {
    FirstKeywordLineIsFirst(SplitOn(text, '\n'), EducationKeywords);
    FirstKeywordLine(SplitOn(text, '\n'), EducationKeywords)
  }

  lemma FirstKeywordLineFrom(lines: seq<string>, keywords: seq<string>, i: nat)
    requires i < |lines|
    ensures FirstKeywordLine(lines[i..], keywords) ==
      if HasKeyword(lines[i], keywords) then Some(Strip(lines[i])) else FirstKeywordLine(lines[i + 1..], keywords)
  {
    assert lines[i..][0] == lines[i];
    assert lines[i..][1..] == lines[i + 1..];
  }

  /** Lines 170-172: the keywords against one line, stopping at the first hit. */
  method LineHasKeyword(line: string, keywords: seq<string>) returns (hit: bool)
    ensures hit == HasKeyword(line, keywords)
  {
    var k := 0;
    while k < |keywords|
      invariant 0 <= k <= |keywords|
      invariant forall j :: 0 <= j < k ==> !Contains(line, keywords[j])
    {
      if Contains(line, keywords[k]) {
        return true;
      }
      k := k + 1;
    }
    return false;
  }

  /** Lines 169-174: every line against every keyword, returning at the first hit. */
  method ScanLines(lines: seq<string>, keywords: seq<string>) returns (found: Option<string>)
    ensures found == FirstKeywordLine(lines, keywords)
  {
    assert lines[0..] == lines;
    var i := 0;
    while i < |lines|
      invariant 0 <= i <= |lines|
      invariant FirstKeywordLine(lines, keywords) == FirstKeywordLine(lines[i..], keywords)
    {
      FirstKeywordLineFrom(lines, keywords, i);
      var hit := LineHasKeyword(lines[i], keywords);
      if hit {
        return Some(Strip(lines[i]));
      }
      i := i + 1;
    }
    return None;
  }

  /** Lines 164-174. */
  method ExtractEducation(text: string) returns (education: Option<string>)
    ensures education == EducationOf(text)
  {
    var lines := SplitOn(text, '\n');
    education := ScanLines(lines, EducationKeywords);
  }

  // ---------------------------------------------------------------------------
  // Contact details (lines 176-207)

  /** What the three regular expressions of lines 178-184 find in the text, and what the three
      experience patterns of lines 151-155 capture in the lower-cased text. */
  datatype PatternMatches = PatternMatches(
    email: Option<string>,
    phone: Option<string>,
    cityState: Option<string>,
    experience: seq<Option<string>>)

  const IndexErrorText := "list index out of range"

  /** Index of the first line whose lower-cased form contains `lowerKeyword`, or `|lines|`. */
  function FirstLineWith(lines: seq<string>, lowerKeyword: string): (j: nat)
    ensures j <= |lines|
    ensures j < |lines| ==> Contains(Lower(lines[j]), lowerKeyword)
    ensures forall i :: 0 <= i < j ==> !Contains(Lower(lines[i]), lowerKeyword)
    decreases |lines|
  {
    if lines == [] then 0
    else if Contains(Lower(lines[0]), lowerKeyword) then 0
    else 1 + FirstLineWith(lines[1..], lowerKeyword)
  }

  /** `rest.strip().split('\n')[0].strip()` (line 202): the first line of what follows a label,
      without surrounding whitespace. */
  function FirstLineOf(rest: string): (r: string)
    ensures '\n' !in r && Stripped(r)
  {
    var part := SplitOn(Strip(rest), '\n')[0];
    StripChars(part);
    Strip(part)
  }

  /** Line 202 as written: the line is split on the label with its own case, although it was
      found by a case-blind test, so a line that holds the label only in another case has no
      second part and indexing it raises `IndexError`. */
  function AfterKeywordAsWritten(line: string, keyword: string): (r: Result<string>)
    ensures r.Err? <==> SplitAfter(line, keyword).Err?
    ensures r.Err? ==> r.error == IndexErrorText
    ensures r.Ok? ==> r.value == FirstLineOf(SplitAfter(line, keyword).value)
  {
    match SplitAfter(line, keyword)
    case Err(e) => Err(e)
    case Ok(rest) => Ok(FirstLineOf(rest))
  }

  /** `line.split(keyword, 1)[1]` (line 202): what follows the first occurrence of the label with
      its own case, or `IndexError` when there is none. */
  function SplitAfter(line: string, keyword: string): (r: Result<string>)
    ensures r.Err? <==> Find(line, keyword) < 0
    ensures r.Err? ==> r.error == IndexErrorText
    ensures r.Ok? ==> OccursAt(line, keyword, Find(line, keyword))
    ensures r.Ok? ==> r.value == line[Find(line, keyword) + |keyword|..]
  {
    var i := Find(line, keyword);
    if i < 0 then Err(IndexErrorText)
    else Ok(line[i + |keyword|..])
  }

  /** The split of line 202 raises exactly when the line does not hold the label with its own
      case. */
  lemma AfterKeywordAsWrittenFails(line: string, keyword: string)
    ensures AfterKeywordAsWritten(line, keyword).Err? <==> !Contains(line, keyword)
  {
    FindIff(line, keyword);
  }

  /** Where the label first occurs in the line, ignoring case. */
  function LabelAt(line: string, keyword: string): (i: nat)
    requires Contains(Lower(line), Lower(keyword))
    ensures i + |keyword| <= |line|
    ensures i == Find(Lower(line), Lower(keyword))
  {
    FindIff(Lower(line), Lower(keyword));
    Find(Lower(line), Lower(keyword))
  }

  /** Line 202 as intended: the first line of the text after the first occurrence of the label
      in any case. */
  function AfterKeyword(line: string, keyword: string): (r: string)
    requires Contains(Lower(line), Lower(keyword))
    ensures r == FirstLineOf(line[LabelAt(line, keyword) + |keyword|..])
    ensures '\n' !in r && Stripped(r)
  {
    FirstLineOf(line[LabelAt(line, keyword) + |keyword|..])
  }

  /** The two splits read the same text whenever the first occurrence of the label in any case
      is one with the label's own case. */
  lemma AfterKeywordAgrees(line: string, keyword: string)
    requires Contains(Lower(line), Lower(keyword))
    requires LabelAt(line, keyword) == Find(line, keyword)
    ensures AfterKeywordAsWritten(line, keyword) == Ok(AfterKeyword(line, keyword))
  {
    var i := Find(line, keyword);
    var rest := line[LabelAt(line, keyword) + |keyword|..];
    assert rest == line[i + |keyword|..];
    assert AfterKeyword(line, keyword) == FirstLineOf(rest);
    assert AfterKeywordAsWritten(line, keyword).Ok?;
  }

  /** The label occurs in the text and in one of its lines, ignoring case. */
  predicate Labelled(lines: seq<string>, lowerText: string, keyword: string) {
    Contains(lowerText, Lower(keyword)) && FirstLineWith(lines, Lower(keyword)) < |lines|
  }

  /** Index of the first keyword labelled in the text and in a line, or `|keywords|`. */
  function FirstLabelled(lines: seq<string>, lowerText: string, keywords: seq<string>): (k: nat)
    ensures k <= |keywords|
    ensures k < |keywords| ==> Labelled(lines, lowerText, keywords[k])
    ensures forall i :: 0 <= i < k ==> !Labelled(lines, lowerText, keywords[i])
    decreases |keywords|
  {
    if keywords == [] then 0
    else if Labelled(lines, lowerText, keywords[0]) then 0
    else 1 + FirstLabelled(lines, lowerText, keywords[1..])
  }

  /** Lines 195-205 as written: the first keyword that occurs in the text ignoring case, read
      from the first line that holds it with the split of line 202. */
  function LocationByKeywordAsWritten(lines: seq<string>, lowerText: string, keywords: seq<string>): (r: Result<Option<string>>)
    ensures r == Ok(None) <==> FirstLabelled(lines, lowerText, keywords) == |keywords|
    ensures r.Err? ==> r.error == IndexErrorText
    decreases |keywords|
  {
    if keywords == [] then Ok(None)
    else if Labelled(lines, lowerText, keywords[0]) then
      match AfterKeywordAsWritten(lines[FirstLineWith(lines, Lower(keywords[0]))], keywords[0])
      case Err(e) => Err(e)
      case Ok(location) => Ok(Some(location))
    else LocationByKeywordAsWritten(lines, lowerText, keywords[1..])
  }

  /** Lines 195-205 with the split of line 202 made case-blind like the test before it. */
  function LocationByKeyword(lines: seq<string>, lowerText: string, keywords: seq<string>): (r: Option<string>)
    ensures r.None? <==> FirstLabelled(lines, lowerText, keywords) == |keywords|
    decreases |keywords|
  {
    if keywords == [] then None
    else if Labelled(lines, lowerText, keywords[0]) then
      Some(AfterKeyword(lines[FirstLineWith(lines, Lower(keywords[0]))], keywords[0]))
    else LocationByKeyword(lines, lowerText, keywords[1..])
  }

  /** As written, the location is read after the first label present, on the first line that
      holds it, and the search fails when that line holds the label only in another case. */
  lemma {:induction false} LocationAsWrittenFirst(lines: seq<string>, lowerText: string, keywords: seq<string>)
    ensures var k := FirstLabelled(lines, lowerText, keywords);
      LocationByKeywordAsWritten(lines, lowerText, keywords) ==
        if k == |keywords| then Ok(None)
        else match AfterKeywordAsWritten(lines[FirstLineWith(lines, Lower(keywords[k]))], keywords[k])
          case Err(e) => Err(e)
          case Ok(location) => Ok(Some(location))
    decreases |keywords|
  {
    if keywords != [] && !Labelled(lines, lowerText, keywords[0]) {
      var rest := keywords[1..];
      LocationAsWrittenFirst(lines, lowerText, rest);
      var k := FirstLabelled(lines, lowerText, rest);
      assert FirstLabelled(lines, lowerText, keywords) == k + 1;
      if k < |rest| {
        assert keywords[k + 1] == rest[k];
      }
    }
  }

  /** With the case-blind split, a location is read exactly when some label is present, and it
      is read after the first label present, on the first line that holds it. */
  lemma {:induction false} LocationByKeywordFirst(lines: seq<string>, lowerText: string, keywords: seq<string>)
    ensures var k := FirstLabelled(lines, lowerText, keywords);
      LocationByKeyword(lines, lowerText, keywords) ==
        if k < |keywords| then Some(AfterKeyword(lines[FirstLineWith(lines, Lower(keywords[k]))], keywords[k]))
        else None
    decreases |keywords|
  {
    if keywords != [] && !Labelled(lines, lowerText, keywords[0]) {
      var rest := keywords[1..];
      LocationByKeywordFirst(lines, lowerText, rest);
      var k := FirstLabelled(lines, lowerText, rest);
      assert FirstLabelled(lines, lowerText, keywords) == k + 1;
      if k < |rest| {
        assert keywords[k + 1] == rest[k];
      }
    }
  }

  /** The e-mail and phone entries, in the order lines 187-190 insert them. */
  function EmailAndPhone(m: PatternMatches): seq<(string, string)> {
    (if m.email.Some? then [("email", m.email.value)] else []) +
    (if m.phone.Some? then [("phone", m.phone.value)] else [])
  }

  /** Lines 176-207 as written: the contact entries found, `None` when there are none, or the
      `IndexError` of line 202. */
  function ContactAsWritten(text: string, m: PatternMatches): (r: Result<Option<seq<(string, string)>>>)
    ensures r.Err? <==> (m.cityState.None? &&
      LocationByKeywordAsWritten(SplitOn(text, '\n'), Lower(text), LocationKeywords).Err?)
    ensures r.Err? ==> r.error == IndexErrorText
    ensures r.Ok? ==> (r.value.None? <==> (m.email.None? && m.phone.None? && m.cityState.None? &&
      FirstLabelled(SplitOn(text, '\n'), Lower(text), LocationKeywords) == |LocationKeywords|))
    ensures r.Ok? && r.value.Some? ==> r.value.value != []
  {
    var base := EmailAndPhone(m);
    if m.cityState.Some? then Ok(Some(base + [("location", m.cityState.value)]))
    else
      match LocationByKeywordAsWritten(SplitOn(text, '\n'), Lower(text), LocationKeywords)
      case Err(e) => Err(e)
      case Ok(location) =>
        var contact := base + (if location.Some? then [("location", location.value)] else []);
        Ok(if contact == [] then None else Some(contact))
  }

  /** Lines 176-207 with the case-blind split: the contact entries found, or `None` when there
      are none. */
  function ContactOf(text: string, m: PatternMatches): (r: Option<seq<(string, string)>>)
    ensures r.None? <==> (m.email.None? && m.phone.None? && m.cityState.None? &&
      LocationByKeyword(SplitOn(text, '\n'), Lower(text), LocationKeywords).None?)
    ensures r.Some? ==> r.value != []
  {
    var base := EmailAndPhone(m);
    var location :=
      if m.cityState.Some? then m.cityState
      else LocationByKeyword(SplitOn(text, '\n'), Lower(text), LocationKeywords);
    var contact := base + (if location.Some? then [("location", location.value)] else []);
    if contact == [] then None else Some(contact)
  }

  /** The extraction as written and the corrected one agree whenever the keyword search is not
      needed or finds no label. */
  lemma ContactAsWrittenAgrees(text: string, m: PatternMatches)
    requires m.cityState.Some? ||
      FirstLabelled(SplitOn(text, '\n'), Lower(text), LocationKeywords) == |LocationKeywords|
    ensures ContactAsWritten(text, m) == Ok(ContactOf(text, m))
  {
  }

  /** A resume that labels its location in lower case ("location: Paris") makes the
      extraction as written fail when no "City, ST" pattern matched, while the corrected one
      reads a location. */
  lemma {:induction false} LowerCaseLabelFailsAsWritten(line: string, m: PatternMatches)
    requires '\n' !in line
    requires Contains(Lower(line), Lower("Location:")) && !Contains(line, "Location:")
    requires m.cityState.None?
    ensures ContactAsWritten(line, m).Err?
    ensures ContactOf(line, m).Some?
  {
    SplitOnWithout(line, '\n');
    var lines := SplitOn(line, '\n');
    assert lines == [line];
    assert FirstLineWith(lines, Lower("Location:")) == 0;
    AfterKeywordAsWrittenFails(line, "Location:");
  }

  /** A concrete resume text that shows it. */
  lemma LowerCaseLabelExample()
    ensures ContactAsWritten("location: Paris", PatternMatches(None, None, None, [])).Err?
  {
    var line := "location: Paris";
    assert '\n' !in line by {
      ExampleSingleLine();
    }
    assert Contains(Lower(line), Lower("Location:")) by {
      ExampleLabelLowered();
      ExampleLineLowered();
    }
    ExampleLineUnlabelled();
    LowerCaseLabelFailsAsWritten(line, PatternMatches(None, None, None, []));
  }

  lemma ExampleSingleLine()
    ensures '\n' !in "location: Paris"
  {
    var line := "location: Paris";
    forall i | 0 <= i < |line|
      ensures line[i] != '\n'
    {
    }
  }

  lemma ExampleLabelLowered()
    ensures Lower("Location:") == "location:"
  {
  }

  lemma ExampleLineLowered()
    ensures Contains(Lower("location: Paris"), "location:")
  {
    assert Lower("location: Paris")[..9] == "location:";
  }

  lemma ExampleLineUnlabelled()
    ensures !Contains("location: Paris", "Location:")
  {
    if Contains("location: Paris", "Location:") {
      ContainsChar("location: Paris", "Location:", 0);
      assert false;
    }
  }

  /** One label of the loop of lines 196-205, as written. */
  lemma LocationAsWrittenFrom(lines: seq<string>, lowerText: string, keywords: seq<string>, k: nat)
    requires k < |keywords|
    ensures LocationByKeywordAsWritten(lines, lowerText, keywords[k..]) ==
      if Labelled(lines, lowerText, keywords[k]) then
        match AfterKeywordAsWritten(lines[FirstLineWith(lines, Lower(keywords[k]))], keywords[k])
        case Err(e) => Err(e)
        case Ok(location) => Ok(Some(location))
      else LocationByKeywordAsWritten(lines, lowerText, keywords[k + 1..])
  {
    assert keywords[k..][0] == keywords[k];
    assert keywords[k..][1..] == keywords[k + 1..];
  }

  /** A label present in the text and in a line decides the search as written. */
  lemma LabelledStep(lines: seq<string>, lowerText: string, keywords: seq<string>, k: nat)
    requires k < |keywords| && Labelled(lines, lowerText, keywords[k])
    ensures var after := AfterKeywordAsWritten(lines[FirstLineWith(lines, Lower(keywords[k]))], keywords[k]);
      LocationByKeywordAsWritten(lines, lowerText, keywords[k..]) ==
        if after.Err? then Err(after.error) else Ok(Some(after.value))
  {
    LocationAsWrittenFrom(lines, lowerText, keywords, k);
  }

  /** A label missing from the text or from every line passes the search on to the next one. */
  lemma UnlabelledStep(lines: seq<string>, lowerText: string, keywords: seq<string>, k: nat)
    requires k < |keywords| && !Labelled(lines, lowerText, keywords[k])
    ensures LocationByKeywordAsWritten(lines, lowerText, keywords[k..]) ==
      LocationByKeywordAsWritten(lines, lowerText, keywords[k + 1..])
  {
    LocationAsWrittenFrom(lines, lowerText, keywords, k);
  }

  /** Lines 200-203: the first line that holds the label in any case. */
  method FindLine(lines: seq<string>, lowerKeyword: string) returns (i: nat)
    ensures i == FirstLineWith(lines, lowerKeyword)
  {
    i := 0;
    while i < |lines|
      invariant 0 <= i <= |lines|
      invariant forall j :: 0 <= j < i ==> !Contains(Lower(lines[j]), lowerKeyword)
    {
      if Contains(Lower(lines[i]), lowerKeyword) {
        return;
      }
      i := i + 1;
    }
  }

  /** Lines 196-205 for one label: whether the label is in the text and in some line, and if
      so what the split of line 202 reads from the first such line. */
  method TryLabel(lines: seq<string>, lowerText: string, keyword: string) returns (found: bool, read: Result<Option<string>>)
    ensures found == Labelled(lines, lowerText, keyword)
    ensures found ==> var after := AfterKeywordAsWritten(lines[FirstLineWith(lines, Lower(keyword))], keyword);
      read == if after.Err? then Err(after.error) else Ok(Some(after.value))
  {
    found, read := false, Ok(None);
    if Contains(lowerText, Lower(keyword)) {
      var i := FindLine(lines, Lower(keyword));
      if i < |lines| {
        var after := AfterKeywordAsWritten(lines[i], keyword);
        found := true;
        read := if after.Err? then Err(after.error) else Ok(Some(after.value));
      }
    }
  }

  /** Lines 195-205, label by label and line by line, splitting as line 202 does. */
  method ScanLabels(lines: seq<string>, lowerText: string, keywords: seq<string>) returns (location: Result<Option<string>>)
    ensures location == LocationByKeywordAsWritten(lines, lowerText, keywords)
  {
    assert keywords[0..] == keywords;
    var k := 0;
    while k < |keywords|
      invariant 0 <= k <= |keywords|
      invariant LocationByKeywordAsWritten(lines, lowerText, keywords) ==
        LocationByKeywordAsWritten(lines, lowerText, keywords[k..])
    {
      var found, read := TryLabel(lines, lowerText, keywords[k]);
      if found {
        LabelledStep(lines, lowerText, keywords, k);
        return read;
      }
      UnlabelledStep(lines, lowerText, keywords, k);
      k := k + 1;
    }
    return Ok(None);
  }

  /** Lines 194-205. */
  method FindLocation(text: string) returns (location: Result<Option<string>>)
    ensures location == LocationByKeywordAsWritten(SplitOn(text, '\n'), Lower(text), LocationKeywords)
  {
    location := ScanLabels(SplitOn(text, '\n'), Lower(text), LocationKeywords);
  }

  /** Lines 176-207. */
  method ExtractContact(text: string, m: PatternMatches) returns (contact: Result<Option<seq<(string, string)>>>)
    ensures contact == ContactAsWritten(text, m)
  {
    var entries: seq<(string, string)> := [];
    if m.email.Some? {
      entries := entries + [("email", m.email.value)];
    }
    if m.phone.Some? {
      entries := entries + [("phone", m.phone.value)];
    }
    assert entries == EmailAndPhone(m);
    var location := m.cityState;
    if location.None? {
      var found := FindLocation(text);
      if found.Err? {
        return Err(found.error);
      }
      location := found.value;
    }
    var base := entries;
    if location.Some? {
      entries := entries + [("location", location.value)];
    }
    assert entries == base + (if location.Some? then [("location", location.value)] else []);
    if entries == [] {
      return Ok(None);
    }
    return Ok(Some(entries));
  }

  // ---------------------------------------------------------------------------
  // The language model's reply (lines 74-111)

  /** Line 80: a reply that, once stripped, starts with a fence is unfenced; any other reply is
      only stripped. */
  function StripFence(response: string): (r: string)
    ensures r == [] || (!IsSpace(r[0]) && !IsSpace(r[|r| - 1]))
    ensures !StartsWith(Strip(response), "```") ==> r == Strip(response)
  {
    var cleaned := Strip(response);
    if StartsWith(cleaned, "```") then Unfence(cleaned) else cleaned
  }

  /** `re.sub(r'^```json\s*|\s*```$', '', cleaned)` on a stripped reply: `^```json\s*` is
      removed from the front and `\s*```$` from the back (the reply does not end in a line
      break, so `$` matches only at its end). A fence without the `json` tag keeps its
      opening. */
  function Unfence(cleaned: string): (r: string)
    requires cleaned == [] || (!IsSpace(cleaned[0]) && !IsSpace(cleaned[|cleaned| - 1]))
    ensures r == [] || (!IsSpace(r[0]) && !IsSpace(r[|r| - 1]))
  {
    var afterOpen := if StartsWith(cleaned, "```json") then TrimLeft(cleaned[7..]) else cleaned;
    assert afterOpen != [] ==> afterOpen[|afterOpen| - 1] == cleaned[|cleaned| - 1];
    CloseFence(afterOpen)
  }

  /** The back half of line 80: a closing fence and the whitespace before it are removed. */
  function CloseFence(afterOpen: string): (r: string)
    requires afterOpen == [] || (!IsSpace(afterOpen[0]) && !IsSpace(afterOpen[|afterOpen| - 1]))
    ensures r == [] || (!IsSpace(r[0]) && !IsSpace(r[|r| - 1]))
  {
    if EndsWith(afterOpen, "```") then TrimRight(afterOpen[..|afterOpen| - 3])
    else afterOpen
  }

  /** A reply with no whitespace around it is unfenced as it is. */
  lemma StripFenceOfStripped(s: string)
    requires s != [] && !IsSpace(s[0]) && !IsSpace(s[|s| - 1])
    requires StartsWith(s, "```")
    ensures StripFence(s) == Unfence(s)
  {
    StripUnchanged(s);
  }

  lemma TrimLeftNonSpace(s: string)
    requires s == [] || !IsSpace(s[0])
    ensures TrimLeft(s) == s
  {
  }

  lemma TrimRightNewline(s: string)
    requires s == [] || !IsSpace(s[|s| - 1])
    ensures TrimRight(s + "\n") == s
  {
    assert (s + "\n")[..|s|] == s;
  }

  lemma UnfenceJsonShape(s: string)
    requires s == [] || (!IsSpace(s[0]) && !IsSpace(s[|s| - 1]))
    requires StartsWith(s, "```json")
    ensures Unfence(s) == CloseFence(TrimLeft(s[7..]))
  {
  }

  lemma TrimLeftSpaceThen(c: char, t: string)
    requires IsSpace(c)
    ensures TrimLeft([c] + t) == TrimLeft(t)
  {
    assert ([c] + t)[1..] == t;
  }

  lemma JsonFenceParts(body: string)
    ensures StartsWith("```json\n" + body + "\n```", "```json")
    ensures ("```json\n" + body + "\n```")[7..] == "\n" + (body + "\n```")
  {
    assert ("```json\n" + body + "\n```")[..7] == "```json";
  }

  lemma OpenJsonFence(body: string)
    requires body == [] || (!IsSpace(body[0]) && !IsSpace(body[|body| - 1]))
    ensures Unfence("```json\n" + body + "\n```") == CloseFence(TrimLeft(body + "\n```"))
  {
    JsonFenceParts(body);
    UnfenceJsonShape("```json\n" + body + "\n```");
    TrimLeftSpaceThen('\n', body + "\n```");
  }

  lemma CloseFenceEmpty()
    ensures CloseFence(TrimLeft("\n```")) == ""
  {
    var fence := "```";
    assert TrimLeft("\n```") == fence by {
      assert "\n```" == ['\n'] + fence;
      TrimLeftSpaceThen('\n', fence);
      TrimLeftNonSpace(fence);
    }
    assert CloseFence(fence) == TrimRight([]) by {
      assert EndsWith(fence, "```") && fence[..0] == [];
    }
  }

  lemma FenceTailParts(body: string)
    ensures (body + "\n```")[..|body| + 1] == body + "\n"
    ensures EndsWith(body + "\n```", "```")
  {
  }

  lemma CloseFenceOf(a: string)
    requires a == [] || (!IsSpace(a[0]) && !IsSpace(a[|a| - 1]))
    requires EndsWith(a, "```")
    ensures CloseFence(a) == TrimRight(a[..|a| - 3])
  {
  }

  lemma CloseFenceBody(body: string)
    requires body != [] && !IsSpace(body[0]) && !IsSpace(body[|body| - 1])
    ensures CloseFence(TrimLeft(body + "\n```")) == body
  {
    var tail := body + "\n```";
    assert tail[0] == body[0];
    TrimLeftNonSpace(tail);
    FenceTailParts(body);
    CloseFenceOf(tail);
    TrimRightNewline(body);
  }

  lemma CloseFenceAfter(body: string)
    requires body == [] || (!IsSpace(body[0]) && !IsSpace(body[|body| - 1]))
    ensures CloseFence(TrimLeft(body + "\n```")) == body
  {
    if body == [] {
      assert body + "\n```" == "\n```";
      CloseFenceEmpty();
    } else {
      CloseFenceBody(body);
    }
  }

  /** A body fenced as JSON comes back exactly. */
  lemma StripFenceRoundTrip(body: string)
    requires body == [] || (!IsSpace(body[0]) && !IsSpace(body[|body| - 1]))
    ensures StripFence("```json\n" + body + "\n```") == body
  {
    var s := "```json\n" + body + "\n```";
    assert s[..3] == "```";
    StripFenceOfStripped(s);
    OpenJsonFence(body);
    CloseFenceAfter(body);
  }

  lemma UnfencePlain(body: string)
    requires body != [] && !IsSpace(body[0]) && !IsSpace(body[|body| - 1])
    ensures Unfence("```\n" + body + "\n```") == "```\n" + body
  {
    var s := "```\n" + body + "\n```";
    var t := "```\n" + body;
    assert !StartsWith(s, "```json") by {
      assert s[3] == '\n';
    }
    assert CloseFence(s) == TrimRight(t + "\n") by {
      assert EndsWith(s, "```") && s[..|s| - 3] == t + "\n";
    }
    TrimRightNewline(t);
  }

  /** A reply fenced without the `json` tag keeps its opening fence, so it does not decode and
      the rule-based extraction is used. */
  lemma PlainFenceKeepsOpening(body: string)
    requires body != [] && !IsSpace(body[0]) && !IsSpace(body[|body| - 1])
    ensures StripFence("```\n" + body + "\n```") == "```\n" + body
  {
    var s := "```\n" + body + "\n```";
    assert s[..3] == "```";
    StripFenceOfStripped(s);
    UnfencePlain(body);
  }

  /** A key of the decoded JSON object: missing, `null`, or a value. */
  datatype Field<T> = Absent | Null | Value(value: T)

  /** `parsed_data.get(key, default)`: the value, `None` for `null`, the default when missing. */
  function Get<T>(f: Field<T>, default: Option<T>): Option<T> {
    match f
    case Absent => default
    case Null => None
    case Value(v) => Some(v)
  }

  /** The decoded reply, key by key. `workHistory` holds the JSON text of each entry. */
  datatype LlmFields = LlmFields(
    name: Field<string>,
    skills: Field<seq<string>>,
    experience: Field<string>,
    education: Field<string>,
    contact: Field<seq<(string, string)>>,
    summary: Field<string>,
    certifications: Field<seq<string>>,
    workHistory: Field<seq<string>>)

  /** The dictionary `parse_resume_text` returns. The list-valued keys hold a list on either
      path; the others may be `None` when the model answered `null`. */
  datatype ParsedResume = ParsedResume(
    name: Option<string>,
    skills: seq<string>,
    experience: Option<string>,
    education: Option<string>,
    contact: Option<seq<(string, string)>>,
    summary: Option<string>,
    certifications: seq<string>,
    workHistory: Option<seq<string>>,
    embeddingText: string)

  /** `str(x)` in an f-string for a string or `None`. */
  function PyStr(x: Option<string>): string {
    if x.Some? then x.value else "None"
  }

  /** `json.dumps` of the work history: `null`, or the entries' JSON texts in brackets. */
  function DumpList(items: Option<seq<string>>): string {
    if items.None? then "null" else "[" + JoinWith(", ", items.value) + "]"
  }

  /** The indentation the f-string of lines 99-108 carries on every line. */
  const Indent := "                "

  function Line(caption: string, value: string): string {
    "\n" + Indent + caption + ": " + value
  }

  /** The text of lines 99-108, one line at a time. */
  function EmbeddingText(name: Option<string>, summary: Option<string>, skills: seq<string>,
    experience: Option<string>, education: Option<string>, location: string,
    certifications: seq<string>, workHistory: Option<seq<string>>): (t: string)
    ensures Contains(t, Line("Name", PyStr(name))) && Contains(t, Line("Summary", PyStr(summary)))
    ensures Contains(t, Line("Experience", PyStr(experience)))
    ensures Contains(t, Line("Education", PyStr(education))) && Contains(t, Line("Location", location))
  {
    var pieces := [
      Line("Name", PyStr(name)),
      Line("Summary", PyStr(summary)),
      Line("Skills", JoinWith(", ", skills)),
      Line("Experience", PyStr(experience)),
      Line("Education", PyStr(education)),
      Line("Location", location),
      Line("Certifications", JoinWith(", ", certifications)),
      Line("Work History", DumpList(workHistory)),
      "\n" + Indent];
    ConcatContains(pieces, 0);
    ConcatContains(pieces, 1);
    ConcatContains(pieces, 3);
    ConcatContains(pieces, 4);
    ConcatContains(pieces, 5);
    Concat(pieces)
  }

  /** Every skill and every certification is written into the embedding text. */
  lemma EmbeddingMentionsLists(name: Option<string>, summary: Option<string>, skills: seq<string>,
    experience: Option<string>, education: Option<string>, location: string,
    certifications: seq<string>, workHistory: Option<seq<string>>)
    ensures var t := EmbeddingText(name, summary, skills, experience, education, location, certifications, workHistory);
      (forall k :: 0 <= k < |skills| ==> Contains(t, skills[k])) &&
      (forall k :: 0 <= k < |certifications| ==> Contains(t, certifications[k]))
  {
    var pieces := [
      Line("Name", PyStr(name)),
      Line("Summary", PyStr(summary)),
      Line("Skills", JoinWith(", ", skills)),
      Line("Experience", PyStr(experience)),
      Line("Education", PyStr(education)),
      Line("Location", location),
      Line("Certifications", JoinWith(", ", certifications)),
      Line("Work History", DumpList(workHistory)),
      "\n" + Indent];
    var t := Concat(pieces);
    assert t == EmbeddingText(name, summary, skills, experience, education, location, certifications, workHistory);
    var joinedSkills := JoinWith(", ", skills);
    var joinedCertifications := JoinWith(", ", certifications);
    ConcatContains(pieces, 2);
    ContainsSuffix("\n" + Indent + "Skills" + ": ", joinedSkills);
    ContainsTrans(t, pieces[2], joinedSkills);
    ConcatContains(pieces, 6);
    ContainsSuffix("\n" + Indent + "Certifications" + ": ", joinedCertifications);
    ContainsTrans(t, pieces[6], joinedCertifications);
    forall k | 0 <= k < |skills|
      ensures Contains(t, skills[k])
    {
      JoinWithContains(", ", skills, k);
      ContainsTrans(t, joinedSkills, skills[k]);
    }
    forall k | 0 <= k < |certifications|
      ensures Contains(t, certifications[k])
    {
      JoinWithContains(", ", certifications, k);
      ContainsTrans(t, joinedCertifications, certifications[k]);
    }
  }

  /** Lines 86-109: defaults for missing keys, the location from the contact object, and the
      embedding text. `None` is the `TypeError` that `', '.join(None)` raises when the model
      answered `null` for the skills or the certifications. */
  function FromLlm(fields: LlmFields): (r: Option<ParsedResume>)
    ensures r.Some? <==> !fields.skills.Null? && !fields.certifications.Null?
  {
    var skills := Get(fields.skills, Some([]));
    var certifications := Get(fields.certifications, Some([]));
    if skills.None? || certifications.None? then None
    else
      var name := Get(fields.name, Some(UnknownName));
      var experience := Get(fields.experience, Some(NoExperienceText));
      var education := Get(fields.education, None);
      var contact := Get(fields.contact, Some([]));
      var summary := Get(fields.summary, Some(NoSummaryText));
      var workHistory := Get(fields.workHistory, Some([]));
      var location := if contact.Some? && contact.value != [] then Lookup(contact.value, "location") else "";
      Some(ParsedResume(name, skills.value, experience, education, contact, summary,
        certifications.value, workHistory,
        EmbeddingText(name, summary, skills.value, experience, education, location,
          certifications.value, workHistory)))
  }

  /** Line 129: the message of the `ValueError` raised when anything in the parse fails. */
  const ParseFailedText := "Failed to process PDF file"

  /** Lines 116-126: the rule-based result, or the `IndexError` that the contact extraction
      raises inside the fallback itself. */
  function Fallback(text: string, m: PatternMatches): (r: Result<ParsedResume>)
    ensures r.Err? <==> ContactAsWritten(text, m).Err?
    ensures r.Err? ==> r.error == IndexErrorText
    ensures r.Ok? ==> r.value.contact == ContactAsWritten(text, m).value
    ensures r.Ok? ==> (r.value.embeddingText == text && r.value.summary == Some(NoSummaryText) &&
      r.value.certifications == [] && r.value.workHistory == Some([]))
    ensures r.Ok? ==> (r.value.name.Some? && r.value.experience.Some? &&
      r.value.education == EducationOf(text))
  {
    match ContactAsWritten(text, m)
    case Err(e) => Err(e)
    case Ok(contact) =>
      Ok(ParsedResume(Some(ExtractName(text)), SkillsFound(text), Some(ExperienceOf(m.experience)),
        EducationOf(text), contact, Some(NoSummaryText), [], Some([]), text))
  }

  /** Lines 74-111: the parse read from the model's reply, or `None` when the reply is missing
      (the call raised), does not decode, or lacks a usable skills or certifications list. */
  function FromReply(response: Option<string>, decode: string -> Option<LlmFields>): (r: Option<ParsedResume>)
    ensures r.Some? ==> response.Some? && decode(StripFence(response.value)).Some?
  {
    if response.None? then None
    else
      var fields := decode(StripFence(response.value));
      if fields.None? then None else FromLlm(fields.value)
  }

  /** Lines 74-129 for the text of a PDF. `response` is the model's reply (`None` when the call
      raised); `decode` is `json.loads` followed by the dictionary access of lines 86-95
      (`None` when the text is not JSON or not an object). A failure of the fallback reaches
      the outer handler, which replaces it with the `ValueError` of line 129. */
  function ParseOutcome(text: string, response: Option<string>, decode: string -> Option<LlmFields>,
    m: PatternMatches): (r: Result<ParsedResume>)
    ensures FromReply(response, decode).Some? ==> r == Ok(FromReply(response, decode).value)
    ensures r.Err? <==> FromReply(response, decode).None? && ContactAsWritten(text, m).Err?
    ensures r.Err? ==> r.error == ParseFailedText
  {
    match FromReply(response, decode)
    case Some(parsed) => Ok(parsed)
    case None =>
      match Fallback(text, m)
      case Err(_) => Err(ParseFailedText)
      case Ok(parsed) => Ok(parsed)
  }

  /** Lines 74-129. */
  method ParseResumeText(text: string, response: Option<string>, decode: string -> Option<LlmFields>,
    m: PatternMatches) returns (parsed: Result<ParsedResume>)
    ensures parsed == ParseOutcome(text, response, decode, m)
  {
    var fromLlm := ReadReply(response, decode);
    if fromLlm.Some? {
      return Ok(fromLlm.value);
    }
    var byRules := ParseByRules(text, m);
    if byRules.Err? {
      return Err(ParseFailedText);
    }
    parsed := byRules;
  }

  /** Lines 74-111: the fence is removed from the reply and the rest decoded. */
  method ReadReply(response: Option<string>, decode: string -> Option<LlmFields>) returns (fromLlm: Option<ParsedResume>)
    ensures fromLlm == FromReply(response, decode)
  {
    fromLlm := None;
    if response.Some? {
      var cleaned := StripFence(response.value);
      var fields := decode(cleaned);
      if fields.Some? {
        fromLlm := FromLlm(fields.value);
      }
    }
  }

  /** Lines 116-126. */
  method ParseByRules(text: string, m: PatternMatches) returns (parsed: Result<ParsedResume>)
    ensures parsed == Fallback(text, m)
  {
    var name := ExtractName(text);
    var skills := ExtractSkills(text);
    var experience := ExtractExperience(m.experience);
    var education := ExtractEducation(text);
    var contact := ExtractContact(text, m);
    if contact.Err? {
      return Err(contact.error);
    }
    return Ok(ParsedResume(Some(name), skills, Some(experience), education, contact.value,
      Some(NoSummaryText), [], Some([]), text));
  }

  // ---------------------------------------------------------------------------
  // Properties of the whole parse

  /** Whenever the model's reply cannot be used, the result is the rule-based one: the first
      line as name, the keywords found in the text as skills, the summary placeholder, no
      certifications or work history, the contact found and the raw text as embedding text;
      or, when the contact extraction fails, the parse fails. */
  lemma FallbackWhenUnusable(text: string, response: Option<string>, decode: string -> Option<LlmFields>,
    m: PatternMatches)
    requires response.None? || decode(StripFence(response.value)).None? ||
      decode(StripFence(response.value)).value.skills.Null? ||
      decode(StripFence(response.value)).value.certifications.Null?
    ensures var p := ParseOutcome(text, response, decode, m);
      (p.Err? <==> ContactAsWritten(text, m).Err?) &&
      (p.Ok? ==>
        p.value.summary == Some(NoSummaryText) && p.value.certifications == [] &&
        p.value.workHistory == Some([]) && p.value.embeddingText == text &&
        p.value.name == Some(ExtractName(text)) && p.value.skills == SkillsFound(text) &&
        p.value.contact == ContactAsWritten(text, m).value)
  {
    assert FromReply(response, decode).None? by {
      if response.Some? && decode(StripFence(response.value)).Some? {
        assert FromLlm(decode(StripFence(response.value)).value).None?;
      }
    }
  }

  /** The rule-based skills are the keywords whose lower-case form occurs in the lower-cased
      text. */
  lemma SkillsFoundIff(text: string)
    ensures forall s :: s in SkillsFound(text) <==> s in TechKeywords && Contains(Lower(text), Lower(s))
  {
    var t := Lower(text);
    assert forall s :: SkillTest(t)(s) == Contains(t, Lower(s));
  }

  /** A decoded reply with none of the keys gets every default of lines 86-95. */
  lemma EmptyReplyDefaults(fields: LlmFields)
    requires fields == LlmFields(Absent, Absent, Absent, Absent, Absent, Absent, Absent, Absent)
    ensures FromLlm(fields).Some?
    ensures var p := FromLlm(fields).value;
      p.name == Some(UnknownName) && p.skills == [] && p.experience == Some(NoExperienceText) &&
      p.education == None && p.contact == Some([]) && p.summary == Some(NoSummaryText) &&
      p.certifications == [] && p.workHistory == Some([])
  {
  }

  /** Every skill and every certification of a usable reply is written into the embedding
      text. */
  lemma LlmListsInEmbedding(fields: LlmFields)
    requires FromLlm(fields).Some?
    ensures var p := FromLlm(fields).value;
      (forall k :: 0 <= k < |p.skills| ==> Contains(p.embeddingText, p.skills[k])) &&
      (forall k :: 0 <= k < |p.certifications| ==> Contains(p.embeddingText, p.certifications[k]))
  {
    var p := FromLlm(fields).value;
    var location := if p.contact.Some? && p.contact.value != [] then Lookup(p.contact.value, "location") else "";
    EmbeddingMentionsLists(p.name, p.summary, p.skills, p.experience, p.education, location,
      p.certifications, p.workHistory);
  }
}

=== FILE: resume_routes.dfy ===
/** The resume upload route (app/routes/resume.py, `upload_resume`): the uploaded file's name is
    checked, a storage key is built from the user, the time, a random id and the name's
    extension, the parsed resume is flattened into the text that is embedded, and every failure
    is re-raised as a status 500 error whose detail starts with "Error processing resume: ". */
module ResumeRoutes {
  import opened Wrappers
  import opened Text
  import opened Numerals
  import opened Lists
  import opened Records
  import ResumeParser

  // ---------------------------------------------------------------------------
  // Checking the file name

  const NoFileText := "No file provided"
  const NoFilenameText := "No filename provided"
  const WrongTypeText := "Only PDF and Word documents are allowed"

  /** Line 36: the lower-cased name ends with ".pdf", ".doc" or ".docx". */
  predicate Allowed(filename: string)
    ensures Allowed(filename) ==> |filename| >= 4
  {
    EndsWith(Lower(filename), ".pdf") || EndsWith(Lower(filename), ".doc") ||
    EndsWith(Lower(filename), ".docx")
  }

  /** Lines 30-37. `file` is the uploaded file's name, `None` when no file came with the
      request; the error is the detail of the status 400 rejection. */
  function Validate(file: Option<string>): (r: Result<string>)
    ensures r.Ok? <==> file.Some? && file.value != [] && Allowed(file.value)
    ensures r.Ok? ==> r.value == file.value
    ensures r.Err? ==> r.error in {NoFileText, NoFilenameText, WrongTypeText}
    ensures file.None? ==> r == Err(NoFileText)
  {
    if file.None? then Err(NoFileText)
    else if file.value == [] then Err(NoFilenameText)
    else if !Allowed(file.value) then Err(WrongTypeText)
    else Ok(file.value)
  }

  /** The check ignores case: "CV.PDF" is accepted. */
  lemma UpperCaseAccepted()
    ensures Validate(Some("CV.PDF")) == Ok("CV.PDF")
  {
    assert Lower("CV.PDF")[2..] == ".pdf";
  }

  /** A name that merely contains an allowed extension is refused. */
  lemma InnerExtensionRefused()
    ensures Validate(Some("cv.pdf.exe")) == Err(WrongTypeText)
  {
    var low := Lower("cv.pdf.exe");
    assert low[|low| - 1] == 'e';
  }

  // ---------------------------------------------------------------------------
  // The extension (`os.path.splitext` on POSIX)

  /** `s.rfind(c)`: the last position holding `c`, or -1. */
  function RFind(s: string, c: char): (i: int)
    ensures -1 <= i < |s|
    ensures i >= 0 ==> s[i] == c
    ensures forall j :: i < j < |s| ==> s[j] != c
    decreases |s|
  {
    if s == [] then -1
    else if s[|s| - 1] == c then |s| - 1
    else RFind(s[..|s| - 1], c)
  }

  /** `s` consists of dots only. */
  predicate AllDots(s: string) {
    s == [] || (s[0] == '.' && AllDots(s[1..]))
  }

  /** `os.path.splitext(p)`: the extension runs from the last '.' of the last path component,
      provided something other than dots precedes it in that component; otherwise it is empty. */
  function SplitExt(p: string): (r: (string, string))
    ensures r.0 + r.1 == p
    ensures r.1 != [] ==> r.1[0] == '.'
    ensures forall i :: 0 <= i < |r.1| ==> r.1[i] != '/' && (i == 0 || r.1[i] != '.')
  {
    var sepIndex := RFind(p, '/');
    var dotIndex := RFind(p, '.');
    if dotIndex > sepIndex && !AllDots(p[sepIndex + 1..dotIndex]) then
      ExtensionChars(p, sepIndex, dotIndex);
      (p[..dotIndex], p[dotIndex..])
    else
      (p, [])
  }

  /** What follows the last '.' after the last '/' holds neither. */
  lemma ExtensionChars(p: string, sepIndex: int, dotIndex: int)
    requires -1 <= sepIndex < dotIndex < |p| && p[dotIndex] == '.'
    requires forall j :: dotIndex < j < |p| ==> p[j] != '.'
    requires forall j :: sepIndex < j < |p| ==> p[j] != '/'
    ensures p[..dotIndex] + p[dotIndex..] == p
    ensures forall i :: 0 <= i < |p[dotIndex..]| ==>
      p[dotIndex..][i] != '/' && (i == 0 || p[dotIndex..][i] != '.')
  {
    forall i | 0 <= i < |p[dotIndex..]|
      ensures p[dotIndex..][i] != '/' && (i == 0 || p[dotIndex..][i] != '.')
    {
      assert p[dotIndex..][i] == p[dotIndex + i];
    }
  }

  /** Line 41. */
  function Extension(filename: string): (e: string)
    ensures |e| <= |filename| && filename[|filename| - |e|..] == e
    ensures e != [] ==> e[0] == '.'
    ensures forall i :: 0 <= i < |e| ==> e[i] != '/' && (i == 0 || e[i] != '.')
  {
    var parts := SplitExt(filename);
    assert filename == parts.0 + parts.1;
    parts.1
  }

  /** The last occurrence of `c` in `s` is its last occurrence in `s[..n]` when `s[n..]` lacks
      `c`. */
  lemma RFindPrefix(s: string, c: char, n: nat)
    requires n <= |s|
    requires forall j :: n <= j < |s| ==> s[j] != c
    ensures RFind(s, c) == RFind(s[..n], c)
  {
    var i := RFind(s, c);
    var k := RFind(s[..n], c);
    if k >= 0 {
      assert s[k] == c;
    }
    if i >= 0 {
      assert i < n;
      assert s[..n][i] == c;
    }
  }

  lemma LowerKeepsDot(c: char)
    ensures LowerChar(c) == '.' <==> c == '.'
    ensures LowerChar(c) == '/' <==> c == '/'
  {
  }

  /** `e` is a '.' followed by characters that are neither '.' nor '/'. */
  predicate DotSuffix(e: string) {
    e != [] && e[0] == '.' && forall j :: 1 <= j < |e| ==> e[j] != '.' && e[j] != '/'
  }

  lemma AllowedAreDotSuffixes()
    ensures DotSuffix(".pdf") && DotSuffix(".doc") && DotSuffix(".docx")
  {
  }

  /** A suffix accepted whatever its case starts with the name's last '.' and holds no '/'. */
  lemma AcceptedSuffix(filename: string, e: string)
    requires DotSuffix(e)
    requires EndsWith(Lower(filename), e)
    ensures filename[|filename| - |e|] == '.'
    ensures forall j :: |filename| - |e| < j < |filename| ==> filename[j] != '.'
    ensures forall j :: |filename| - |e| <= j < |filename| ==> filename[j] != '/'
    ensures Lower(filename[|filename| - |e|..]) == e
  {
    var n := |filename| - |e|;
    var low := Lower(filename);
    assert low[n..] == e;
    forall j | n <= j < |filename|
      ensures filename[j] != '/' && (j == n || filename[j] != '.')
      ensures j == n ==> filename[j] == '.'
    {
      assert low[j] == e[j - n];
      LowerKeepsDot(filename[j]);
    }
    assert Lower(filename[n..]) == low[n..];
  }

  /** A name whose lower-cased form ends with a suffix such as ".pdf" keeps, as its extension,
      exactly that suffix, with the case it was written in; unless all that precedes the suffix
      in the last path component is dots (".pdf", "a/..doc"), in which case the extension is
      empty. */
  lemma AcceptedExtension(filename: string, e: string)
    requires DotSuffix(e)
    requires EndsWith(Lower(filename), e)
    ensures Lower(filename[|filename| - |e|..]) == e
    ensures Extension(filename) ==
      if AllDots(StemBefore(filename, |filename| - |e|)) then [] else filename[|filename| - |e|..]
  {
    var n := |filename| - |e|;
    assert n < |filename| && filename[n] == '.' by {
      AcceptedSuffix(filename, e);
    }
    assert forall j :: n < j < |filename| ==> filename[j] != '.' by {
      AcceptedSuffix(filename, e);
    }
    assert forall j :: n <= j < |filename| ==> filename[j] != '/' by {
      AcceptedSuffix(filename, e);
    }
    assert Lower(filename[n..]) == e by {
      AcceptedSuffix(filename, e);
    }
    ExtensionAt(filename, n);
  }

  /** The part of the last path component of `p[..n]`. */
  function StemBefore(p: string, n: nat): string
    requires n <= |p|
  {
    p[RFind(p[..n], '/') + 1..n]
  }

  /** When `p[n]` is a '.' followed by no '.' or '/', the extension starts there unless only
      dots precede it in its path component. */
  lemma ExtensionAt(p: string, n: nat)
    requires n < |p| && p[n] == '.'
    requires forall j :: n < j < |p| ==> p[j] != '.'
    requires forall j :: n <= j < |p| ==> p[j] != '/'
    ensures Extension(p) == if AllDots(StemBefore(p, n)) then [] else p[n..]
  {
    RFindPrefix(p, '/', n);
    RFindAt(p, '.', n);
  }

  /** The position of `c` that no later `c` follows is its last occurrence. */
  lemma RFindAt(s: string, c: char, n: nat)
    requires n < |s| && s[n] == c
    requires forall j :: n < j < |s| ==> s[j] != c
    ensures RFind(s, c) == n
  {
  }

  /** The extension of an accepted name is empty or, lower-cased, one of the allowed ones. */
  lemma AcceptedNameExtension(filename: string)
    requires Validate(Some(filename)).Ok?
    ensures Extension(filename) == [] || Lower(Extension(filename)) in {".pdf", ".doc", ".docx"}
  {
    AllowedAreDotSuffixes();
    if EndsWith(Lower(filename), ".pdf") {
      AcceptedExtension(filename, ".pdf");
    } else if EndsWith(Lower(filename), ".doc") {
      AcceptedExtension(filename, ".doc");
    } else {
      AcceptedExtension(filename, ".docx");
    }
  }

  /** A file called ".pdf" is accepted yet has no extension: its key ends in the random id. */
  lemma DotOnlyNameExample()
    ensures Validate(Some(".pdf")) == Ok(".pdf")
    ensures Extension(".pdf") == []
  {
    var name := ".pdf";
    assert Lower(name) == name by {
      assert forall i :: 0 <= i < |name| ==> LowerChar(name[i]) == name[i];
    }
    assert EndsWith(Lower(name), ".pdf");
    assert RFind(name, '/') == -1;
    RFindAt(name, '.', 0);
    assert AllDots(name[0..0]);
  }

  // ---------------------------------------------------------------------------
  // The storage key

  const KeyPrefix := "resumes/"

  /** Line 42: "resumes/<user>/<timestamp>_<id><extension>". */
  function S3Key(userId: string, timestamp: int, id: string, extension: string): (key: string)
    ensures StartsWith(key, KeyPrefix + userId + "/")
    ensures EndsWith(key, extension)
  {
    var key := KeyPrefix + userId + "/" + IntToString(timestamp) + "_" + id + extension;
    assert key == (KeyPrefix + userId + "/") + (IntToString(timestamp) + "_" + id + extension);
    assert key == (KeyPrefix + userId + "/" + IntToString(timestamp) + "_" + id) + extension;
    key
  }

  lemma NoSlashInNumber(timestamp: int)
    ensures '/' !in IntToString(timestamp)
  {
    var digits := NatToString(if timestamp < 0 then -timestamp else timestamp);
    assert forall i :: 0 <= i < |digits| ==> IsDigit(digits[i]);
    if timestamp < 0 {
      assert IntToString(timestamp) == "-" + digits;
    }
  }

  /** Whenever the user and the random id hold no '/', the key has exactly three components:
      "resumes", the user, and the file's own name, so one user's files never land under
      another user's folder. The extension never holds a '/' (`SplitExt`). */
  lemma KeyComponents(userId: string, timestamp: int, id: string, extension: string)
    requires '/' !in userId && '/' !in id && '/' !in extension
    ensures SplitOn(S3Key(userId, timestamp, id, extension), '/') ==
      ["resumes", userId, IntToString(timestamp) + "_" + id + extension]
  {
    var number := IntToString(timestamp);
    var stem := number + "_" + id + extension;
    NoSlashInNumber(timestamp);
    NoSlashInStem(number, id, extension);
    assert S3Key(userId, timestamp, id, extension) == "resumes" + ['/'] + userId + ['/'] + stem;
    ThreeComponents(userId, stem);
  }

  lemma NoSlashInStem(number: string, id: string, extension: string)
    requires '/' !in number && '/' !in id && '/' !in extension
    ensures '/' !in number + "_" + id + extension
  {
  }

  lemma ThreeComponents(userId: string, stem: string)
    requires '/' !in userId && '/' !in stem
    ensures SplitOn("resumes" + ['/'] + userId + ['/'] + stem, '/') == ["resumes", userId, stem]
  {
    SplitOnWithout(stem, '/');
    SplitOnCons(userId, '/', stem);
    assert '/' !in "resumes";
    SplitOnCons("resumes", '/', userId + ['/'] + stem);
    assert "resumes" + ['/'] + userId + ['/'] + stem == "resumes" + ['/'] + (userId + ['/'] + stem);
  }

  // ---------------------------------------------------------------------------
  // The text that is embedded

  /** `'NoneType' object has no attribute 'values'`: the parse has a contact of `None`. */
  const NoContactValuesText := "'NoneType' object has no attribute 'values'"

  /** The keys of the contact entries, in order. */
  function EntryKeys(entries: seq<(string, string)>): (ks: seq<string>)
    ensures |ks| == |entries|
    ensures forall i :: 0 <= i < |entries| ==> ks[i] == entries[i].0
  {
    seq(|entries|, i requires 0 <= i < |entries| => entries[i].0)
  }

  /** `contact.values()`: one value per distinct key, in order of the key's first appearance;
      a repeated key holds its last value. */
  function ContactValues(entries: seq<(string, string)>): (values: seq<string>)
    ensures entries == [] <==> values == []
    ensures entries != [] ==> values[0] == Lookup(entries, entries[0].0)
  {
    var keys := Keys(Tally(EntryKeys(entries)));
    TallyKeys(EntryKeys(entries));
    assert entries != [] ==> EntryKeys(entries)[0] in keys;
    seq(|keys|, i requires 0 <= i < |keys| => Lookup(entries, keys[i]))
  }

  /** The values listed are exactly the values the contact's keys look up. */
  lemma ContactValuesMembers(entries: seq<(string, string)>)
    ensures forall v :: v in ContactValues(entries) <==>
      exists i :: 0 <= i < |entries| && Lookup(entries, entries[i].0) == v
  {
    var ks := EntryKeys(entries);
    var keys := Keys(Tally(ks));
    TallyKeys(ks);
    var vs := ContactValues(entries);
    forall v
      ensures v in vs <==> exists i :: 0 <= i < |entries| && Lookup(entries, entries[i].0) == v
    {
      if v in vs {
        var j :| 0 <= j < |vs| && vs[j] == v;
        assert keys[j] in ks;
        var i :| 0 <= i < |ks| && ks[i] == keys[j];
        assert Lookup(entries, entries[i].0) == v;
      }
      if exists i :: 0 <= i < |entries| && Lookup(entries, entries[i].0) == v {
        var i :| 0 <= i < |entries| && Lookup(entries, entries[i].0) == v;
        assert ks[i] in keys;
        var j :| 0 <= j < |keys| && keys[j] == ks[i];
        assert vs[j] == v;
      }
    }
  }

  /** Without repeated keys the values are those of the entries, in order. */
  lemma ContactValuesOfDistinct(entries: seq<(string, string)>)
    requires forall a, b :: 0 <= a < b < |entries| ==> entries[a].0 != entries[b].0
    ensures |ContactValues(entries)| == |entries|
    ensures forall i :: 0 <= i < |entries| ==> ContactValues(entries)[i] == entries[i].1
  {
    var ks := EntryKeys(entries);
    assert Distinct(ks);
    TallyKeysOfDistinct(ks);
    forall i | 0 <= i < |entries|
      ensures ContactValues(entries)[i] == entries[i].1
    {
      LookupDistinct(entries, i);
    }
  }

  /** Lines 67-73, for a parse whose contact is an object. */
  function TextParts(p: ResumeParser.ParsedResume, contact: seq<(string, string)>): (parts: seq<string>)
    ensures |parts| == 5
    ensures forall k :: 0 <= k < |p.skills| ==> Contains(parts[1], p.skills[k])
    ensures Truthy(p.summary) ==> parts[0] == p.summary.value
    ensures contact != [] ==> Contains(parts[4], Lookup(contact, contact[0].0))
  {
    var values := ContactValues(contact);
    JoinWithContainsAll(" ", p.skills);
    JoinWithContainsAll(" ", values);
    [OrEmpty(p.summary), JoinWith(" ", p.skills), OrEmpty(p.experience), OrEmpty(p.education),
      JoinWith(" ", values)]
  }

  /** Lines 67-74: the non-empty parts joined by single spaces; a contact of `None` raises. */
  function TextBlob(p: ResumeParser.ParsedResume): (r: Result<string>)
    ensures r.Err? <==> p.contact.None?
    ensures r.Err? ==> r.error == NoContactValuesText
  {
    if p.contact.None? then Err(NoContactValuesText)
    else Ok(JoinWith(" ", Filter(TextParts(p, p.contact.value), NonEmpty)))
  }

  /** A part of the list is contained in the join of its non-empty parts. */
  lemma PartInJoin(parts: seq<string>, x: string)
    requires x in parts
    ensures Contains(JoinWith(" ", Filter(parts, NonEmpty)), x)
  {
    var kept := Filter(parts, NonEmpty);
    if x == [] {
      assert x <= JoinWith(" ", kept);
    } else {
      assert x in kept;
      var k :| 0 <= k < |kept| && kept[k] == x;
      JoinWithContains(" ", kept, k);
    }
  }

  /** The join of non-empty parts is empty exactly when there are none. */
  lemma {:induction false} JoinNonEmpty(parts: seq<string>)
    requires forall i :: 0 <= i < |parts| ==> parts[i] != []
    ensures JoinWith(" ", parts) == [] <==> parts == []
  {
    if |parts| > 1 {
      assert |JoinWith(" ", parts)| >= |parts[0]|;
    }
  }

  /** The embedded text holds the summary, every skill, the experience, the education and
      every contact value. */
  lemma BlobMentions(p: ResumeParser.ParsedResume)
    requires p.contact.Some?
    ensures Contains(TextBlob(p).value, OrEmpty(p.summary))
    ensures Contains(TextBlob(p).value, OrEmpty(p.experience))
    ensures Contains(TextBlob(p).value, OrEmpty(p.education))
    ensures forall k :: 0 <= k < |p.skills| ==> Contains(TextBlob(p).value, p.skills[k])
    ensures forall i :: 0 <= i < |p.contact.value| ==>
      Contains(TextBlob(p).value, Lookup(p.contact.value, p.contact.value[i].0))
  {
    var entries := p.contact.value;
    var parts := TextParts(p, entries);
    var blob := TextBlob(p).value;
    PartInJoin(parts, parts[0]);
    PartInJoin(parts, parts[2]);
    PartInJoin(parts, parts[3]);
    PartInJoin(parts, parts[1]);
    PartInJoin(parts, parts[4]);
    forall k | 0 <= k < |p.skills|
      ensures Contains(blob, p.skills[k])
    {
      JoinWithContains(" ", p.skills, k);
      ContainsTrans(blob, parts[1], p.skills[k]);
    }
    var vs := ContactValues(entries);
    ContactValuesMembers(entries);
    forall i | 0 <= i < |entries|
      ensures Contains(blob, Lookup(entries, entries[i].0))
    {
      var v := Lookup(entries, entries[i].0);
      assert v in vs;
      var j :| 0 <= j < |vs| && vs[j] == v;
      JoinWithContains(" ", vs, j);
      ContainsTrans(blob, parts[4], v);
    }
  }

  /** The embedded text is empty exactly when all five parts are. */
  lemma BlobEmptyIff(p: ResumeParser.ParsedResume)
    requires p.contact.Some?
    ensures TextBlob(p).value == [] <==>
      forall i :: 0 <= i < 5 ==> TextParts(p, p.contact.value)[i] == []
  {
    var parts := TextParts(p, p.contact.value);
    var kept := Filter(parts, NonEmpty);
    forall i | 0 <= i < |kept|
      ensures kept[i] != []
    {
      assert kept[i] in kept;
    }
    JoinNonEmpty(kept);
    if kept != [] {
      assert kept[0] in parts;
    } else {
      forall i | 0 <= i < 5
        ensures parts[i] == []
      {
        assert parts[i] in parts;
      }
    }
  }

  /** A parse made without the model whose text shows no e-mail, phone or location label has
      a contact of `None`, so it has no embedded text. */
  lemma FallbackWithoutContactHasNoBlob(text: string, m: ResumeParser.PatternMatches)
    requires m.email.None? && m.phone.None? && m.cityState.None?
    requires ResumeParser.FirstLabelled(SplitOn(text, '\n'), Lower(text),
      ResumeParser.LocationKeywords) == |ResumeParser.LocationKeywords|
    ensures ResumeParser.Fallback(text, m).Ok?
    ensures TextBlob(ResumeParser.Fallback(text, m).value) == Err(NoContactValuesText)
  {
  }

  // ---------------------------------------------------------------------------
  // The upload

  const ErrorPrefix := "Error processing resume: "

  /** `str(HTTPException(400, detail))`. */
  function Rejection(detail: string): string {
    "400: " + detail
  }

  datatype UploadOutcome =
    | Stored(key: string, blob: string)
    | Failed(status: int, detail: string, cleanup: Option<string>, saved: bool)

  /** The prefix `store_resume` puts on a failure of the database (database.py:39). */
  const StoreErrorPrefix := "Error storing resume: "

  /** The fields `ResumeUploadResponse` declares as `str` (models.py:90-95) that the parse left
      as `None`, in declaration order. */
  function NoneFields(p: ResumeParser.ParsedResume): (fields: seq<string>)
    ensures fields == [] <==>
      (p.name.Some? && p.experience.Some? && p.education.Some? && p.summary.Some?)
    ensures |fields| <= 4
  {
    (if p.name.None? then ["name"] else []) +
    (if p.experience.None? then ["experience"] else []) +
    (if p.education.None? then ["education"] else []) +
    (if p.summary.None? then ["summary"] else [])
  }

  /** Lines 26-104. Everything the route calls out to is a parameter: `user` is the signed-in
      user's id or the text of the authentication failure; `storageError` the failure, if any,
      of reading the upload or writing it to and reading it back from storage; `parsed` the
      parse, or the error the parser raised; `laterError` the failure, if any, of computing the
      embedding or of saving the row for a reason outside this model; `rejected` the text of the
      error raised over string fields left `None`: the database's NOT NULL violation for `name`
      (models.py:29), and the validation error of the response model (models.py:89-95).
      A failure detail is the text of the error raised; `cleanup` is the key whose deletion is
      attempted, present once the key has been assigned; `saved` tells whether the row was
      committed before the failure, which the cleanup leaves in place. */
  function UploadResume(user: Result<string>, file: Option<string>, timestamp: int, id: string,
    storageError: Option<string>, parsed: Result<ResumeParser.ParsedResume>,
    laterError: Option<string>, rejected: seq<string> -> string): (r: UploadOutcome)
    ensures r.Failed? ==> r.status == 500 && StartsWith(r.detail, ErrorPrefix)
    ensures r.Failed? ==> (r.cleanup.Some? <==> user.Ok? && Validate(file).Ok?)
    ensures r.Stored? ==> (user.Ok? && file.Some? && Allowed(file.value) &&
      StartsWith(r.key, KeyPrefix + user.value + "/"))
    ensures r.Stored? ==> (storageError.None? && parsed.Ok? && parsed.value.contact.Some? &&
      laterError.None? && NoneFields(parsed.value) == [])
    ensures r.Failed? && r.saved ==> (r.cleanup.Some? && parsed.Ok? && laterError.None? &&
      parsed.value.name.Some? && NoneFields(parsed.value) != [] &&
      r.detail == ErrorPrefix + rejected(NoneFields(parsed.value)))
  {
    match user
    case Err(e) => Failed(500, ErrorPrefix + e, None, false)
    case Ok(userId) =>
      match Validate(file)
      case Err(e) => Failed(500, ErrorPrefix + Rejection(e), None, false)
      case Ok(filename) =>
        var key := S3Key(userId, timestamp, id, Extension(filename));
        if storageError.Some? then Failed(500, ErrorPrefix + storageError.value, Some(key), false)
        else if parsed.Err? then Failed(500, ErrorPrefix + parsed.error, Some(key), false)
        else
          match TextBlob(parsed.value)
          case Err(e) => Failed(500, ErrorPrefix + e, Some(key), false)
          case Ok(blob) => Respond(key, blob, parsed.value, laterError, rejected)
  }

  /** Lines 78-93, once the embedded text is assembled: the embedding and the row are saved
      (`store_resume` commits, or raises "Error storing resume: ..." when the row is refused,
      database.py:8-39), and then the response is built from the parse. */
  function Respond(key: string, blob: string, p: ResumeParser.ParsedResume,
    laterError: Option<string>, rejected: seq<string> -> string): (r: UploadOutcome)
    ensures r.Stored? <==> laterError.None? && NoneFields(p) == []
    ensures r.Stored? ==> r == Stored(key, blob)
    ensures r.Failed? ==> r.status == 500 && StartsWith(r.detail, ErrorPrefix) && r.cleanup == Some(key)
    ensures r.Failed? ==> (r.saved <==> laterError.None? && p.name.Some?)
    ensures r.Failed? && r.saved ==> r.detail == ErrorPrefix + rejected(NoneFields(p))
  {
    if laterError.Some? then Failed(500, ErrorPrefix + laterError.value, Some(key), false)
    else if p.name.None? then
      Failed(500, ErrorPrefix + StoreErrorPrefix + rejected(["name"]), Some(key), false)
    else if NoneFields(p) != [] then
      Failed(500, ErrorPrefix + rejected(NoneFields(p)), Some(key), true)
    else Stored(key, blob)
  }

  /** The response step as evidently intended: the response accepts the fields the table lets
      be empty (models.py:31-34), so once the row is committed the upload succeeds, and a
      failure never leaves a row behind whose file the cleanup deletes. */
  function RespondIntended(key: string, blob: string, p: ResumeParser.ParsedResume,
    laterError: Option<string>, rejected: seq<string> -> string): (r: UploadOutcome)
    ensures r.Failed? ==> !r.saved && r.status == 500 && r.cleanup == Some(key)
    ensures r.Stored? <==> laterError.None? && p.name.Some?
    ensures r.Stored? ==> r == Stored(key, blob)
  {
    if laterError.Some? then Failed(500, ErrorPrefix + laterError.value, Some(key), false)
    else if p.name.None? then
      Failed(500, ErrorPrefix + StoreErrorPrefix + rejected(["name"]), Some(key), false)
    else Stored(key, blob)
  }

  /** The two response steps agree wherever the response's string fields are all present. */
  lemma RespondAgreesWhenComplete(key: string, blob: string, p: ResumeParser.ParsedResume,
    laterError: Option<string>, rejected: seq<string> -> string)
    requires NoneFields(p) == []
    ensures Respond(key, blob, p, laterError, rejected) ==
      RespondIntended(key, blob, p, laterError, rejected)
  {
  }

  /** A refused file name reaches the caller as a status 500 whose detail carries the status 400
      rejection, and no cleanup is attempted. */
  lemma RejectionRewrapped(userId: string, file: Option<string>, timestamp: int, id: string,
    storageError: Option<string>, parsed: Result<ResumeParser.ParsedResume>,
    laterError: Option<string>, rejected: seq<string> -> string)
    requires Validate(file).Err?
    ensures UploadResume(Ok(userId), file, timestamp, id, storageError, parsed, laterError, rejected) ==
      Failed(500, "Error processing resume: 400: " + Validate(file).error, None, false)
  {
    assert UploadResume(Ok(userId), file, timestamp, id, storageError, parsed, laterError, rejected) ==
      Failed(500, ErrorPrefix + Rejection(Validate(file).error), None, false);
    assert ErrorPrefix + Rejection(Validate(file).error) ==
      "Error processing resume: 400: " + Validate(file).error;
  }

  /** Once the key is assigned, a failure deletes exactly the object that was written. */
  lemma CleanupRemovesKey(userId: string, file: Option<string>, timestamp: int, id: string,
    storageError: Option<string>, parsed: Result<ResumeParser.ParsedResume>,
    laterError: Option<string>, rejected: seq<string> -> string)
    requires Validate(file).Ok?
    requires UploadResume(Ok(userId), file, timestamp, id, storageError, parsed, laterError, rejected).Failed?
    ensures UploadResume(Ok(userId), file, timestamp, id, storageError, parsed, laterError, rejected).cleanup ==
      Some(S3Key(userId, timestamp, id, Extension(file.value)))
  {
  }

  /** When nothing fails and every string field of the response is present, the resume is
      stored under its key with its embedded text. */
  lemma UploadStores(userId: string, filename: string, timestamp: int, id: string,
    p: ResumeParser.ParsedResume, rejected: seq<string> -> string)
    requires filename != [] && Allowed(filename) && p.contact.Some?
    requires p.name.Some? && p.experience.Some? && p.education.Some? && p.summary.Some?
    ensures UploadResume(Ok(userId), Some(filename), timestamp, id, None, Ok(p), None, rejected) ==
      Stored(S3Key(userId, timestamp, id, Extension(filename)), TextBlob(p).value)
  {
  }

  /** A parse with a name but some other string field `None` is saved, and then the response
      cannot be built: the upload fails and deletes the stored file, leaving the saved row. */
  lemma MissingFieldUploadFails(userId: string, filename: string, timestamp: int, id: string,
    p: ResumeParser.ParsedResume, rejected: seq<string> -> string)
    requires filename != [] && Allowed(filename) && p.contact.Some? && p.name.Some?
    requires p.experience.None? || p.education.None? || p.summary.None?
    ensures UploadResume(Ok(userId), Some(filename), timestamp, id, None, Ok(p), None, rejected) ==
      Failed(500, ErrorPrefix + rejected(NoneFields(p)),
        Some(S3Key(userId, timestamp, id, Extension(filename))), true)
  {
  }

  /** A parse without a name is refused by the database: the upload fails, deletes the stored
      file and saves nothing. */
  lemma NamelessUploadFails(userId: string, filename: string, timestamp: int, id: string,
    p: ResumeParser.ParsedResume, rejected: seq<string> -> string)
    requires filename != [] && Allowed(filename) && p.contact.Some? && p.name.None?
    ensures UploadResume(Ok(userId), Some(filename), timestamp, id, None, Ok(p), None, rejected) ==
      Failed(500, ErrorPrefix + StoreErrorPrefix + rejected(["name"]),
        Some(S3Key(userId, timestamp, id, Extension(filename))), false)
  {
  }

  /** A parse with every response field but `education` is missing `education` alone. */
  lemma OnlyEducationMissing(p: ResumeParser.ParsedResume)
    requires p.name.Some? && p.experience.Some? && p.education.None? && p.summary.Some?
    ensures NoneFields(p) == ["education"]
  {
  }

  /** The rule-based parse always has a name, an experience text and a summary, so a resume
      naming no degree misses `education` alone. */
  lemma FallbackLacksOnlyEducation(text: string, m: ResumeParser.PatternMatches)
    requires ResumeParser.EducationOf(text).None? && ResumeParser.Fallback(text, m).Ok?
    ensures NoneFields(ResumeParser.Fallback(text, m).value) == ["education"]
  {
    OnlyEducationMissing(ResumeParser.Fallback(text, m).value);
  }

  /** Each response field is listed exactly when the parse left it `None`. */
  lemma NoneFieldsMembers(p: ResumeParser.ParsedResume)
    ensures "name" in NoneFields(p) <==> p.name.None?
    ensures "experience" in NoneFields(p) <==> p.experience.None?
    ensures "education" in NoneFields(p) <==> p.education.None?
    ensures "summary" in NoneFields(p) <==> p.summary.None?
  {
    var a := if p.name.None? then ["name"] else [];
    var b := if p.experience.None? then ["experience"] else [];
    var c := if p.education.None? then ["education"] else [];
    var d := if p.summary.None? then ["summary"] else [];
    assert NoneFields(p) == a + b + c + d;
    assert "name" != "experience" && "name" != "education" && "name" != "summary";
    assert "experience" != "education" && "experience" != "summary";
    assert "education" != "summary";
  }

  /** A resume parsed by the rules in which no line names a degree has no education, so its
      upload fails once the row is saved, with the response's error over `education` alone. */
  lemma NoEducationUploadFails(userId: string, filename: string, timestamp: int, id: string,
    text: string, m: ResumeParser.PatternMatches, rejected: seq<string> -> string)
    requires filename != [] && Allowed(filename)
    requires ResumeParser.EducationOf(text).None?
    requires ResumeParser.Fallback(text, m).Ok? && ResumeParser.Fallback(text, m).value.contact.Some?
    ensures UploadResume(Ok(userId), Some(filename), timestamp, id, None,
      ResumeParser.Fallback(text, m), None, rejected) ==
      Failed(500, ErrorPrefix + rejected(["education"]),
        Some(S3Key(userId, timestamp, id, Extension(filename))), true)
  {
    var p := ResumeParser.Fallback(text, m).value;
    FallbackLacksOnlyEducation(text, m);
    MissingFieldUploadFails(userId, filename, timestamp, id, p, rejected);
  }

  /** A resume parsed without the model and showing no contact detail cannot be uploaded: the
      route fails while assembling the embedded text, after the file was stored. */
  lemma UploadWithoutContactFails(userId: string, filename: string, timestamp: int, id: string,
    text: string, m: ResumeParser.PatternMatches, laterError: Option<string>,
    rejected: seq<string> -> string)
    requires filename != [] && Allowed(filename)
    requires m.email.None? && m.phone.None? && m.cityState.None?
    requires ResumeParser.FirstLabelled(SplitOn(text, '\n'), Lower(text),
      ResumeParser.LocationKeywords) == |ResumeParser.LocationKeywords|
    ensures UploadResume(Ok(userId), Some(filename), timestamp, id, None,
      ResumeParser.Fallback(text, m), laterError, rejected) ==
      Failed(500, ErrorPrefix + NoContactValuesText,
        Some(S3Key(userId, timestamp, id, Extension(filename))), false)
  {
    FallbackWithoutContactHasNoBlob(text, m);
    UploadBlobFails(userId, filename, timestamp, id, ResumeParser.Fallback(text, m).value,
      laterError, rejected);
  }

  /** A parse without embedded text fails the upload with that error, after the file was
      stored. */
  lemma UploadBlobFails(userId: string, filename: string, timestamp: int, id: string,
    p: ResumeParser.ParsedResume, laterError: Option<string>, rejected: seq<string> -> string)
    requires filename != [] && Allowed(filename)
    requires TextBlob(p).Err?
    ensures UploadResume(Ok(userId), Some(filename), timestamp, id, None, Ok(p), laterError, rejected) ==
      Failed(500, ErrorPrefix + TextBlob(p).error,
        Some(S3Key(userId, timestamp, id, Extension(filename))), false)
  {
  }

  /** A resume labelling its location in lower case, with no "City, ST" pattern and no usable
      reply from the model, cannot be uploaded: the parser fails, and the route reports it
      after the file was stored. */
  lemma LowerCaseLabelUploadFails(userId: string, filename: string, timestamp: int, id: string,
    decode: string -> Option<ResumeParser.LlmFields>, laterError: Option<string>,
    rejected: seq<string> -> string)
    requires filename != [] && Allowed(filename)
    ensures UploadResume(Ok(userId), Some(filename), timestamp, id, None,
      ResumeParser.ParseOutcome("location: Paris", None, decode,
        ResumeParser.PatternMatches(None, None, None, [])), laterError, rejected) ==
      Failed(500, ErrorPrefix + ResumeParser.ParseFailedText,
        Some(S3Key(userId, timestamp, id, Extension(filename))), false)
  {
    ResumeParser.LowerCaseLabelExample();
  }
}

=== FILE: screening_generator.dfy ===
/** Screening questions for a skill (app/services/screening_generator.py): the model's reply is
    cut into lines, blank lines are dropped, list numbering is removed and at most five questions
    are kept; when the model cannot be reached a fixed list is used instead. */
module ScreeningGenerator {
  import opened Wrappers
  import opened Text
  import opened Lists
  import opened Sorting

  /** The characters `lstrip` removes from the front of each line: digits, '.', '-' and ' '. */
  const NumberingChars: set<char> := {'0', '1', '2', '3', '4', '5', '6', '7', '8', '9', '.', '-', ' '}

  /** The most questions returned. */
  const MaxQuestions := 5

  /** Each line with its leading numbering removed. */
  function UnnumberAll(lines: seq<string>): (r: seq<string>)
    ensures |r| == |lines|
    ensures forall i :: 0 <= i < |lines| ==> r[i] == LStrip(lines[i], NumberingChars)
  {
    seq(|lines|, i requires 0 <= i < |lines| => LStrip(lines[i], NumberingChars))
  }

  /** Lines 12-16: the questions with their numbering removed, those left empty dropped. */
  function Cleaned(questions: seq<string>): (r: seq<string>)
    ensures |r| <= |questions|
    ensures forall i :: 0 <= i < |r| ==> r[i] != [] && r[i][0] !in NumberingChars
    decreases |questions|
  {
    if questions == [] then []
    else
      var q := LStrip(questions[|questions| - 1], NumberingChars);
      Cleaned(questions[..|questions| - 1]) + (if q != [] then [q] else [])
  }

  /** The cleaning keeps, in order, exactly the unnumbered questions that are not empty. */
  lemma {:induction false} CleanedIsFilter(questions: seq<string>)
    ensures Cleaned(questions) == Filter(UnnumberAll(questions), NonEmpty)
    decreases |questions|
  {
    if questions != [] {
      var init := questions[..|questions| - 1];
      CleanedIsFilter(init);
      var all := UnnumberAll(questions);
      var q := LStrip(questions[|questions| - 1], NumberingChars);
      var tail := if q != [] then [q] else [];
      assert Cleaned(questions) == Cleaned(init) + tail;
      assert Filter(all, NonEmpty) == Filter(UnnumberAll(init), NonEmpty) + tail by {
        assert all[..|all| - 1] == UnnumberAll(init);
        assert all[|all| - 1] == q;
      }
    }
  }

  /** A question appears in the cleaned list exactly when it is what remains of some question
      after its numbering is removed, and it is not empty; the cleaned list keeps their order. */
  lemma CleanedMembers(questions: seq<string>)
    ensures forall x :: x in Cleaned(questions) <==>
      x != [] && exists i :: 0 <= i < |questions| && LStrip(questions[i], NumberingChars) == x
    ensures IsSubsequence(Cleaned(questions), UnnumberAll(questions))
  {
    var all := UnnumberAll(questions);
    CleanedIsFilter(questions);
    FilterIsSubsequence(all, NonEmpty);
    forall x
      ensures x in Cleaned(questions) <==>
        x != [] && exists i :: 0 <= i < |questions| && LStrip(questions[i], NumberingChars) == x
    {
      assert x in Cleaned(questions) <==> x in all && x != [];
      if x in all {
        var i :| 0 <= i < |all| && all[i] == x;
        assert LStrip(questions[i], NumberingChars) == x;
      }
      if exists i :: 0 <= i < |questions| && LStrip(questions[i], NumberingChars) == x {
        var i :| 0 <= i < |questions| && LStrip(questions[i], NumberingChars) == x;
        assert all[i] == x;
      }
    }
  }

  /** Lines 12-16. */
  method CleanQuestions(questions: seq<string>) returns (cleaned: seq<string>)
    ensures cleaned == Cleaned(questions)
  {
    cleaned := [];
    var i := 0;
    while i < |questions|
      invariant 0 <= i <= |questions|
      invariant cleaned == Cleaned(questions[..i])
    {
      assert questions[..i + 1][..i] == questions[..i];
      var q := LStrip(questions[i], NumberingChars);
      if q != [] {
        cleaned := cleaned + [q];
      }
      i := i + 1;
    }
    assert questions[..i] == questions;
  }

  /** Lines 20-26: the questions used when the model cannot be reached. */
  function FallbackQuestions(skill: string): (r: seq<string>)
    ensures |r| == MaxQuestions
  {
    [ "What is your experience with " + skill + "?",
      "How would you approach a complex " + skill + " problem?",
      "What are the best practices in " + skill + "?",
      "How do you handle debugging in " + skill + "?",
      "What's your favorite " + skill + " feature and why?" ]
  }

  /** Every fallback question names the skill. */
  lemma FallbackMentionsSkill(skill: string)
    ensures forall i :: 0 <= i < |FallbackQuestions(skill)| ==> Contains(FallbackQuestions(skill)[i], skill)
  {
    ContainsMiddle("What is your experience with ", skill, "?");
    ContainsMiddle("How would you approach a complex ", skill, " problem?");
    ContainsMiddle("What are the best practices in ", skill, "?");
    ContainsMiddle("How do you handle debugging in ", skill, "?");
    ContainsMiddle("What's your favorite ", skill, " feature and why?");
  }

  /** Lines 5-26. `response` is the model's reply, or `None` when the call raised. The level
      only shapes the prompt, which is not part of this model. */
  method GenerateQuestions(skill: string, response: Option<string>) returns (questions: seq<string>)
    ensures response.None? ==> questions == FallbackQuestions(skill)
    ensures response.Some? ==> questions == Take(Cleaned(NonBlankParts(SplitOn(response.value, '\n'))), MaxQuestions)
    ensures response.Some? ==> questions <= Cleaned(NonBlankParts(SplitOn(response.value, '\n')))
    ensures |questions| <= MaxQuestions
    ensures response.Some? ==> forall i :: 0 <= i < |questions| ==>
      questions[i] != [] && questions[i][0] !in NumberingChars
  {
    if response.None? {
      return FallbackQuestions(skill);
    }
    var lines := NonBlankParts(SplitOn(response.value, '\n'));
    var cleaned := CleanQuestions(lines);
    questions := Take(cleaned, MaxQuestions);
  }

  /** Numbering in front of a question is removed and the question itself is kept whole. */
  lemma {:induction false} NumberingRemoved(numbering: string, question: string)
    requires forall i :: 0 <= i < |numbering| ==> numbering[i] in NumberingChars
    requires question == [] || question[0] !in NumberingChars
    ensures LStrip(numbering + question, NumberingChars) == question
    decreases |numbering|
  {
    if numbering != [] {
      assert (numbering + question)[1..] == numbering[1..] + question;
      NumberingRemoved(numbering[1..], question);
    }
  }

  /** A line holding nothing but numbering, such as "3.", yields no question. */
  lemma NumberingOnlyDropped(line: string)
    requires forall i :: 0 <= i < |line| ==> line[i] in NumberingChars
    ensures Cleaned([line]) == []
  {
    NumberingRemoved(line, []);
    assert line + [] == line;
    assert [line][..0] == [];
  }

  /** The question of a numbered line "1. What is X?" is "What is X?". */
  lemma NumberedLineCleaned(numbering: string, question: string)
    requires forall i :: 0 <= i < |numbering| ==> numbering[i] in NumberingChars
    requires question != [] && question[0] !in NumberingChars
    ensures Cleaned([numbering + question]) == [question]
  {
    NumberingRemoved(numbering, question);
    assert [numbering + question][..0] == [];
  }
}

=== FILE: search_engine.dfy ===
/** The candidate-ranking rule of `SearchEngine.search`, the simpler rule of
    `SearchEngine.semantic_search`, and the fallback branches of
    `SearchEngine.generate_answer_with_rag` (app/services/search_engine.py).

    The similarity of two embeddings is an input: each row carries the cosine between its stored
    vector and the query's vector, and the cosine between the two location embeddings. Python's
    `0.4 ** shortfall` is the parameter `decay`, constrained by `DecayModel`. */
module SearchEngine {
  import opened Wrappers
  import opened Text
  import opened Numerals
  import opened Records
  import Sorting

  /** Only scores strictly above this survive (line 356). */
  const Threshold: real := 0.3
  /** The number of matches `search` keeps (line 368). */
  const TopMatches: nat := 5

  const UserRequired := "user_id is required for search"
  const SearchErrorPrefix := "Error performing search: "
  const NoResumesText := "No resumes found in your database."
  const NoMatchesText := "No matching resumes found for your search criteria."
  const NoTopResumesText := "No matching resumes found."
  const AnalysisFailedText := "Error generating analysis. Please try again."
  /** The message of the `TypeError` raised by `', '.join(None)`. */
  const JoinNoneError := "can only join an iterable"

  /** The arguments of `search`; `None` and `""` are both falsy, as in Python. */
  datatype Query = Query(
    text: string,
    location: Option<string>,
    experienceYears: Option<real>,
    userId: Option<string>)

  /** What the language model does with the analysis prompt: a reply, or an exception. */
  datatype Narration = Narrated(reply: string) | NarratorFailed

  /** The fate of one row in the scoring loop: skipped by a caught exception, scored, or ending the
      whole search with an exception that escapes the loop. */
  datatype Verdict = Skipped | Scored(score: real) | Aborted(error: string)

  /** An entry of `similarities`: the unclamped score and its row. */
  datatype Candidate = Candidate(score: real, row: ResumeRow)

  /** An entry of `matches`: the row's columns and the clamped score. */
  datatype Match = Match(row: ResumeRow, similarityScore: real)

  datatype SearchResponse = SearchResponse(matches: seq<Match>, analysis: string)

  // ---------------------------------------------------------------------------
  // Arithmetic

  /** Python's `max(a, b)`. */
  function Max(a: real, b: real): (r: real)
    ensures r >= a && r >= b
    ensures r == a || r == b
  {
    if a >= b then a else b
  }

  /** Python's `max(0.0, min(x, 1.0))`. */
  function Clamp01(x: real): (r: real)
    ensures 0.0 <= r <= 1.0
    ensures 0.0 <= x <= 1.0 ==> r == x
    ensures x > 1.0 ==> r == 1.0
    ensures x < 0.0 ==> r == 0.0
  {
    if x > 1.0 then 1.0 else if x < 0.0 then 0.0 else x
  }

  lemma ClampMonotone(x: real, y: real)
    requires x <= y
    ensures Clamp01(x) <= Clamp01(y)
  {
  }

  function Power(b: real, n: nat): real {
    if n == 0 then 1.0 else b * Power(b, n - 1)
  }

  /** What the model assumes of `0.4 ** x`: strictly between 0 and 1 for a positive exponent,
      non-increasing in the exponent, and exact on natural exponents. */
  ghost predicate DecayModel(decay: real -> real) {
    && (forall x :: 0.0 < x ==> 0.0 < decay(x) < 1.0)
    && (forall x, y :: 0.0 < x <= y ==> decay(y) <= decay(x))
    && (forall n: nat :: decay(n as real) == Power(0.4, n))
  }

  lemma {:induction false} PowerBelowOne(n: nat)
    requires n >= 1
    ensures 0.0 < Power(0.4, n) < 1.0
    decreases n
  {
    if n > 1 {
      PowerBelowOne(n - 1);
    }
  }

  lemma {:induction false} PowerAntitone(m: nat, n: nat)
    requires m <= n
    ensures 0.0 < Power(0.4, n) <= Power(0.4, m)
    decreases n
  {
    if m < n {
      PowerAntitone(m, n - 1);
    } else if n > 0 {
      PowerAntitone(n - 1, n - 1);
    }
  }

  /** The least integer not below `x`. */
  function Ceiling(x: real): (c: int)
    ensures c as real >= x > c as real - 1.0
  {
    if x.Floor as real == x then x.Floor else x.Floor + 1
  }

  /** `0.4` raised to the exponent rounded up: a function that meets `DecayModel`. */
  function StepDecay(x: real): real {
    if x <= 0.0 then 1.0 else Power(0.4, Ceiling(x) as nat)
  }

  /** `DecayModel` can be met, so the lemmas that assume it are not vacuous. */
  lemma DecayModelSatisfiable()
    ensures DecayModel(StepDecay)
  {
    forall x | 0.0 < x
      ensures 0.0 < StepDecay(x) < 1.0
    {
      PowerBelowOne(Ceiling(x) as nat);
    }
    forall x, y | 0.0 < x <= y
      ensures StepDecay(y) <= StepDecay(x)
    {
      PowerAntitone(Ceiling(x) as nat, Ceiling(y) as nat);
    }
    forall n: nat
      ensures StepDecay(n as real) == Power(0.4, n)
    {
      if n > 0 {
        assert Ceiling(n as real) == n;
      }
    }
  }

  // ---------------------------------------------------------------------------
  // Scoring one row (lines 260-361)

  /** The location similarity of a resume when the query names a location (lines 268-288):
      the cosine of the two location embeddings when the contact object has a non-empty
      `location`, 0.3 when it has none (or the column is NULL), 0.5 when the column does not
      decode, and an `AttributeError` that escapes when it decodes to something other than an
      object. */
  function LocationSimilarity(row: ResumeRow): (r: Result<real>)
    ensures r.Err? <==> row.contact.ContactOther?
    ensures r.Ok? && r.value != row.locationCosine ==> r.value == 0.3 || r.value == 0.5
  {
    match row.contact
    case ContactNull => Ok(0.3)
    case ContactMalformed(_) => Ok(0.5)
    case ContactObject(entries) =>
      if Lookup(entries, "location") != "" then Ok(row.locationCosine) else Ok(0.3)
    case ContactOther(typeName) => Err("'" + typeName + "' object has no attribute 'get'")
  }

  /** The lowercased fields a query word is looked for in (lines 298-313). */
  datatype KeywordText = KeywordText(education: string, skills: seq<string>, summary: string)

  function KeywordTextOf(row: ResumeRow): (t: KeywordText)
    ensures |t.skills| == |SkillsOf(row.skills)|
    ensures forall i :: 0 <= i < |t.skills| ==> t.skills[i] == Lower(SkillsOf(row.skills)[i])
  {
    var skills := SkillsOf(row.skills);
    KeywordText(
      Lower(OrEmpty(row.education)),
      seq(|skills|, i requires 0 <= i < |skills| => Lower(skills[i])),
      Lower(OrEmpty(row.summary)))
  }

  /** `any(word in t for t in texts)`. */
  predicate AnyContains(texts: seq<string>, word: string)
    decreases |texts|
  {
    texts != [] && (Contains(texts[0], word) || AnyContains(texts[1..], word))
  }

  lemma {:induction false} AnyContainsIff(texts: seq<string>, word: string)
    ensures AnyContains(texts, word) <==> exists i :: 0 <= i < |texts| && Contains(texts[i], word)
    decreases |texts|
  {
    if texts != [] {
      AnyContainsIff(texts[1..], word);
      if AnyContains(texts[1..], word) {
        var i :| 0 <= i < |texts[1..]| && Contains(texts[1..][i], word);
        assert Contains(texts[i + 1], word);
      }
      if exists i :: 0 <= i < |texts| && Contains(texts[i], word) {
        var i :| 0 <= i < |texts| && Contains(texts[i], word);
        if i > 0 {
          assert Contains(texts[1..][i - 1], word);
        }
      }
    }
  }

  /** Line 318-320: a query word counts when it occurs in the education, in some skill or in the
      summary. */
  predicate IsKeywordHit(word: string, t: KeywordText) {
    Contains(t.education, word) || AnyContains(t.skills, word) || Contains(t.summary, word)
  }

  /** `keyword_matches` (lines 316-321): how many of the query's words, repeats included, are
      hits. */
  function KeywordHits(words: seq<string>, t: KeywordText): (n: nat)
    ensures n <= |words|
    ensures n == 0 <==> forall i :: 0 <= i < |words| ==> !IsKeywordHit(words[i], t)
    decreases |words|
  {
    if words == [] then 0
    else
      var init := words[..|words| - 1];
      var last := words[|words| - 1];
      assert forall i :: 0 <= i < |init| ==> init[i] == words[i];
      KeywordHits(init, t) + (if IsKeywordHit(last, t) then 1 else 0)
  }

  /** The positions of the query words that are hits. */
  function HitPositions(words: seq<string>, t: KeywordText): set<int> {
    set i | 0 <= i < |words| && IsKeywordHit(words[i], t)
  }

  /** The count is the number of positions holding a hit, so a repeated word counts each time. */
  lemma {:induction false} KeywordHitsCountsPositions(words: seq<string>, t: KeywordText)
    ensures KeywordHits(words, t) == |HitPositions(words, t)|
    decreases |words|
  {
    if words != [] {
      var n := |words| - 1;
      var init := words[..n];
      KeywordHitsCountsPositions(init, t);
      var before := HitPositions(init, t);
      assert forall i :: 0 <= i < n ==> init[i] == words[i];
      if IsKeywordHit(words[n], t) {
        assert HitPositions(words, t) == before + {n};
        assert n !in before;
      } else {
        assert HitPositions(words, t) == before;
      }
    }
  }

  /** The counting loop of lines 316-321. */
  method CountKeywordMatches(words: seq<string>, t: KeywordText) returns (n: nat)
    ensures n == KeywordHits(words, t)
  {
    n := 0;
    var i := 0;
    while i < |words|
      invariant 0 <= i <= |words|
      invariant n == KeywordHits(words[..i], t)
    {
      assert words[..i + 1][..i] == words[..i];
      if IsKeywordHit(words[i], t) {
        n := n + 1;
      }
      i := i + 1;
    }
    assert words[..i] == words;
  }

  /** Lines 323-329: no hit zeroes the score, otherwise each hit adds 0.1 to the cosine. */
  function KeywordScore(cosine: real, hits: nat): (s: real)
    ensures hits == 0 ==> s == 0.0
    ensures hits > 0 ==> s == cosine + 0.1 * hits as real
    ensures hits > 0 ==> s >= cosine + 0.1
  {
    if hits == 0 then 0.0 else cosine + 0.1 * hits as real
  }

  /** Lines 332-338: the location similarity, clamped to [0, 1], adds ten times itself above 0.7
      and scales the score by 0.7 below 0.3. */
  function LocationScore(score: real, similarity: real): (r: real)
    ensures Clamp01(similarity) > 0.7 ==> r == score + 10.0 * Clamp01(similarity)
    ensures Clamp01(similarity) < 0.3 ==> r == score * 0.7
    ensures 0.3 <= Clamp01(similarity) <= 0.7 ==> r == score
    ensures similarity >= 1.0 ==> r == score + 10.0
    ensures score >= 0.0 ==> r >= score * 0.7
  {
    var clamped := Clamp01(similarity);
    if clamped > 0.7 then score + clamped * 10.0
    else if clamped < 0.3 then score * 0.7
    else score
  }

  /** Line 349: `max(0.05, 0.4 ** shortfall)`. */
  function ShortfallPenalty(shortfall: real, decay: real -> real): (p: real)
    ensures p >= 0.05
  {
    Max(0.05, decay(shortfall))
  }

  /** A shortfall costs a factor in [0.05, 1), and a larger shortfall costs no less. */
  lemma ShortfallPenaltyRange(shortfall: real, larger: real, decay: real -> real)
    requires DecayModel(decay)
    requires 0.0 < shortfall <= larger
    ensures 0.05 <= ShortfallPenalty(shortfall, decay) < 1.0
    ensures ShortfallPenalty(larger, decay) <= ShortfallPenalty(shortfall, decay)
  {
  }

  /** Line 341: the experience step runs for a truthy requirement and a non-empty experience. */
  predicate ExperienceApplies(q: Query, row: ResumeRow) {
    q.experienceYears.Some? && q.experienceYears.value != 0.0 && Truthy(row.experience)
  }

  /** Lines 342-344: the first word of the experience read as a number of years; `None` stands for
      the `IndexError` of an experience without words and the `ValueError` of a word that is not a
      number. */
  function LeadingYears(experience: string): (years: Option<real>)
    ensures Words(experience) == [] ==> years.None?
    ensures Words(experience) != [] ==> years == ParseFloat(Words(experience)[0])
  {
    var tokens := Words(experience);
    if tokens == [] then None else ParseFloat(tokens[0])
  }

  /** Lines 345-353: a shortfall is penalised by `ShortfallPenalty`, and a missing or unreadable
      number of years costs a factor 0.4. */
  function ExperienceScore(score: real, required: real, years: Option<real>, decay: real -> real): (r: real)
    ensures years.Some? && years.value >= required ==> r == score
  {
    match years
    case None => score * 0.4
    case Some(y) => if y < required then score * ShortfallPenalty(required - y, decay) else score
  }

  /** The score the loop body of lines 260-361 gives one row, in the code's order: a falsy
      embedding skips the row, the location is read, the embedding is decoded (a decode error skips
      the row, a length mismatch escapes), then the keyword, location and experience steps. */
  function Evaluate(q: Query, row: ResumeRow, decay: real -> real): (v: Verdict)
    ensures v.Scored? ==> row.embedding.EmbeddingVector?
    ensures v.Aborted? ==> row.contact.ContactOther? || row.embedding.EmbeddingMismatch?
  {
    if row.embedding.EmbeddingNull? || row.embedding.EmbeddingEmpty? then Skipped
    else
      var location := if Truthy(q.location) then LocationSimilarity(row) else Ok(1.0);
      if location.Err? then Aborted(location.error)
      else if row.embedding.EmbeddingMismatch? then Aborted(row.embedding.shapeError)
      else if !row.embedding.EmbeddingVector? then Skipped
      else
        var hits := KeywordHits(Words(Lower(q.text)), KeywordTextOf(row));
        var s1 := KeywordScore(row.embedding.cosine, hits);
        var s2 := if Truthy(q.location) then LocationScore(s1, location.value) else s1;
        var s3 :=
          if ExperienceApplies(q, row)
          then ExperienceScore(s2, q.experienceYears.value, LeadingYears(row.experience.value), decay)
          else s2;
        Scored(s3)
  }

  /** One pass of the loop body of lines 260-361, step by step. */
  method ScoreResume(q: Query, row: ResumeRow, decay: real -> real) returns (v: Verdict)
    ensures v == Evaluate(q, row, decay)
  {
    if row.embedding.EmbeddingNull? || row.embedding.EmbeddingEmpty? {
      return Skipped;
    }
    var locationSimilarity := 1.0;
    if Truthy(q.location) {
      var located := LocationSimilarity(row);
      if located.Err? {
        return Aborted(located.error);
      }
      locationSimilarity := located.value;
    }
    if row.embedding.EmbeddingMismatch? {
      return Aborted(row.embedding.shapeError);
    }
    if !row.embedding.EmbeddingVector? {
      return Skipped;
    }
    var similarity := row.embedding.cosine;
    var keywordMatches := CountKeywordMatches(Words(Lower(q.text)), KeywordTextOf(row));
    if keywordMatches == 0 {
      similarity := 0.0;
    }
    if keywordMatches > 0 {
      similarity := similarity + keywordMatches as real * 0.1;
    }
    ghost var afterKeywords := similarity;
    assert afterKeywords == KeywordScore(row.embedding.cosine, keywordMatches);
    if Truthy(q.location) {
      var clamped := Clamp01(locationSimilarity);
      if clamped > 0.7 {
        similarity := similarity + clamped * 10.0;
      } else if clamped < 0.3 {
        similarity := similarity * 0.7;
      }
    }
    assert Truthy(q.location) ==> similarity == LocationScore(afterKeywords, locationSimilarity);
    assert !Truthy(q.location) ==> similarity == afterKeywords;
    ghost var afterLocation := similarity;
    if ExperienceApplies(q, row) {
      similarity := ApplyExperience(similarity, q.experienceYears.value, LeadingYears(row.experience.value), decay);
    }
    return Scored(similarity);
  }

  method ApplyExperience(similarity: real, required: real, years: Option<real>, decay: real -> real) returns (s: real)
    ensures s == ExperienceScore(similarity, required, years, decay)
  {
    s := similarity;
    if years.None? {
      s := s * 0.4;
    } else if years.value < required {
      var shortfall := required - years.value;
      var penalty := Max(0.05, decay(shortfall));
      s := s * penalty;
    }
  }

  // ---------------------------------------------------------------------------
  // Properties of the scoring steps

  /** With no keyword hit and no location boost the score is 0, so the row is never kept. */
  lemma ZeroKeywordGate(q: Query, row: ResumeRow, decay: real -> real)
    requires KeywordHits(Words(Lower(q.text)), KeywordTextOf(row)) == 0
    requires Truthy(q.location) && LocationSimilarity(row).Ok? ==>
      Clamp01(LocationSimilarity(row).value) <= 0.7
    ensures Evaluate(q, row, decay).Scored? ==> Evaluate(q, row, decay).score == 0.0
  {
  }

  /** The location boost comes after the keyword gate, so a close enough location revives a
      row with no keyword hit. */
  lemma LocationRevivesZeroKeyword(q: Query, row: ResumeRow, decay: real -> real)
    requires row.embedding.EmbeddingVector?
    requires KeywordHits(Words(Lower(q.text)), KeywordTextOf(row)) == 0
    requires Truthy(q.location) && LocationSimilarity(row).Ok?
    requires Clamp01(LocationSimilarity(row).value) > 0.7
    requires !ExperienceApplies(q, row)
    ensures Evaluate(q, row, decay) == Scored(10.0 * Clamp01(LocationSimilarity(row).value))
    ensures Evaluate(q, row, decay).score > Threshold
  {
  }

  /** A resume without a location (0.3) or with an unreadable contact (0.5) keeps its score, and a
      boost adds between 7 and 10. */
  lemma LocationStepEffect(score: real, similarity: real)
    ensures LocationScore(score, 0.3) == score && LocationScore(score, 0.5) == score
    ensures Clamp01(similarity) > 0.7 ==>
      score + 7.0 < LocationScore(score, similarity) <= score + 10.0
    ensures score >= 0.0 ==> LocationScore(score, similarity) >= 0.7 * score
  {
  }

  lemma ScaleMonotone(score: real, p: real, q: real)
    requires score >= 0.0 && p <= q
    ensures score * p <= score * q
  {
  }

  lemma ScaleBelow(score: real, p: real)
    requires score >= 0.0 && p <= 1.0
    ensures score * p <= score
  {
    ScaleMonotone(score, p, 1.0);
  }

  /** The three outcomes of lines 345-353 for every input: unreadable years cost a factor 0.4, a
      shortfall costs the factor `ShortfallPenalty`, and enough years leave the score as it is. */
  lemma ExperienceScoreCases(score: real, required: real, years: Option<real>, decay: real -> real)
    ensures years.None? ==> ExperienceScore(score, required, years, decay) == score * 0.4
    ensures years.Some? && years.value < required ==>
      ExperienceScore(score, required, years, decay) == score * ShortfallPenalty(required - years.value, decay)
    ensures years.Some? && years.value >= required ==> ExperienceScore(score, required, years, decay) == score
  {
  }

  /** The experience step never raises a non-negative score, and never cuts it below 5%. */
  lemma ExperienceNeverRaises(score: real, required: real, years: Option<real>, decay: real -> real)
    requires DecayModel(decay)
    requires score >= 0.0
    ensures 0.05 * score <= ExperienceScore(score, required, years, decay) <= score
  {
    if years.None? {
      ScaleMonotone(score, 0.05, 0.4);
      ScaleMonotone(score, 0.4, 1.0);
    } else if years.value < required {
      var p := ShortfallPenalty(required - years.value, decay);
      ShortfallPenaltyRange(required - years.value, required - years.value, decay);
      ScaleMonotone(score, 0.05, p);
      ScaleMonotone(score, p, 1.0);
      assert ExperienceScore(score, required, years, decay) == score * p;
      assert 0.05 * score <= score * p;
      assert score * p <= score;
    }
  }

  /** Asking for more years never raises a non-negative score. */
  lemma ExperienceMonotone(score: real, r1: real, r2: real, years: Option<real>, decay: real -> real)
    requires DecayModel(decay)
    requires score >= 0.0 && r1 <= r2
    ensures ExperienceScore(score, r2, years, decay) <= ExperienceScore(score, r1, years, decay)
  {
    if years.Some? && years.value < r2 {
      var y := years.value;
      if y < r1 {
        ShortfallPenaltyRange(r1 - y, r2 - y, decay);
      } else {
        ShortfallPenaltyRange(r2 - y, r2 - y, decay);
      }
      ShortfallOrder(score, r1, r2, y, decay);
    }
  }

  /** The step of `ExperienceMonotone` once the penalties are known to be ordered. */
  lemma ShortfallOrder(score: real, r1: real, r2: real, y: real, decay: real -> real)
    requires score >= 0.0 && r1 <= r2 && y < r2
    requires y < r1 ==> ShortfallPenalty(r2 - y, decay) <= ShortfallPenalty(r1 - y, decay)
    requires ShortfallPenalty(r2 - y, decay) < 1.0
    ensures ExperienceScore(score, r2, Some(y), decay) <= ExperienceScore(score, r1, Some(y), decay)
  {
    var p2 := ShortfallPenalty(r2 - y, decay);
    assert ExperienceScore(score, r2, Some(y), decay) == score * p2;
    if y < r1 {
      ScaleMonotone(score, p2, ShortfallPenalty(r1 - y, decay));
    } else {
      ScaleBelow(score, p2);
    }
  }

  /** An experience that starts with a whole number, such as "3 years", reads as that number. */
  lemma LeadingYearsOfNat(n: nat, rest: string)
    requires rest == [] || IsSpace(rest[0])
    ensures LeadingYears(NatToString(n) + rest) == Some(n as real)
  {
    var w := NatToString(n);
    assert NoSpace(w) by {
      forall i | 0 <= i < |w|
        ensures !IsSpace(w[i])
      {
        assert IsDigit(w[i]);
      }
    }
    WordsCons(w, rest);
    ParseFloatOfNat(n);
  }

  /** Three years against a requirement of five cost a factor 0.4 * 0.4. */
  lemma ExperienceShortfallExample(score: real, decay: real -> real)
    requires DecayModel(decay)
    ensures ExperienceScore(score, 5.0, Some(3.0), decay) == score * 0.16
  {
    assert decay(2 as real) == Power(0.4, 2);
  }

  // ---------------------------------------------------------------------------
  // The scoring loop, the ranking and the response (lines 226-408)

  /** The rows the query of lines 238-248 returns: the caller's rows whose embedding is not NULL. */
  function TenantRows(table: seq<ResumeRow>, userId: string): (rows: seq<ResumeRow>)
    ensures forall r :: r in rows <==> r in table && r.userId == userId && !r.embedding.EmbeddingNull?
    decreases |table|
  {
    if table == [] then []
    else
      assert table == [table[0]] + table[1..];
      var rest := TenantRows(table[1..], userId);
      if table[0].userId == userId && !table[0].embedding.EmbeddingNull? then [table[0]] + rest
      else rest
  }

  /** Each row paired with its verdict, in row order. */
  function Judged(rows: seq<ResumeRow>, q: Query, decay: real -> real): (judged: seq<(ResumeRow, Verdict)>)
    ensures |judged| == |rows|
    ensures forall i :: 0 <= i < |rows| ==> judged[i] == (rows[i], Evaluate(q, rows[i], decay))
  {
    seq(|rows|, i requires 0 <= i < |rows| => (rows[i], Evaluate(q, rows[i], decay)))
  }

  /** `similarities` after the loop of lines 260-361, given each row's verdict: the rows scored
      above the threshold, in row order, or the first exception that escaped the loop. */
  function Collect(judged: seq<(ResumeRow, Verdict)>): (r: Result<seq<Candidate>>)
    ensures r.Ok? ==> forall c :: c in r.value ==> c.score > Threshold && (c.row, Scored(c.score)) in judged
    ensures r.Ok? ==> forall i :: 0 <= i < |judged| ==>
      (judged[i].1.Scored? && judged[i].1.score > Threshold ==>
        Candidate(judged[i].1.score, judged[i].0) in r.value)
    ensures r.Ok? ==> |r.value| <= |judged|
    ensures r.Err? ==> exists p :: p in judged && p.1 == Aborted(r.error)
    decreases |judged|
  {
    if judged == [] then Ok([])
    else
      var init := judged[..|judged| - 1];
      var (row, verdict) := judged[|judged| - 1];
      assert forall i :: 0 <= i < |init| ==> init[i] == judged[i];
      assert judged[|judged| - 1] in judged;
      match Collect(init)
      case Err(e) =>
        var p :| p in init && p.1 == Aborted(e);
        assert p in judged;
        Err(e)
      case Ok(acc) =>
        match verdict
        case Aborted(e) => Err(e)
        case Skipped => Ok(acc)
        case Scored(s) => Ok(if s > Threshold then acc + [Candidate(s, row)] else acc)
  }

  /** Once the loop has failed on a prefix, it fails the same way on the whole list. */
  lemma {:induction false} CollectFailureStays(judged: seq<(ResumeRow, Verdict)>, n: nat)
    requires n <= |judged| && Collect(judged[..n]).Err?
    ensures Collect(judged) == Collect(judged[..n])
    decreases |judged|
  {
    if n < |judged| {
      var init := judged[..|judged| - 1];
      assert init[..n] == judged[..n];
      CollectFailureStays(init, n);
    } else {
      assert judged[..n] == judged;
    }
  }

  /** The candidates of the rows the loop scored above the threshold. */
  function Kept(rows: seq<ResumeRow>, q: Query, decay: real -> real): Result<seq<Candidate>> {
    Collect(Judged(rows, q, decay))
  }

  /** A kept candidate is a row scored above the threshold, and every such row is kept. */
  lemma KeptIff(rows: seq<ResumeRow>, q: Query, decay: real -> real, c: Candidate)
    requires Kept(rows, q, decay).Ok?
    ensures c in Kept(rows, q, decay).value <==>
      c.row in rows && c.score > Threshold && Evaluate(q, c.row, decay) == Scored(c.score)
  {
    var judged := Judged(rows, q, decay);
    if c in Kept(rows, q, decay).value {
      var i :| 0 <= i < |judged| && judged[i] == (c.row, Scored(c.score));
    }
    if c.row in rows && c.score > Threshold && Evaluate(q, c.row, decay) == Scored(c.score) {
      var i :| 0 <= i < |rows| && rows[i] == c.row;
      assert judged[i] == (c.row, Scored(c.score));
    }
  }

  /** The search fails only with the exception of one of its rows. */
  lemma KeptFailure(rows: seq<ResumeRow>, q: Query, decay: real -> real)
    requires Kept(rows, q, decay).Err?
    ensures exists row :: row in rows && Evaluate(q, row, decay) == Aborted(Kept(rows, q, decay).error)
  {
    var judged := Judged(rows, q, decay);
    var p :| p in judged && p.1 == Aborted(Kept(rows, q, decay).error);
    var i :| 0 <= i < |judged| && judged[i] == p;
    assert rows[i] in rows;
  }

  function ScoreOf(c: Candidate): real {
    c.score
  }

  /** `similarities.sort(reverse=True)` then `similarities[:5]` (lines 364-368). */
  function Ranked(kept: seq<Candidate>): (top: seq<Candidate>)
    ensures Sorting.SortedDesc(top, ScoreOf)
    ensures |top| == if |kept| < TopMatches then |kept| else TopMatches
    ensures multiset(top) <= multiset(kept)
    ensures forall c :: c in top ==> c in kept
    ensures forall c, d :: c in kept && c !in top && d in top ==> c.score <= d.score
  {
    var top := Sorting.Take(Sorting.SortDesc(kept, ScoreOf), TopMatches);
    Sorting.TopByKey(kept, TopMatches, ScoreOf);
    forall c, d | c in kept && c !in top && d in top
      ensures c.score <= d.score
    {
      assert ScoreOf(c) <= ScoreOf(d);
    }
    assert forall c :: c in top ==> c in kept by {
      forall c | c in top
        ensures c in kept
      {
        assert c in multiset(top);
      }
    }
    top
  }

  /** The entry of `matches` built from a kept candidate (lines 369-387). */
  function MatchOf(c: Candidate): (m: Match)
    ensures m.row == c.row && 0.0 <= m.similarityScore <= 1.0
  {
    Match(c.row, Clamp01(c.score))
  }

  function MatchesOf(top: seq<Candidate>): (ms: seq<Match>)
    ensures |ms| == |top|
    ensures forall i :: 0 <= i < |top| ==> ms[i] == MatchOf(top[i])
  {
    seq(|top|, i requires 0 <= i < |top| => MatchOf(top[i]))
  }

  /** Line 418, 421: the text `', '.join` makes of a list column, or the exception it raises. */
  function JoinError(column: JsonList): (e: Option<string>)
    ensures e.None? <==> column.ListOf?
  {
    match column
    case ListNull => Some(JoinNoneError)
    case ListMalformed(decodeError) => Some(decodeError)
    case ListOf(_) => None
  }

  /** Line 422: `json.dumps` of the work history fails only when the text does not decode. */
  function DumpError(column: JsonList): (e: Option<string>)
    ensures e.None? <==> !column.ListMalformed?
  {
    if column.ListMalformed? then Some(column.decodeError) else None
  }

  /** A match the analysis context can be built from. */
  predicate Renderable(row: ResumeRow) {
    row.skills.ListOf? && row.certifications.ListOf? && !row.workHistory.ListMalformed?
  }

  /** The first exception raised while building the context of lines 415-424, matches in order and
      columns in the order of the f-string. */
  function ContextError(matches: seq<Match>): (e: Option<string>)
    ensures e.None? <==> forall i :: 0 <= i < |matches| ==> Renderable(matches[i].row)
    decreases |matches|
  {
    if matches == [] then None
    else
      var row := matches[0].row;
      assert forall i :: 1 <= i < |matches| ==> matches[1..][i - 1] == matches[i];
      if JoinError(row.skills).Some? then JoinError(row.skills)
      else if JoinError(row.certifications).Some? then JoinError(row.certifications)
      else if DumpError(row.workHistory).Some? then DumpError(row.workHistory)
      else ContextError(matches[1..])
  }

  /** `generate_answer_with_rag` (lines 410-448) without the prompt text: the fixed answer for no
      matches, an exception from building the context, or the narrator's reply, with a fixed text
      when the narrator fails. */
  function GenerateAnswer(matches: seq<Match>, narrator: Narration): (r: Result<string>)
    ensures r.Err? <==> matches != [] && exists i :: 0 <= i < |matches| && !Renderable(matches[i].row)
    ensures matches == [] ==> r == Ok(NoTopResumesText)
    ensures r.Ok? && matches != [] ==>
      r.value == if narrator.Narrated? then narrator.reply else AnalysisFailedText
  {
    if matches == [] then Ok(NoTopResumesText)
    else match ContextError(matches)
      case Some(e) => Err(e)
      case None =>
        match narrator
        case Narrated(reply) => Ok(reply)
        case NarratorFailed => Ok(AnalysisFailedText)
  }

  /** The response of the outer `except` (lines 403-408). */
  function Failure(error: string): SearchResponse {
    SearchResponse([], SearchErrorPrefix + error)
  }

  /** What `search` returns for a table, a query, a narrator outcome and a decay function. */
  function SearchResult(table: seq<ResumeRow>, q: Query, narrator: Narration, decay: real -> real): (r: SearchResponse)
    ensures !Truthy(q.userId) ==> r == Failure(UserRequired)
    ensures |r.matches| <= TopMatches
  {
    if !Truthy(q.userId) then Failure(UserRequired)
    else
      var rows := TenantRows(table, q.userId.value);
      if rows == [] then SearchResponse([], NoResumesText)
      else match Kept(rows, q, decay)
        case Err(e) => Failure(e)
        case Ok(kept) =>
          var matches := MatchesOf(Ranked(kept));
          if matches == [] then SearchResponse([], NoMatchesText)
          else match GenerateAnswer(matches, narrator)
            case Err(e) => Failure(e)
            case Ok(analysis) => SearchResponse(matches, analysis)
  }

  /** The scoring loop of lines 259-361: one pass per row, appending the rows scored above the
      threshold; an exception that escapes a pass ends the loop. */
  method ScoreRows(rows: seq<ResumeRow>, q: Query, decay: real -> real) returns (r: Result<seq<Candidate>>)
    ensures r == Kept(rows, q, decay)
  {
    ghost var judged := Judged(rows, q, decay);
    var similarities: seq<Candidate> := [];
    var i := 0;
    while i < |rows|
      invariant 0 <= i <= |rows|
      invariant Collect(judged[..i]) == Ok(similarities)
    {
      assert judged[..i + 1][..i] == judged[..i];
      var verdict := ScoreResume(q, rows[i], decay);
      assert judged[i] == (rows[i], verdict);
      if verdict.Aborted? {
        CollectFailureStays(judged, i + 1);
        return Err(verdict.error);
      }
      if verdict.Scored? && verdict.score > Threshold {
        similarities := similarities + [Candidate(verdict.score, rows[i])];
      }
      i := i + 1;
    }
    assert judged[..i] == judged;
    return Ok(similarities);
  }

  /** The loop of lines 367-387: one entry per ranked candidate, its score clamped. */
  method BuildMatches(top: seq<Candidate>) returns (matches: seq<Match>)
    ensures matches == MatchesOf(top)
  {
    matches := [];
    var j := 0;
    while j < |top|
      invariant 0 <= j <= |top|
      invariant matches == MatchesOf(top[..j])
    {
      var simVal := Clamp01(top[j].score);
      matches := matches + [Match(top[j].row, simVal)];
      j := j + 1;
    }
    assert top[..j] == top;
  }

  /** `SearchEngine.search` (lines 226-408). */
  method Search(table: seq<ResumeRow>, q: Query, narrator: Narration, decay: real -> real)
    returns (response: SearchResponse)
    ensures response == SearchResult(table, q, narrator, decay)
  {
    if !Truthy(q.userId) {
      return Failure(UserRequired);
    }
    var rows := TenantRows(table, q.userId.value);
    if rows == [] {
      return SearchResponse([], NoResumesText);
    }
    var similarities := ScoreRows(rows, q, decay);
    if similarities.Err? {
      return Failure(similarities.error);
    }
    var top := Ranked(similarities.value);
    var matches := BuildMatches(top);
    if matches == [] {
      return SearchResponse([], NoMatchesText);
    }
    var ragResponse := GenerateAnswer(matches, narrator);
    if ragResponse.Err? {
      return Failure(ragResponse.error);
    }
    return SearchResponse(matches, ragResponse.value);
  }

  // ---------------------------------------------------------------------------
  // Properties of `search`

  /** Without a user id the search fails before reading anything; with no row for the caller it
      answers that the database is empty. */
  lemma SearchEmptyCases(table: seq<ResumeRow>, q: Query, narrator: Narration, decay: real -> real)
    ensures !Truthy(q.userId) ==>
      SearchResult(table, q, narrator, decay) == SearchResponse([], SearchErrorPrefix + UserRequired)
    ensures (Truthy(q.userId) &&
      forall r :: r in table ==> r.userId != q.userId.value || r.embedding.EmbeddingNull?) ==>
      SearchResult(table, q, narrator, decay) == SearchResponse([], NoResumesText)
  {
    if Truthy(q.userId) {
      var rows := TenantRows(table, q.userId.value);
      if rows != [] {
        assert rows[0] in rows;
      }
    }
  }

  /** Every match is one of the caller's rows, has a decoded embedding, and was scored above the
      threshold. */
  lemma SearchMatchesScoped(table: seq<ResumeRow>, q: Query, narrator: Narration, decay: real -> real)
    ensures forall m :: m in SearchResult(table, q, narrator, decay).matches ==>
      && Truthy(q.userId)
      && m.row in table
      && m.row.userId == q.userId.value
      && m.row.embedding.EmbeddingVector?
      && (exists s :: s > Threshold && Evaluate(q, m.row, decay) == Scored(s) && m.similarityScore == Clamp01(s))
  {
    var response := SearchResult(table, q, narrator, decay);
    forall m | m in response.matches
      ensures Truthy(q.userId) && m.row in table && m.row.userId == q.userId.value
      ensures m.row.embedding.EmbeddingVector?
      ensures exists s :: s > Threshold && Evaluate(q, m.row, decay) == Scored(s) && m.similarityScore == Clamp01(s)
    {
      var rows := TenantRows(table, q.userId.value);
      var kept := Kept(rows, q, decay).value;
      var top := Ranked(kept);
      var k :| 0 <= k < |MatchesOf(top)| && MatchesOf(top)[k] == m;
      assert top[k] in top;
      KeptIff(rows, q, decay, top[k]);
    }
  }

  /** Matches come back only from a ranking of a successful scoring pass over the caller's rows. */
  lemma MatchesAreRanked(table: seq<ResumeRow>, q: Query, narrator: Narration, decay: real -> real)
    requires SearchResult(table, q, narrator, decay).matches != []
    ensures Truthy(q.userId) && Kept(TenantRows(table, q.userId.value), q, decay).Ok?
    ensures SearchResult(table, q, narrator, decay).matches ==
      MatchesOf(Ranked(Kept(TenantRows(table, q.userId.value), q, decay).value))
  {
  }

  /** At most five matches, each with a score in (0.3, 1], in non-increasing order. */
  lemma SearchMatchesRanked(table: seq<ResumeRow>, q: Query, narrator: Narration, decay: real -> real)
    ensures |SearchResult(table, q, narrator, decay).matches| <= TopMatches
    ensures forall m :: m in SearchResult(table, q, narrator, decay).matches ==>
      Threshold < m.similarityScore <= 1.0
    ensures var ms := SearchResult(table, q, narrator, decay).matches;
      forall i, j :: 0 <= i < j < |ms| ==> ms[j].similarityScore <= ms[i].similarityScore
  {
    var response := SearchResult(table, q, narrator, decay);
    if response.matches != [] {
      MatchesAreRanked(table, q, narrator, decay);
      var rows := TenantRows(table, q.userId.value);
      var kept := Kept(rows, q, decay).value;
      var top := Ranked(kept);
      var ms := MatchesOf(top);
      assert response.matches == ms;
      forall i | 0 <= i < |ms|
        ensures Threshold < ms[i].similarityScore
      {
        assert top[i] in top;
        KeptIff(rows, q, decay, top[i]);
      }
      forall i, j | 0 <= i < j < |ms|
        ensures ms[j].similarityScore <= ms[i].similarityScore
      {
        ClampMonotone(top[j].score, top[i].score);
      }
    }
  }

  /** A row that scores above the threshold but is not returned scores no better than any
      returned match. */
  lemma SearchKeepsBest(table: seq<ResumeRow>, q: Query, narrator: Narration, decay: real -> real, row: ResumeRow, s: real)
    requires Truthy(q.userId) && row in TenantRows(table, q.userId.value)
    requires Evaluate(q, row, decay) == Scored(s) && s > Threshold
    requires forall m :: m in SearchResult(table, q, narrator, decay).matches ==> m.row != row
    ensures forall m :: m in SearchResult(table, q, narrator, decay).matches ==>
      Clamp01(s) <= m.similarityScore
  {
    var response := SearchResult(table, q, narrator, decay);
    if response.matches != [] {
      MatchesAreRanked(table, q, narrator, decay);
      var rows := TenantRows(table, q.userId.value);
      var kept := Kept(rows, q, decay).value;
      var top := Ranked(kept);
      var ms := MatchesOf(top);
      assert response.matches == ms;
      KeptIff(rows, q, decay, Candidate(s, row));
      assert Candidate(s, row) !in top by {
        forall k | 0 <= k < |top|
          ensures top[k] != Candidate(s, row)
        {
          assert ms[k] in response.matches;
        }
      }
      forall k | 0 <= k < |ms|
        ensures Clamp01(s) <= ms[k].similarityScore
      {
        assert top[k] in top;
        ClampMonotone(s, top[k].score);
      }
    }
  }

  /** A row with no keyword hit and no location boost is never returned. */
  lemma ZeroKeywordNeverReturned(table: seq<ResumeRow>, q: Query, narrator: Narration, decay: real -> real, row: ResumeRow)
    requires KeywordHits(Words(Lower(q.text)), KeywordTextOf(row)) == 0
    requires Truthy(q.location) && LocationSimilarity(row).Ok? ==>
      Clamp01(LocationSimilarity(row).value) <= 0.7
    ensures forall m :: m in SearchResult(table, q, narrator, decay).matches ==> m.row != row
  {
    SearchMatchesScoped(table, q, narrator, decay);
    ZeroKeywordGate(q, row, decay);
  }

  /** The analysis is the narrator's reply or its failure text whenever matches come back, and
      one of the fixed texts or an error report otherwise. */
  lemma SearchAnalysis(table: seq<ResumeRow>, q: Query, narrator: Narration, decay: real -> real)
    ensures var response := SearchResult(table, q, narrator, decay);
      response.matches != [] ==>
        response.analysis == if narrator.Narrated? then narrator.reply else AnalysisFailedText
    ensures var response := SearchResult(table, q, narrator, decay);
      response.matches == [] ==>
        || response.analysis == NoResumesText
        || response.analysis == NoMatchesText
        || StartsWith(response.analysis, SearchErrorPrefix)
  {
    var response := SearchResult(table, q, narrator, decay);
    if response.matches != [] {
      var ms := MatchesOf(Ranked(Kept(TenantRows(table, q.userId.value), q, decay).value));
      assert response == SearchResponse(ms, GenerateAnswer(ms, narrator).value);
    }
  }

  /** Building the analysis context fails on a match whose skills or certifications column is NULL
      or unreadable, or whose work history is unreadable, and the failure ends the search: every
      match that comes back can be rendered. */
  lemma SearchMatchesRenderable(table: seq<ResumeRow>, q: Query, narrator: Narration, decay: real -> real)
    ensures forall m :: m in SearchResult(table, q, narrator, decay).matches ==> Renderable(m.row)
  {
    var response := SearchResult(table, q, narrator, decay);
    if response.matches != [] {
      var ms := MatchesOf(Ranked(Kept(TenantRows(table, q.userId.value), q, decay).value));
      assert response.matches == ms;
      assert GenerateAnswer(ms, narrator).Ok?;
      forall m | m in ms
        ensures Renderable(m.row)
      {
        var k :| 0 <= k < |ms| && ms[k] == m;
      }
    }
  }

  // ---------------------------------------------------------------------------
  // semantic_search (lines 105-224)

  /** An entry of `similarities` in `semantic_search`: a clamped score and a resume id. */
  datatype ScoredId = ScoredId(score: real, id: int)

  /** `any(word in text for word in words)`. */
  predicate AnyWordIn(words: seq<string>, text: string)
    decreases |words|
  {
    words != [] && (Contains(text, words[0]) || AnyWordIn(words[1..], text))
  }

  /** The score `semantic_search` gives one row (lines 126-176): 0.1 more for a query word in the
      space-joined skills, 0.1 more for one in the summary, clamped to [0, 1]. A falsy or
      undecodable embedding, an undecodable or NULL skills column (the caught `TypeError` of
      `' '.join(None)`) skip the row; a length mismatch escapes. */
  function SemanticScore(words: seq<string>, row: ResumeRow): (v: Verdict)
    ensures v.Scored? ==> row.embedding.EmbeddingVector? && row.skills.ListOf?
    ensures v.Scored? <==> row.embedding.EmbeddingVector? && row.skills.ListOf?
    ensures v.Scored? ==> v.score == Clamp01(row.embedding.cosine +
      (if AnyWordIn(words, Lower(JoinWith(" ", row.skills.items))) then 0.1 else 0.0) +
      (if Truthy(row.summary) && AnyWordIn(words, Lower(row.summary.value)) then 0.1 else 0.0))
    ensures v.Scored? ==>
      Clamp01(row.embedding.cosine) <= v.score <= Clamp01(row.embedding.cosine + 0.2)
  {
    match row.embedding
    case EmbeddingVector(cosine) =>
      (match row.skills
       case ListOf(items) =>
         var skillsText := Lower(JoinWith(" ", items));
         var summaryText := if Truthy(row.summary) then Lower(row.summary.value) else "";
         var s1 := if AnyWordIn(words, skillsText) then cosine + 0.1 else cosine;
         var s2 := if Truthy(row.summary) && AnyWordIn(words, summaryText) then s1 + 0.1 else s1;
         ClampMonotone(cosine, s2);
         ClampMonotone(s2, cosine + 0.2);
         Scored(Clamp01(s2))
       case _ => Skipped)
    case EmbeddingMismatch(e) => Aborted(e)
    case _ => Skipped
  }

  /** The rows of lines 113-118: every row whose embedding is not NULL, whoever owns it. */
  function WithEmbedding(table: seq<ResumeRow>): (rows: seq<ResumeRow>)
    ensures forall r :: r in rows <==> r in table && !r.embedding.EmbeddingNull?
    decreases |table|
  {
    if table == [] then []
    else
      assert table == [table[0]] + table[1..];
      var rest := WithEmbedding(table[1..]);
      if !table[0].embedding.EmbeddingNull? then [table[0]] + rest else rest
  }

  /** `similarities` after the loop of lines 126-176, or the exception that escaped it. */
  function SemanticKept(rows: seq<ResumeRow>, words: seq<string>): (r: Result<seq<ScoredId>>)
    ensures r.Ok? ==> forall e :: e in r.value ==>
      exists row :: row in rows && row.id == e.id && SemanticScore(words, row) == Scored(e.score)
    decreases |rows|
  {
    if rows == [] then Ok([])
    else
      var init := rows[..|rows| - 1];
      var row := rows[|rows| - 1];
      assert forall x :: x in init ==> x in rows;
      match SemanticKept(init, words)
      case Err(e) => Err(e)
      case Ok(acc) =>
        match SemanticScore(words, row)
        case Aborted(e) => Err(e)
        case Skipped => Ok(acc)
        case Scored(s) => Ok(acc + [ScoredId(s, row.id)])
  }

  lemma {:induction false} SemanticFailureStays(rows: seq<ResumeRow>, n: nat, words: seq<string>)
    requires n <= |rows| && SemanticKept(rows[..n], words).Err?
    ensures SemanticKept(rows, words) == SemanticKept(rows[..n], words)
    decreases |rows|
  {
    if n < |rows| {
      var init := rows[..|rows| - 1];
      assert init[..n] == rows[..n];
      SemanticFailureStays(init, n, words);
    } else {
      assert rows[..n] == rows;
    }
  }

  /** One more pass of the loop of lines 126-176. */
  lemma SemanticKeptStep(rows: seq<ResumeRow>, i: nat, words: seq<string>, acc: seq<ScoredId>)
    requires i < |rows| && SemanticKept(rows[..i], words) == Ok(acc)
    ensures SemanticKept(rows[..i + 1], words) ==
      match SemanticScore(words, rows[i])
      case Aborted(e) => Err(e)
      case Skipped => Ok(acc)
      case Scored(s) => Ok(acc + [ScoredId(s, rows[i].id)])
  {
    assert rows[..i + 1][..i] == rows[..i];
    assert rows[..i + 1][i] == rows[i];
  }

  function ScoreOfId(e: ScoredId): real {
    e.score
  }

  /** The ranked `(score, id)` pairs `semantic_search` goes on to fetch (lines 105-185); any
      exception escaping the loop gives the empty list. */
  function SemanticTop(table: seq<ResumeRow>, query: string, topK: int): (top: seq<ScoredId>)
    ensures WithEmbedding(table) == [] ==> top == []
    ensures SemanticKept(WithEmbedding(table), Words(Lower(query))).Err? ==> top == []
    ensures topK >= 0 ==> |top| <= topK
  {
    var rows := WithEmbedding(table);
    if rows == [] then []
    else match SemanticKept(rows, Words(Lower(query)))
      case Err(_) => []
      case Ok(similarities) =>
        if similarities == [] then []
        else Sorting.Take(Sorting.SortDesc(similarities, ScoreOfId), topK)
  }

  /** The scoring loop, sort and cut of `semantic_search`. */
  method SemanticSearch(table: seq<ResumeRow>, query: string, topK: int) returns (top: seq<ScoredId>)
    ensures top == SemanticTop(table, query, topK)
  {
    var rows := WithEmbedding(table);
    if rows == [] {
      return [];
    }
    var queryKeywords := Words(Lower(query));
    var similarities: seq<ScoredId> := [];
    var i := 0;
    while i < |rows|
      invariant 0 <= i <= |rows|
      invariant SemanticKept(rows[..i], queryKeywords) == Ok(similarities)
    {
      var verdict := SemanticScore(queryKeywords, rows[i]);
      SemanticKeptStep(rows, i, queryKeywords, similarities);
      if verdict.Aborted? {
        SemanticFailureStays(rows, i + 1, queryKeywords);
        return [];
      }
      if verdict.Scored? {
        similarities := similarities + [ScoredId(verdict.score, rows[i].id)];
      }
      i := i + 1;
    }
    assert rows[..i] == rows;
    if similarities == [] {
      return [];
    }
    top := Sorting.Take(Sorting.SortDesc(similarities, ScoreOfId), topK);
  }

  /** `semantic_search` ranks the `top_k` best-scoring rows, or all of them when fewer were
      scored (all but the last `-top_k` for a negative `top_k`), with scores in [0, 1] in
      non-increasing order, each the score of a row with a decoded embedding and skills; no
      scored row left out beats one that was kept. */
  lemma SemanticTopRanked(table: seq<ResumeRow>, query: string, topK: int)
    ensures var top := SemanticTop(table, query, topK);
      && (topK >= 0 ==> |top| <= topK)
      && Sorting.SortedDesc(top, ScoreOfId)
      && (SemanticKept(WithEmbedding(table), Words(Lower(query))).Ok? ==>
            var kept := SemanticKept(WithEmbedding(table), Words(Lower(query))).value;
            && multiset(top) <= multiset(kept)
            && (topK >= 0 ==> |top| == if |kept| < topK then |kept| else topK)
            && forall c, d :: c in kept && c !in top && d in top ==> c.score <= d.score)
      && forall e :: e in top ==>
        && 0.0 <= e.score <= 1.0
        && exists row :: row in table && row.id == e.id && row.embedding.EmbeddingVector? &&
             SemanticScore(Words(Lower(query)), row) == Scored(e.score)
  {
    var rows := WithEmbedding(table);
    var words := Words(Lower(query));
    if rows != [] && SemanticKept(rows, words).Ok? && SemanticKept(rows, words).value != [] {
      var similarities := SemanticKept(rows, words).value;
      var sorted := Sorting.SortDesc(similarities, ScoreOfId);
      var top := Sorting.Take(sorted, topK);
      Sorting.TopByKey(similarities, topK, ScoreOfId);
      forall c, d | c in similarities && c !in top && d in top
        ensures c.score <= d.score
      {
        assert ScoreOfId(c) <= ScoreOfId(d);
      }
      forall e | e in top
        ensures 0.0 <= e.score <= 1.0
        ensures exists row :: (row in table && row.id == e.id && row.embedding.EmbeddingVector? &&
          SemanticScore(words, row) == Scored(e.score))
      {
        assert e in multiset(top);
        assert e in similarities;
        var row :| row in rows && row.id == e.id && SemanticScore(words, row) == Scored(e.score);
        assert row in table;
      }
    }
  }
}

=== FILE: search_routes.dfy ===
/** The response-shaping code of the search routes (app/routes/search.py): the matches the search
    route returns, the details of one resume, the choices made before generating screening
    questions or an outreach e-mail, and the dashboard metrics. */
module SearchRoutes {
  import opened Wrappers
  import opened Text
  import opened Numerals
  import opened Lists
  import opened Records
  import SearchEngine
  import ResumeParser
  import ScreeningGenerator

  // ---------------------------------------------------------------------------
  // The search route's matches (lines 116-160)

  /** `match.get("similarity_score", 0)` as `float()` sees it: missing, a number, or a value
      `float()` rejects. */
  datatype RawScore = ScoreMissing | ScoreNumber(value: real) | ScoreNotNumber

  /** A match as the route receives it; `skills` and `contact` are still the JSON text of the
      columns. */
  datatype RawMatch = RawMatch(id: int, name: string, skills: JsonList, experience: Option<string>,
    education: Option<string>, contact: ContactColumn, summary: Option<string>, score: RawScore)

  /** A match as the route returns it: the JSON decoded, the score a number in [0, 1]. */
  datatype ProcessedMatch = ProcessedMatch(id: int, name: string, skills: JsonList,
    experience: Option<string>, education: Option<string>, contact: ContactColumn,
    summary: Option<string>, similarityScore: real)

  /** Lines 139-144: the score as a number clamped to [0, 1]; a missing or non-numeric score is
      0.0. */
  function ScoreValue(raw: RawScore): (r: real)
    ensures 0.0 <= r <= 1.0
    ensures raw.ScoreNumber? && 0.0 <= raw.value <= 1.0 ==> r == raw.value
    ensures !raw.ScoreNumber? ==> r == 0.0
  {
    match raw
    case ScoreNumber(x) => SearchEngine.Clamp01(x)
    case _ => 0.0
  }

  /** Clamping keeps the order of two numeric scores. */
  lemma ScoreValueMonotone(x: real, y: real)
    requires x <= y
    ensures ScoreValue(ScoreNumber(x)) <= ScoreValue(ScoreNumber(y))
  {
    SearchEngine.ClampMonotone(x, y);
  }

  /** Lines 124-155: text that does not decode becomes `[]` (skills) or `{}` (contact); every
      other column and the decoded JSON pass through; the score is clamped. */
  function ProcessMatch(m: RawMatch): (p: ProcessedMatch)
    ensures p.id == m.id && p.name == m.name && p.experience == m.experience &&
      p.education == m.education && p.summary == m.summary
    ensures !p.skills.ListMalformed? && (m.skills.ListMalformed? ==> p.skills == ListOf([]))
    ensures !m.skills.ListMalformed? ==> p.skills == m.skills
    ensures !p.contact.ContactMalformed? && (m.contact.ContactMalformed? ==> p.contact == ContactObject([]))
    ensures !m.contact.ContactMalformed? ==> p.contact == m.contact
    ensures 0.0 <= p.similarityScore <= 1.0
  {
    var skills := if m.skills.ListMalformed? then ListOf([]) else m.skills;
    var contact := if m.contact.ContactMalformed? then ContactObject([]) else m.contact;
    ProcessedMatch(m.id, m.name, skills, m.experience, m.education, contact, m.summary,
      ScoreValue(m.score))
  }

  /** Lines 116-160: one processed entry per match, in order. */
  method ProcessMatches(matches: seq<RawMatch>) returns (processed: seq<ProcessedMatch>)
    ensures |processed| == |matches|
    ensures forall i :: 0 <= i < |matches| ==> processed[i] == ProcessMatch(matches[i])
  {
    processed := [];
    for i := 0 to |matches|
      invariant |processed| == i
      invariant forall j :: 0 <= j < i ==> processed[j] == ProcessMatch(matches[j])
    {
      processed := processed + [ProcessMatch(matches[i])];
    }
  }

  /** The entry of `matches` built by the search (app/services/search_engine.py:376-387) as this
      route reads it. */
  function RawMatchOf(m: SearchEngine.Match): RawMatch {
    RawMatch(m.row.id, m.row.name, m.row.skills, m.row.experience, m.row.education, m.row.contact,
      m.row.summary, ScoreNumber(m.similarityScore))
  }

  /** What the route returns for a search response. */
  function RouteMatches(response: SearchEngine.SearchResponse): (ps: seq<ProcessedMatch>)
    ensures |ps| == |response.matches|
  {
    seq(|response.matches|, i requires 0 <= i < |response.matches| =>
      ProcessMatch(RawMatchOf(response.matches[i])))
  }

  /** The route keeps the search's ranking: at most five candidates, each scored in (0.3, 1]
      exactly as the search scored it, in non-increasing order of score. */
  lemma RouteKeepsRanking(table: seq<ResumeRow>, q: SearchEngine.Query, narrator: SearchEngine.Narration,
    decay: real -> real)
    ensures var ps := RouteMatches(SearchEngine.SearchResult(table, q, narrator, decay));
      |ps| <= SearchEngine.TopMatches &&
      (forall i :: 0 <= i < |ps| ==>
        ps[i].similarityScore == SearchEngine.SearchResult(table, q, narrator, decay).matches[i].similarityScore &&
        SearchEngine.Threshold < ps[i].similarityScore <= 1.0) &&
      (forall i, j :: 0 <= i < j < |ps| ==> ps[j].similarityScore <= ps[i].similarityScore)
  {
    var ms := SearchEngine.SearchResult(table, q, narrator, decay).matches;
    SearchEngine.SearchMatchesRanked(table, q, narrator, decay);
    var ps := RouteMatches(SearchEngine.SearchResult(table, q, narrator, decay));
    forall i | 0 <= i < |ps|
      ensures ps[i].similarityScore == ms[i].similarityScore
    {
      assert ms[i] in ms;
    }
  }

  // ---------------------------------------------------------------------------
  // Resume details (lines 253-290)

  /** Line 266: the first word of the name, "" for a missing or empty name; a name made only of
      whitespace has no first word and raises `IndexError`. */
  function FirstName(name: Option<string>): (r: Result<string>)
    ensures r.Err? <==> Truthy(name) && AllSpace(name.value)
    ensures r == Ok("") <==> !Truthy(name)
    ensures r.Ok? && r.value != "" ==> (NoSpace(r.value) &&
      exists k :: (0 <= k <= |name.value| && AllSpace(name.value[..k]) && r.value <= name.value[k..] &&
        (k + |r.value| == |name.value| || IsSpace(name.value[k + |r.value|]))))
  {
    if !Truthy(name) then Ok("")
    else
      var words := Words(name.value);
      WordsEmptyIff(name.value);
      if words == [] then Err(ResumeParser.IndexErrorText)
      else
        FirstWord(name.value);
        assert words[0] in words;
        Ok(words[0])
  }

  /** Line 283. */
  const CertificationKeywords := ["CPA", "CA", "CMA", "Certified", "Professional", "Associate"]

  /** Line 285: a part naming a certification holds one of the keywords, case-sensitively. */
  predicate IsCertification(part: string) {
    ResumeParser.HasKeyword(part, CertificationKeywords)
  }

  /** Line 271: the comma-separated parts of the education, stripped. */
  function EducationParts(education: string): seq<string> {
    StripAll(SplitOn(education, ','))
  }

  /** Lines 269-278: one degree per part that is not blank; year and institution are always
      `None` and are not modelled. */
  function EducationDetails(education: Option<string>): (details: seq<string>)
    ensures forall d :: d in details <==>
      Truthy(education) && d in EducationParts(education.value) && d != []
  {
    if Truthy(education) then Filter(EducationParts(education.value), NonEmpty) else []
  }

  /** Lines 281-290: the parts that name a certification. */
  function Certifications(education: Option<string>): (certifications: seq<string>)
    ensures forall c :: c in certifications <==>
      Truthy(education) && c in EducationParts(education.value) && IsCertification(c)
  {
    if Truthy(education) then Filter(EducationParts(education.value), IsCertification) else []
  }

  /** Lines 268-290. */
  method ParseEducation(education: Option<string>) returns (details: seq<string>, certifications: seq<string>)
    ensures details == EducationDetails(education)
    ensures certifications == Certifications(education)
  {
    if !Truthy(education) {
      return [], [];
    }
    var parts := EducationParts(education.value);
    details := KeepDegrees(parts);
    certifications := KeepCertifications(parts);
  }

  /** Lines 272-278. */
  method KeepDegrees(parts: seq<string>) returns (details: seq<string>)
    ensures details == Filter(parts, NonEmpty)
  {
    details := [];
    for i := 0 to |parts|
      invariant details == Filter(parts[..i], NonEmpty)
    {
      assert parts[..i + 1][..i] == parts[..i];
      if parts[i] != [] {
        details := details + [parts[i]];
      }
    }
    assert parts[..|parts|] == parts;
  }

  /** Lines 284-290. */
  method KeepCertifications(parts: seq<string>) returns (certifications: seq<string>)
    ensures certifications == Filter(parts, IsCertification)
  {
    certifications := [];
    for i := 0 to |parts|
      invariant certifications == Filter(parts[..i], IsCertification)
    {
      assert parts[..i + 1][..i] == parts[..i];
      var hit := ResumeParser.LineHasKeyword(parts[i], CertificationKeywords);
      if hit {
        certifications := certifications + [parts[i]];
      }
    }
    assert parts[..|parts|] == parts;
  }

  /** A degree is listed exactly when it is a non-blank part of the education, stripped, and the
      degrees keep the order of the parts. */
  lemma EducationDetailsMembers(education: string)
    ensures forall x :: x in EducationDetails(Some(education)) <==>
      x != [] && exists i :: 0 <= i < |SplitOn(education, ',')| && Strip(SplitOn(education, ',')[i]) == x
    ensures IsSubsequence(EducationDetails(Some(education)), EducationParts(education))
  {
    if education != "" {
      assert EducationDetails(Some(education)) == NonBlankParts(SplitOn(education, ','));
      NonBlankMembers(SplitOn(education, ','));
    }
  }

  lemma CertificationNonEmpty(part: string)
    requires IsCertification(part)
    ensures NonEmpty(part)
  {
    var k :| 0 <= k < |CertificationKeywords| && Contains(part, CertificationKeywords[k]);
    ContainsChar(part, CertificationKeywords[k], 0);
  }

  /** The certifications are the degrees that hold a keyword, in the same order: every
      certification is also listed as a degree. */
  lemma CertificationsAmongDetails(education: Option<string>)
    ensures Certifications(education) == Filter(EducationDetails(education), IsCertification)
    ensures IsSubsequence(Certifications(education), EducationDetails(education))
    ensures forall c :: c in Certifications(education) ==> c in EducationDetails(education)
  {
    forall part | IsCertification(part)
      ensures NonEmpty(part)
    {
      CertificationNonEmpty(part);
    }
    if Truthy(education) {
      FilterNarrower(EducationParts(education.value), IsCertification, NonEmpty);
    }
    FilterIsSubsequence(EducationDetails(education), IsCertification);
  }

  // ---------------------------------------------------------------------------
  // Screening questions and outreach e-mail (lines 331-338, 356-362)

  /** The skill asked about when a resume lists none. */
  const DefaultSkill := "developer"

  /** Lines 337 and 361: the first listed skill, or "developer". */
  function ChosenSkill(skills: seq<string>): (r: string)
    ensures r == DefaultSkill || r in skills
    ensures skills != [] ==> r == skills[0]
  {
    if skills != [] then skills[0] else DefaultSkill
  }

  /** Line 338: the candidate counts as senior when the experience holds a "5" anywhere or
      "senior" in any case. */
  predicate IsSenior(experience: Option<string>)
    ensures experience.Some? && Contains(experience.value, "5") ==> IsSenior(experience)
    ensures experience.Some? && Contains(Lower(experience.value), "senior") ==> IsSenior(experience)
    ensures IsSenior(experience) ==> Truthy(experience)
  {
    Truthy(experience) &&
    (Contains(experience.value, "5") || Contains(Lower(experience.value), "senior"))
  }

  /** Line 338: the level the questions are asked at. */
  function Level(experience: Option<string>): (r: string)
    ensures r == "senior" <==> IsSenior(experience)
    ensures r == "mid" <==> !IsSenior(experience)
  {
    if IsSenior(experience) then "senior" else "mid"
  }

  /** Any "5" makes the level senior, so "1.5 years" and "15 years" both ask senior questions. */
  lemma FiveMeansSenior(before: string, after: string)
    ensures Level(Some(before + "5" + after)) == "senior"
  {
    ContainsMiddle(before, "5", after);
  }

  /** Lines 326-343 after the row is read: the skill column decoded (a column that does not
      decode gives no skills), the skill and level chosen and the questions generated;
      `response` is the model's reply, `None` when the call raised. */
  method ScreeningQuestions(skillsColumn: JsonList, experience: Option<string>, response: Option<string>)
    returns (questions: seq<string>, level: string)
    ensures level == Level(experience)
    ensures |questions| <= ScreeningGenerator.MaxQuestions
    ensures response.None? ==> (|questions| == ScreeningGenerator.MaxQuestions &&
      forall i :: 0 <= i < |questions| ==> Contains(questions[i], ChosenSkill(SkillsOf(skillsColumn))))
    ensures response.Some? ==>
      questions <= ScreeningGenerator.Cleaned(NonBlankParts(SplitOn(response.value, '\n')))
  {
    var skills := SkillsOf(skillsColumn);
    var skill := ChosenSkill(skills);
    level := Level(experience);
    questions := ScreeningGenerator.GenerateQuestions(skill, response);
    ScreeningGenerator.FallbackMentionsSkill(skill);
  }

  /** Line 362: the skills joined with ", ", or the chosen skill when there are none. */
  function KeySkills(skills: seq<string>): (r: string)
    ensures skills == [] ==> r == DefaultSkill
  {
    if skills != [] then JoinWith(", ", skills) else ChosenSkill(skills)
  }

  /** The key skills name every skill, and so the chosen skill too. */
  lemma KeySkillsMentionAll(skills: seq<string>)
    ensures forall k :: 0 <= k < |skills| ==> Contains(KeySkills(skills), skills[k])
    ensures Contains(KeySkills(skills), ChosenSkill(skills))
  {
    forall k | 0 <= k < |skills|
      ensures Contains(KeySkills(skills), skills[k])
    {
      JoinWithContains(", ", skills, k);
    }
    if skills == [] {
      ContainsMiddle([], DefaultSkill, []);
      assert [] + DefaultSkill + [] == DefaultSkill;
    }
  }

  // ---------------------------------------------------------------------------
  // Dashboard metrics (lines 443-503)

  /** The three columns the dashboard reads. */
  datatype DashboardRow = DashboardRow(experience: Option<string>, contact: ContactColumn, skills: JsonList)

  /** The lists `exp_years`, `locations` and `all_skills`. */
  datatype Collected = Collected(years: seq<real>, locations: seq<string>, skills: seq<string>)

  const Nothing := Collected([], [], [])

  function Join(a: Collected, b: Collected): Collected {
    Collected(a.years + b.years, a.locations + b.locations, a.skills + b.skills)
  }

  /** An experience the loop cannot read: present, but its first word is missing or not a
      number. */
  predicate UnreadableExperience(row: DashboardRow) {
    Truthy(row.experience) && SearchEngine.LeadingYears(row.experience.value).None?
  }

  /** A contact column that stops the row: text that does not decode, or JSON that is not an
      object (`.get` raises). */
  predicate ContactStops(row: DashboardRow) {
    row.contact.ContactMalformed? || row.contact.ContactOther?
  }

  /** Lines 449-472: what one row adds. Each `continue` skips what follows it in the row. */
  function RowContribution(row: DashboardRow): (c: Collected)
    ensures UnreadableExperience(row) ==> c == Nothing
    ensures ContactStops(row) ==> c.locations == [] && c.skills == []
    ensures c.locations == [] || (row.contact.ContactObject? &&
      c.locations == [Lookup(row.contact.entries, "location")] && c.locations[0] != "")
  {
    if UnreadableExperience(row) then Nothing
    else
      var years := if Truthy(row.experience) then [SearchEngine.LeadingYears(row.experience.value).value] else [];
      if ContactStops(row) then Collected(years, [], [])
      else
        var location := if row.contact.ContactObject? then Lookup(row.contact.entries, "location") else "";
        var locations := if location != "" then [location] else [];
        Collected(years, locations, SkillsOf(row.skills))
  }

  /** What each row adds, in row order. */
  function Contributions(rows: seq<DashboardRow>): seq<Collected> {
    MapSeq(RowContribution, rows)
  }

  /** Everything the given contributions add, in order. */
  function Gather(cs: seq<Collected>): Collected
    decreases |cs|
  {
    if cs == [] then Nothing else Join(Gather(cs[..|cs| - 1]), cs[|cs| - 1])
  }

  /** Lines 444-472: the lists after the loop. */
  function Gathered(rows: seq<DashboardRow>): Collected {
    Gather(Contributions(rows))
  }

  lemma {:induction false} GatherConcat(a: seq<Collected>, b: seq<Collected>)
    ensures Gather(a + b) == Join(Gather(a), Gather(b))
    decreases |b|
  {
    if b == [] {
      assert a + b == a;
    } else {
      var init := b[..|b| - 1];
      GatherConcat(a, init);
      assert (a + b)[..|a + b| - 1] == a + init;
      assert (a + b)[|a + b| - 1] == b[|b| - 1];
    }
  }

  /** Gathering over two runs of rows joins what each run gathers. */
  lemma GatheredConcat(a: seq<DashboardRow>, b: seq<DashboardRow>)
    ensures Gathered(a + b) == Join(Gathered(a), Gathered(b))
  {
    var ca, cb := Contributions(a), Contributions(b);
    MapSeqConcat(RowContribution, a, b);
    GatherConcat(ca, cb);
  }

  lemma GatheredSnoc(rows: seq<DashboardRow>, row: DashboardRow)
    ensures Gathered(rows + [row]) == Join(Gathered(rows), RowContribution(row))
  {
    var cs := Contributions(rows + [row]);
    assert cs[..|cs| - 1] == Contributions(rows);
  }

  /** A row that adds nothing can be dropped. */
  lemma SilentRowDropped(before: seq<DashboardRow>, row: DashboardRow, after: seq<DashboardRow>)
    requires RowContribution(row) == Nothing
    ensures Gathered(before + [row] + after) == Gathered(before + after)
  {
    assert Gathered(before + [row] + after) == Join(Gathered(before + [row]), Gathered(after)) by {
      GatheredConcat(before + [row], after);
    }
    assert Gathered(before + [row]) == Gathered(before) by {
      GatheredSnoc(before, row);
      assert Join(Gathered(before), Nothing) == Gathered(before);
    }
    GatheredConcat(before, after);
  }

  /** A row whose experience cannot be read adds nothing at all: the dashboard is the same
      without it. */
  lemma UnreadableRowIgnored(rows: seq<DashboardRow>, i: nat)
    requires i < |rows| && UnreadableExperience(rows[i])
    ensures Gathered(rows) == Gathered(rows[..i] + rows[i + 1..])
  {
    assert rows == rows[..i] + [rows[i]] + rows[i + 1..];
    SilentRowDropped(rows[..i], rows[i], rows[i + 1..]);
  }

  /** A row whose contact does not decode to an object adds no location and no skills. */
  lemma StoppedRowAddsNoSkills(rows: seq<DashboardRow>, i: nat)
    requires i < |rows| && ContactStops(rows[i])
    ensures Gathered(rows).skills == Gathered(rows[..i]).skills + Gathered(rows[i + 1..]).skills
    ensures Gathered(rows).locations == Gathered(rows[..i]).locations + Gathered(rows[i + 1..]).locations
  {
    var before, row, after := rows[..i], rows[i], rows[i + 1..];
    assert rows == (before + [row]) + after;
    GatheredConcat(before + [row], after);
    GatheredSnoc(before, row);
    var c := RowContribution(row);
    assert c.skills == [] && c.locations == [];
    assert Gathered(before + [row]).skills == Gathered(before).skills;
    assert Gathered(before + [row]).locations == Gathered(before).locations;
  }

  /** Lines 443-472. */
  method GatherRows(rows: seq<DashboardRow>) returns (c: Collected)
    ensures c == Gathered(rows)
  {
    var years: seq<real> := [];
    var locations: seq<string> := [];
    var skills: seq<string> := [];
    for i := 0 to |rows|
      invariant Collected(years, locations, skills) == Gathered(rows[..i])
    {
      assert rows[..i + 1] == rows[..i] + [rows[i]];
      GatheredSnoc(rows[..i], rows[i]);
      years, locations, skills := ReadRow(years, locations, skills, rows[i]);
    }
    assert rows[..|rows|] == rows;
    return Collected(years, locations, skills);
  }

  /** Lines 449-472: one pass of the loop body, where `continue` skips the rest of the row. */
  method ReadRow(years: seq<real>, locations: seq<string>, skills: seq<string>, row: DashboardRow)
    returns (years': seq<real>, locations': seq<string>, skills': seq<string>)
    ensures Collected(years', locations', skills') ==
      Join(Collected(years, locations, skills), RowContribution(row))
  {
    years', locations', skills' := years, locations, skills;
    ghost var read: seq<real> := [];
    if Truthy(row.experience) {
      var val := SearchEngine.LeadingYears(row.experience.value);
      if val.None? {
        assert RowContribution(row) == Nothing;
        assert years + [] == years && locations + [] == locations && skills + [] == skills;
        return;
      }
      years' := years' + [val.value];
      read := [val.value];
    }
    assert years' == years + read;
    if row.contact.ContactMalformed? || row.contact.ContactOther? {
      assert RowContribution(row) == Collected(read, [], []);
      assert locations + [] == locations && skills + [] == skills;
      return;
    }
    ghost var found: seq<string> := [];
    if row.contact.ContactObject? {
      var location := Lookup(row.contact.entries, "location");
      if location != "" {
        locations' := locations' + [location];
        found := [location];
      }
    }
    assert locations' == locations + found;
    if row.skills.ListOf? {
      skills' := skills' + row.skills.items;
    } else {
      assert skills + [] == skills;
    }
    assert RowContribution(row) == Collected(read, found, SkillsOf(row.skills));
  }

  function Sum(ys: seq<real>): real
    decreases |ys|
  {
    if ys == [] then 0.0 else Sum(ys[..|ys| - 1]) + ys[|ys| - 1]
  }

  /** Line 475 before rounding: the mean of the years read, 0 when none were. */
  function Average(ys: seq<real>): real {
    if ys == [] then 0.0 else Sum(ys) / |ys| as real
  }

  lemma {:induction false} SumBounds(ys: seq<real>, lo: real, hi: real)
    requires forall i :: 0 <= i < |ys| ==> lo <= ys[i] <= hi
    ensures |ys| as real * lo <= Sum(ys) <= |ys| as real * hi
    decreases |ys|
  {
    if ys != [] {
      SumBounds(ys[..|ys| - 1], lo, hi);
    }
  }

  /** The average lies between the smallest and the largest number of years read. */
  lemma AverageBounds(ys: seq<real>, lo: real, hi: real)
    requires ys != []
    requires forall i :: 0 <= i < |ys| ==> lo <= ys[i] <= hi
    ensures lo <= Average(ys) <= hi
  {
    SumBounds(ys, lo, hi);
    var n := |ys| as real;
    assert lo * n <= Sum(ys) <= hi * n;
    assert Average(ys) == Sum(ys) / n;
  }

  /** Line 493: each number of years as `str(int(y))`. */
  function YearBins(ys: seq<real>): (bins: seq<string>)
    ensures |bins| == |ys|
  {
    seq(|ys|, i requires 0 <= i < |ys| => IntToString(Truncate(ys[i])))
  }

  /** Line 496: each bin named "<n> years". */
  function YearsCaptions(t: seq<(string, nat)>): (r: seq<(string, nat)>)
    ensures |r| == |t|
    ensures forall i :: 0 <= i < |t| ==> r[i] == (t[i].0 + " years", t[i].1)
  {
    seq(|t|, i requires 0 <= i < |t| => (t[i].0 + " years", t[i].1))
  }

  lemma {:induction false} YearsCaptionsSum(t: seq<(string, nat)>)
    ensures SumCounts(YearsCaptions(t)) == SumCounts(t)
    decreases |t|
  {
    if t != [] {
      YearsCaptionsSum(t[1..]);
      assert YearsCaptions(t)[1..] == YearsCaptions(t[1..]);
    }
  }

  lemma CaptionInjective(a: string, b: string)
    requires a + " years" == b + " years"
    ensures a == b
  {
    assert |a| == |b|;
    assert (a + " years")[..|a|] == a;
    assert (b + " years")[..|b|] == b;
  }

  /** The dashboard's figures; the skill distribution is given as counts, before they are turned
      into rounded percentages. */
  datatype Metrics = Metrics(totalCandidates: nat, averageExperience: real,
    skillCounts: seq<(string, nat)>, experienceDistribution: seq<(string, nat)>,
    locationDistribution: seq<(string, nat)>)

  /** Lines 430-503 without the rounding and without the most frequent location and skill. */
  function MetricsOf(rows: seq<DashboardRow>): (m: Metrics)
    ensures m.totalCandidates == |rows|
    ensures Gathered(rows).years == [] ==> m.averageExperience == 0.0
  {
    var c := Gathered(rows);
    Metrics(|rows|, Average(c.years), Tally(c.skills), YearsCaptions(Tally(YearBins(c.years))),
      Tally(c.locations))
  }

  /** Lines 430-503. */
  method DashboardMetrics(rows: seq<DashboardRow>) returns (m: Metrics)
    ensures m == MetricsOf(rows)
  {
    var c := GatherRows(rows);
    var average := if c.years != [] then Sum(c.years) / |c.years| as real else 0.0;
    var skillCounts := if c.skills != [] then Tally(c.skills) else [];
    var expDist := if c.years != [] then YearsCaptions(Tally(YearBins(c.years))) else [];
    var locDist := if c.locations != [] then Tally(c.locations) else [];
    return Metrics(|rows|, average, skillCounts, expDist, locDist);
  }

  /** Each distribution counts every collected value once: its counts add up to the number of
      values collected, each value is listed once, and its count is the number of times it was
      collected. */
  lemma DistributionsCount(rows: seq<DashboardRow>)
    ensures var m := MetricsOf(rows);
      var c := Gathered(rows);
      SumCounts(m.experienceDistribution) == |c.years| &&
      SumCounts(m.locationDistribution) == |c.locations| &&
      SumCounts(m.skillCounts) == |c.skills| &&
      Distinct(Keys(m.locationDistribution)) && Distinct(Keys(m.experienceDistribution)) &&
      (forall l :: l in Keys(m.locationDistribution) <==> l in c.locations) &&
      (forall l :: CountOf(m.locationDistribution, l) == multiset(c.locations)[l])
    ensures Gathered(rows).years == [] ==> MetricsOf(rows).averageExperience == 0.0
  {
    var c := Gathered(rows);
    var bins := Tally(YearBins(c.years));
    TallySum(YearBins(c.years));
    YearsCaptionsSum(bins);
    TallySum(c.locations);
    TallySum(c.skills);
    TallyKeys(c.locations);
    TallyKeys(YearBins(c.years));
    forall l
      ensures CountOf(Tally(c.locations), l) == multiset(c.locations)[l]
    {
      TallyCounts(c.locations, l);
    }
    var captions := Keys(YearsCaptions(bins));
    forall i, j | 0 <= i < j < |captions|
      ensures captions[i] != captions[j]
    {
      if captions[i] == captions[j] {
        CaptionInjective(Keys(bins)[i], Keys(bins)[j]);
      }
    }
  }
}

=== FILE: sorting.dfy ===
/** Python's `sorted(xs, reverse=True)` and `xs.sort(reverse=True)` ordered by a real-valued key,
    and Python's prefix slice `xs[:k]`. */
module Sorting {

  /** Non-increasing by `key`. */
  ghost predicate SortedDesc<T>(s: seq<T>, key: T -> real) {
    forall i, j :: 0 <= i < j < |s| ==> key(s[i]) >= key(s[j])
  }

  /** Inserts `x` into a list already in non-increasing order, keeping it so. */
  function InsertDesc<T>(x: T, s: seq<T>, key: T -> real): (r: seq<T>)
    requires SortedDesc(s, key)
    ensures SortedDesc(r, key)
    ensures multiset(r) == multiset(s) + multiset{x}
    decreases |s|
  {
    if s == [] then [x]
    else if key(x) >= key(s[0]) then [x] + s
    else
      var rest := InsertDesc(x, s[1..], key);
      assert s == [s[0]] + s[1..];
      AllAtMost(rest, s[1..], x, key(s[0]), key);
      SortedCons(s[0], rest, key);
      [s[0]] + rest
  }

  lemma AllAtMost<T>(r: seq<T>, s: seq<T>, x: T, bound: real, key: T -> real)
    requires multiset(r) == multiset(s) + multiset{x}
    requires forall i :: 0 <= i < |s| ==> key(s[i]) <= bound
    requires key(x) <= bound
    ensures forall i :: 0 <= i < |r| ==> key(r[i]) <= bound
  {
    forall i | 0 <= i < |r|
      ensures key(r[i]) <= bound
    {
      assert r[i] in multiset(r);
      if r[i] != x {
        assert r[i] in multiset(s);
        var j :| 0 <= j < |s| && s[j] == r[i];
      }
    }
  }

  lemma SortedCons<T>(y: T, r: seq<T>, key: T -> real)
    requires SortedDesc(r, key)
    requires forall i :: 0 <= i < |r| ==> key(r[i]) <= key(y)
    ensures SortedDesc([y] + r, key)
  {
    var t := [y] + r;
    forall i, j | 0 <= i < j < |t|
      ensures key(t[i]) >= key(t[j])
    {
      if i > 0 {
        assert t[i] == r[i - 1] && t[j] == r[j - 1];
      } else {
        assert t[j] == r[j - 1];
      }
    }
  }

  /** The list in non-increasing order of `key`: a permutation of `s` that is sorted. */
  function SortDesc<T>(s: seq<T>, key: T -> real): (r: seq<T>)
    ensures SortedDesc(r, key)
    ensures multiset(r) == multiset(s)
    decreases |s|
  {
    if s == [] then []
    else
      assert s == [s[0]] + s[1..];
      InsertDesc(s[0], SortDesc(s[1..], key), key)
  }

  /** Python's `s[:k]`: the first `k` elements, or for a negative `k` all but the last `-k`. */
  function Take<T>(s: seq<T>, k: int): (r: seq<T>)
    ensures r <= s
    ensures 0 <= k ==> |r| == if k < |s| then k else |s|
  {
    if k >= 0 then (if k < |s| then s[..k] else s)
    else if |s| + k > 0 then s[..|s| + k]
    else []
  }

  /** What is taken is a sub-multiset of the list. */
  lemma TakeSubMultiset<T>(s: seq<T>, k: int)
    ensures multiset(Take(s, k)) <= multiset(s)
  {
    var r := Take(s, k);
    assert s == r + s[|r|..];
  }

  /** Taking a prefix of a list whose keys never increase keeps the order, and everything left
      behind has a key no larger than anything kept. */
  lemma TakeSorted<T>(s: seq<T>, k: int, key: T -> real)
    requires SortedDesc(s, key)
    ensures SortedDesc(Take(s, k), key)
    ensures forall i, j :: 0 <= i < |Take(s, k)| <= j < |s| ==> key(s[j]) <= key(Take(s, k)[i])
  {
  }

  /** The first `k` of the list sorted by `key` (Python's `sorted(s, reverse=True)[:k]`): in
      order, drawn from `s`, `k` of them or all when fewer, and nothing left out has a larger
      key than anything kept. */
  lemma TopByKey<T>(s: seq<T>, k: int, key: T -> real)
    ensures var top := Take(SortDesc(s, key), k);
      && SortedDesc(top, key)
      && multiset(top) <= multiset(s)
      && (0 <= k ==> |top| == if k < |s| then k else |s|)
      && forall x, y :: x in s && x !in top && y in top ==> key(x) <= key(y)
  {
    var sorted := SortDesc(s, key);
    var top := Take(sorted, k);
    TakeSorted(sorted, k, key);
    TakeSubMultiset(sorted, k);
    assert |sorted| == |multiset(sorted)| == |multiset(s)| == |s|;
    forall x, y | x in s && x !in top && y in top
      ensures key(x) <= key(y)
    {
      assert x in multiset(sorted);
      var j :| 0 <= j < |sorted| && sorted[j] == x;
      var i :| 0 <= i < |top| && top[i] == y;
      assert j >= |top|;
    }
  }
}

=== FILE: text.dfy ===
/** The Python `str` operations the core relies on, over `seq<char>`. */
module Text {

  /** `str.isspace()` for one character: the characters that `str.split()`, `str.strip()` and
      the regular-expression class `\s` treat as whitespace. */
  predicate IsSpace(c: char) {
    c == ' ' || ('\t' <= c <= '\r') || ('\U{1c}' <= c <= '\U{1f}') || c == '\U{85}' || c == '\U{a0}'
    || c == '\U{1680}' || ('\U{2000}' <= c <= '\U{200a}') || c == '\U{2028}' || c == '\U{2029}'
    || c == '\U{202f}' || c == '\U{205f}' || c == '\U{3000}'
  }

  predicate NoSpace(s: string) {
    forall i :: 0 <= i < |s| ==> !IsSpace(s[i])
  }

  predicate AllSpace(s: string) {
    forall i :: 0 <= i < |s| ==> IsSpace(s[i])
  }

  // ---------------------------------------------------------------------------
  // Case folding

  function LowerChar(c: char): char {
    if 'A' <= c <= 'Z' then (c as int + 32) as char else c
  }

  /** `str.lower()` on the ASCII letters. */
  function Lower(s: string): (r: string)
    ensures |r| == |s|
    ensures forall i :: 0 <= i < |s| ==> r[i] == LowerChar(s[i])
  {
    seq(|s|, i requires 0 <= i < |s| => LowerChar(s[i]))
  }

  lemma LowerConcat(a: string, b: string)
    ensures Lower(a + b) == Lower(a) + Lower(b)
  {
  }

  // ---------------------------------------------------------------------------
  // Substring test

  /** Python's `sub in s`. */
  predicate Contains(s: string, sub: string)
    decreases |s|
  {
    sub <= s || (s != [] && Contains(s[1..], sub))
  }

  /** `sub` occurs in `s` at position `i`. */
  predicate OccursAt(s: string, sub: string, i: int) {
    0 <= i <= |s| - |sub| && s[i..i + |sub|] == sub
  }

  /** `sub in s` holds exactly when `sub` occurs at some position of `s`. */
  lemma {:induction false} ContainsIff(s: string, sub: string)
    ensures Contains(s, sub) <==> exists i :: OccursAt(s, sub, i)
    decreases |s|
  {
    if s == [] {
      if sub == [] {
        assert OccursAt(s, sub, 0);
      }
    } else {
      ContainsIff(s[1..], sub);
      if Contains(s, sub) {
        if sub <= s {
          assert OccursAt(s, sub, 0);
        } else {
          var i :| OccursAt(s[1..], sub, i);
          assert s[1..][i..i + |sub|] == s[i + 1..i + 1 + |sub|];
          assert OccursAt(s, sub, i + 1);
        }
      } else {
        forall i | 0 <= i <= |s| - |sub|
          ensures !OccursAt(s, sub, i)
        {
          if i > 0 {
            assert s[1..][i - 1..i - 1 + |sub|] == s[i..i + |sub|];
            assert !OccursAt(s[1..], sub, i - 1);
          } else {
            assert s[..|sub|] == s[0..0 + |sub|];
          }
        }
      }
    }
  }

  /** A string contains whatever is spliced into its middle. */
  lemma ContainsMiddle(a: string, sub: string, b: string)
    ensures Contains(a + sub + b, sub)
  {
    var s := a + sub + b;
    assert s[|a|..|a| + |sub|] == sub;
    assert OccursAt(s, sub, |a|);
    ContainsIff(s, sub);
  }

  /** No string contains a longer one. */
  lemma ContainsShorter(s: string, sub: string)
    requires Contains(s, sub)
    ensures |sub| <= |s|
  {
    ContainsIff(s, sub);
  }

  /** Every character of a substring of `s` occurs in `s`. */
  lemma ContainsChar(s: string, sub: string, k: nat)
    requires Contains(s, sub) && k < |sub|
    ensures sub[k] in s
  {
    ContainsIff(s, sub);
    var i :| OccursAt(s, sub, i);
    assert s[i..i + |sub|][k] == s[i + k];
  }

  /** Containment is transitive. */
  lemma ContainsTrans(a: string, b: string, c: string)
    requires Contains(a, b) && Contains(b, c)
    ensures Contains(a, c)
  {
    ContainsIff(a, b);
    ContainsIff(b, c);
    var i :| OccursAt(a, b, i);
    var j :| OccursAt(b, c, j);
    forall t | 0 <= t < |c|
      ensures a[i + j..i + j + |c|][t] == c[t]
    {
      assert c[t] == b[j + t];
      assert b[j + t] == a[i..i + |b|][j + t];
    }
    assert OccursAt(a, c, i + j);
    ContainsIff(a, c);
  }

  lemma OccursShift(s: string, sub: string)
    requires s != []
    ensures forall j :: 1 <= j ==> (OccursAt(s, sub, j) <==> OccursAt(s[1..], sub, j - 1))
  {
    forall j | 1 <= j
      ensures OccursAt(s, sub, j) <==> OccursAt(s[1..], sub, j - 1)
    {
      if j <= |s| - |sub| {
        assert s[1..][j - 1..j - 1 + |sub|] == s[j..j + |sub|];
      }
    }
  }

  /** Python's `s.find(sub)`: the first position at which `sub` occurs in `s`, or -1. */
  function Find(s: string, sub: string): (i: int)
    ensures -1 <= i
    ensures i >= 0 ==> OccursAt(s, sub, i)
    ensures forall j :: 0 <= j && (i < 0 || j < i) ==> !OccursAt(s, sub, j)
    decreases |s|
  {
    if sub <= s then 0
    else if s == [] then -1
    else
      var k := Find(s[1..], sub);
      OccursShift(s, sub);
      assert OccursAt(s, sub, 0) ==> s[..|sub|] == sub;
      if k < 0 then -1 else k + 1
  }

  /** `s.find(sub)` finds something exactly when `sub in s`. */
  lemma FindIff(s: string, sub: string)
    ensures Find(s, sub) >= 0 <==> Contains(s, sub)
  {
    ContainsIff(s, sub);
  }

  // ---------------------------------------------------------------------------
  // Prefixes and suffixes

  predicate StartsWith(s: string, prefix: string) {
    prefix <= s
  }

  predicate EndsWith(s: string, suffix: string) {
    |suffix| <= |s| && s[|s| - |suffix|..] == suffix
  }

  // ---------------------------------------------------------------------------
  // Stripping

  /** `s` without its leading whitespace. */
  function TrimLeft(s: string): (r: string)
    ensures |r| <= |s| && r == s[|s| - |r|..]
    ensures AllSpace(s[..|s| - |r|])
    ensures r == [] || !IsSpace(r[0])
    decreases |s|
  {
    if s != [] && IsSpace(s[0]) then TrimLeft(s[1..]) else s
  }

  /** `s` without its trailing whitespace. */
  function TrimRight(s: string): (r: string)
    ensures |r| <= |s| && r == s[..|r|]
    ensures AllSpace(s[|r|..])
    ensures r == [] || !IsSpace(r[|r| - 1])
    decreases |s|
  {
    if s != [] && IsSpace(s[|s| - 1]) then
      var r := TrimRight(s[..|s| - 1]);
      assert s[..|r|] == s[..|s| - 1][..|r|];
      assert s[|r|..] == s[..|s| - 1][|r|..] + [s[|s| - 1]];
      r
    else s
  }

  /** Python truthiness of a string. */
  predicate NonEmpty(q: string) {
    q != []
  }

  /** No surrounding whitespace. */
  predicate Stripped(s: string) {
    s == [] || (!IsSpace(s[0]) && !IsSpace(s[|s| - 1]))
  }

  /** Python's `s.strip()`: the result neither starts nor ends with whitespace (`StripShape`
      places it in `s`). */
  function Strip(s: string): (r: string)
    ensures Stripped(r)
  {
    var t := TrimLeft(s);
    var r := TrimRight(t);
    StripParts(s, t, r);
    r
  }

  /** `s` is `Strip(s)` with whitespace on either side. */
  lemma StripShape(s: string)
    ensures exists k :: StrippedAt(s, Strip(s), k)
  {
    var t := TrimLeft(s);
    StripParts(s, t, TrimRight(t));
    assert Strip(s) == TrimRight(t);
    assert StrippedAt(s, Strip(s), |s| - |t|);
  }

  /** Trimming the left and then the right leaves `r` at position `|s| - |t|`. */
  lemma StripParts(s: string, t: string, r: string)
    requires |t| <= |s| && t == s[|s| - |t|..] && AllSpace(s[..|s| - |t|])
    requires t == [] || !IsSpace(t[0])
    requires |r| <= |t| && r == t[..|r|] && AllSpace(t[|r|..])
    requires r == [] || !IsSpace(r[|r| - 1])
    ensures Stripped(r)
    ensures StrippedAt(s, r, |s| - |t|)
  {
    var k := |s| - |t|;
    assert s[k..k + |r|] == r;
    assert s[k + |r|..] == t[|r|..];
    if r != [] {
      assert r[0] == t[0];
    }
  }

  /** `s` is `r` placed at position `k` with only whitespace around it. */
  predicate StrippedAt(s: string, r: string, k: int) {
    0 <= k <= |s| - |r| && s[k..k + |r|] == r && AllSpace(s[..k]) && AllSpace(s[k + |r|..])
  }

  /** Stripping only removes characters. */
  lemma StripChars(s: string)
    ensures forall i :: 0 <= i < |Strip(s)| ==> Strip(s)[i] in s
  {
    var r := Strip(s);
    StripShape(s);
    var k :| StrippedAt(s, r, k);
    forall i | 0 <= i < |r|
      ensures r[i] in s
    {
      assert r[i] == s[k..k + |r|][i] == s[k + i];
    }
  }

  /** Stripping a string that has no surrounding whitespace leaves it unchanged. */
  lemma StripUnchanged(s: string)
    requires s == [] || (!IsSpace(s[0]) && !IsSpace(s[|s| - 1]))
    ensures Strip(s) == s
  {
  }

  /** Stripping yields the empty string exactly when `s` is all whitespace. */
  lemma StripEmptyIff(s: string)
    ensures Strip(s) == [] <==> AllSpace(s)
  {
    var t := TrimLeft(s);
    assert s[..|s|] == s;
    if t != [] {
      var r := TrimRight(t);
      assert t[0] == s[|s| - |t|];
      assert t[|r|..] == t[|r|..];
    }
  }

  /** Python's `s.lstrip(chars)`. */
  function LStrip(s: string, chars: set<char>): (r: string)
    ensures |r| <= |s| && r == s[|s| - |r|..]
    ensures forall i :: 0 <= i < |s| - |r| ==> s[i] in chars
    ensures r == [] || r[0] !in chars
    decreases |s|
  {
    if s != [] && s[0] in chars then LStrip(s[1..], chars) else s
  }

  /** Each string stripped of surrounding whitespace. */
  function StripAll(lines: seq<string>): (r: seq<string>)
    ensures |r| == |lines|
    ensures forall i :: 0 <= i < |lines| ==> r[i] == Strip(lines[i])
    ensures forall i :: 0 <= i < |r| ==> Stripped(r[i])
  {
    seq(|lines|, i requires 0 <= i < |lines| => Strip(lines[i]))
  }

  // ---------------------------------------------------------------------------
  // Splitting on whitespace

  /** Length of the leading run of non-whitespace characters of `s`. */
  function WordLength(s: string): (n: nat)
    ensures n <= |s| && NoSpace(s[..n]) && (n == |s| || IsSpace(s[n]))
    decreases |s|
  {
    if s == [] || IsSpace(s[0]) then 0 else 1 + WordLength(s[1..])
  }

  /** Python's `s.split()`: the maximal runs of non-whitespace characters of `s`, in order. */
  function Words(s: string): seq<string>
    decreases |s|
  {
    var t := TrimLeft(s);
    if t == [] then []
    else
      var n := WordLength(t);
      assert n > 0 by {
        assert !IsSpace(t[0]);
      }
      [t[..n]] + Words(t[n..])
  }

  /** Every word is non-empty and free of whitespace. */
  lemma {:induction false} WordsAreWords(s: string)
    ensures forall w :: w in Words(s) ==> w != [] && NoSpace(w)
    decreases |s|
  {
    var t := TrimLeft(s);
    if t != [] {
      var n := WordLength(t);
      assert !IsSpace(t[0]);
      WordsAreWords(t[n..]);
      assert Words(s) == [t[..n]] + Words(t[n..]);
    }
  }

  /** The words of `w + rest`, where `w` is a whole word, are `w` followed by the words of `rest`. */
  lemma WordsCons(w: string, rest: string)
    requires w != [] && NoSpace(w)
    requires rest == [] || IsSpace(rest[0])
    ensures Words(w + rest) == [w] + Words(rest)
  {
    var s := w + rest;
    assert TrimLeft(s) == s;
    WordLengthOf(w, rest);
    assert s[..|w|] == w && s[|w|..] == rest;
  }

  lemma {:induction false} WordLengthOf(w: string, rest: string)
    requires NoSpace(w)
    requires rest == [] || IsSpace(rest[0])
    ensures WordLength(w + rest) == |w|
    decreases |w|
  {
    if w != [] {
      assert (w + rest)[1..] == w[1..] + rest;
      WordLengthOf(w[1..], rest);
    }
  }

  /** Only a string of whitespace has no words. */
  lemma WordsEmptyIff(s: string)
    ensures Words(s) == [] <==> AllSpace(s)
  {
    var t := TrimLeft(s);
    var k := |s| - |t|;
    if t == [] {
      assert s[..k] == s;
      assert Words(s) == [];
    } else {
      assert s[k] == t[0] && !IsSpace(t[0]);
      assert Words(s) != [];
    }
  }

  /** Concatenation of a sequence of strings. */
  function Concat(ws: seq<string>): string {
    if ws == [] then [] else ws[0] + Concat(ws[1..])
  }

  /** Each piece is contained in the concatenation. */
  lemma {:induction false} ConcatContains(ws: seq<string>, k: nat)
    requires k < |ws|
    ensures Contains(Concat(ws), ws[k])
    decreases k
  {
    var rest := Concat(ws[1..]);
    assert Concat(ws) == ws[0] + rest;
    if k == 0 {
      ContainsMiddle([], ws[0], rest);
      assert [] + ws[0] + rest == ws[0] + rest;
    } else {
      ConcatContains(ws[1..], k - 1);
      ContainsMiddle(ws[0], rest, []);
      assert ws[0] + rest + [] == ws[0] + rest;
      ContainsTrans(Concat(ws), rest, ws[k]);
    }
  }

  /** A string contains its suffixes. */
  lemma ContainsSuffix(a: string, b: string)
    ensures Contains(a + b, b)
  {
    ContainsMiddle(a, b, []);
    assert a + b + [] == a + b;
  }

  /** The non-whitespace characters of `s`, in order. */
  function NonSpace(s: string): string {
    if s == [] then [] else (if IsSpace(s[0]) then [] else [s[0]]) + NonSpace(s[1..])
  }

  lemma {:induction false} NonSpaceAppend(a: string, b: string)
    ensures NonSpace(a + b) == NonSpace(a) + NonSpace(b)
  {
    if a != [] {
      assert (a + b)[0] == a[0];
      assert (a + b)[1..] == a[1..] + b;
      NonSpaceAppend(a[1..], b);
    } else {
      assert a + b == b;
    }
  }

  lemma {:induction false} NonSpaceOfSpace(s: string)
    requires AllSpace(s)
    ensures NonSpace(s) == []
  {
    if s != [] {
      NonSpaceOfSpace(s[1..]);
    }
  }

  lemma {:induction false} NonSpaceOfWord(s: string)
    requires NoSpace(s)
    ensures NonSpace(s) == s
  {
    if s != [] {
      NonSpaceOfWord(s[1..]);
    }
  }

  /** Splitting on whitespace loses exactly the whitespace: the words, concatenated, are the
      non-whitespace characters of `s` in their original order. */
  lemma {:induction false} WordsKeepText(s: string)
    ensures Concat(Words(s)) == NonSpace(s)
    decreases |s|
  {
    var t := TrimLeft(s);
    var k := |s| - |t|;
    assert NonSpace(s) == NonSpace(t) by {
      assert s == s[..k] + t;
      NonSpaceAppend(s[..k], t);
      NonSpaceOfSpace(s[..k]);
    }
    if t != [] {
      var n := WordLength(t);
      assert n > 0 by {
        assert !IsSpace(t[0]);
      }
      assert Words(s) == [t[..n]] + Words(t[n..]);
      WordsKeepText(t[n..]);
      assert Concat(Words(s)) == t[..n] + Concat(Words(t[n..]));
      WordFirst(t, n);
    }
  }

  lemma WordFirst(t: string, n: nat)
    requires t != [] && !IsSpace(t[0]) && n == WordLength(t)
    ensures NonSpace(t) == t[..n] + NonSpace(t[n..])
  {
    assert t == t[..n] + t[n..];
    NonSpaceAppend(t[..n], t[n..]);
    NonSpaceOfWord(t[..n]);
  }
  /** `s.split()[0]`: the first word is the run of non-whitespace that follows the leading
      whitespace of `s`. */
  lemma FirstWord(s: string)
    requires Words(s) != []
    ensures exists k :: (0 <= k <= |s| && AllSpace(s[..k]) && Words(s)[0] <= s[k..] &&
      (k + |Words(s)[0]| == |s| || IsSpace(s[k + |Words(s)[0]|])))
  {
    var t := TrimLeft(s);
    var k := |s| - |t|;
    var w := Words(s)[0];
    assert t != [] && w == t[..WordLength(t)];
    FirstWordAt(s, k, t, w);
  }

  lemma FirstWordAt(s: string, k: nat, t: string, w: string)
    requires k <= |s| && t == s[k..] && AllSpace(s[..k])
    requires t != [] && w == t[..WordLength(t)]
    ensures 0 <= k <= |s| && AllSpace(s[..k]) && w <= s[k..] &&
      (k + |w| == |s| || IsSpace(s[k + |w|]))
  {
    var n := WordLength(t);
    assert n == |t| || s[k + n] == t[n];
  }


  // ---------------------------------------------------------------------------
  // Splitting on a separator and joining

  /** Python's `s.split(sep)` for a one-character separator. */
  function SplitOn(s: string, sep: char): (parts: seq<string>)
    ensures |parts| >= 1
    ensures forall i :: 0 <= i < |parts| ==> sep !in parts[i]
    decreases |s|
  {
    if s == [] then [[]]
    else
      var rest := SplitOn(s[1..], sep);
      if s[0] == sep then [[]] + rest else [[s[0]] + rest[0]] + rest[1..]
  }

  /** Python's `sep.join(parts)`. */
  function JoinWith(sep: string, parts: seq<string>): string {
    if parts == [] then []
    else if |parts| == 1 then parts[0]
    else parts[0] + sep + JoinWith(sep, parts[1..])
  }

  /** Splitting on a separator and joining the parts with it gives back the original string. */
  lemma {:induction false} SplitOnJoin(s: string, sep: char)
    ensures JoinWith([sep], SplitOn(s, sep)) == s
    decreases |s|
  {
    if s != [] {
      var rest := SplitOn(s[1..], sep);
      SplitOnJoin(s[1..], sep);
      if s[0] == sep {
        assert SplitOn(s, sep) == [[]] + rest;
        assert ([[]] + rest)[1..] == rest;
      } else {
        var parts := SplitOn(s, sep);
        assert parts == [[s[0]] + rest[0]] + rest[1..];
        if |rest| > 1 {
          assert parts[1..] == rest[1..];
          assert JoinWith([sep], rest) == rest[0] + [sep] + JoinWith([sep], rest[1..]);
        }
      }
    }
  }

  /** A string without the separator splits into itself alone. */
  lemma {:induction false} SplitOnWithout(s: string, sep: char)
    requires sep !in s
    ensures SplitOn(s, sep) == [s]
    decreases |s|
  {
    if s != [] {
      assert sep !in s[1..];
      SplitOnWithout(s[1..], sep);
      assert s == [s[0]] + s[1..];
    }
  }

  /** The first part of `a + [sep] + b`, where `a` has no separator, is `a`. */
  lemma {:induction false} SplitOnPrefix(a: string, sep: char, b: string)
    requires sep !in a
    ensures SplitOn(a + [sep] + b, sep)[0] == a
    decreases |a|
  {
    var s := a + [sep] + b;
    if a == [] {
      assert s[0] == sep;
    } else {
      assert s[0] == a[0];
      assert s[1..] == a[1..] + [sep] + b;
      assert sep !in a[1..];
      SplitOnPrefix(a[1..], sep, b);
    }
  }

  /** Splitting `a + [sep] + b`, where `a` has no separator, gives `a` and then the parts of `b`. */
  lemma {:induction false} SplitOnCons(a: string, sep: char, b: string)
    requires sep !in a
    ensures SplitOn(a + [sep] + b, sep) == [a] + SplitOn(b, sep)
    decreases |a|
  {
    var s := a + [sep] + b;
    if a == [] {
      assert s[0] == sep && s[1..] == b;
    } else {
      assert s[0] == a[0];
      assert s[1..] == a[1..] + [sep] + b;
      assert sep !in a[1..];
      SplitOnCons(a[1..], sep, b);
      assert [a[0]] + a[1..] == a;
    }
  }

  /** Every part is contained in the join. */
  lemma JoinWithContainsAll(sep: string, parts: seq<string>)
    ensures forall k :: 0 <= k < |parts| ==> Contains(JoinWith(sep, parts), parts[k])
  {
    forall k | 0 <= k < |parts|
      ensures Contains(JoinWith(sep, parts), parts[k])
    {
      JoinWithContains(sep, parts, k);
    }
  }

  /** Each part is contained in the joined string. */
  lemma {:induction false} JoinWithContains(sep: string, parts: seq<string>, k: nat)
    requires k < |parts|
    ensures Contains(JoinWith(sep, parts), parts[k])
    decreases k
  {
    if |parts| == 1 {
      ContainsMiddle([], parts[0], []);
      assert [] + parts[0] + [] == parts[0];
    } else {
      var rest := JoinWith(sep, parts[1..]);
      assert JoinWith(sep, parts) == parts[0] + sep + rest;
      if k == 0 {
        ContainsMiddle([], parts[0], sep + rest);
        assert [] + parts[0] + (sep + rest) == parts[0] + sep + rest;
      } else {
        JoinWithContains(sep, parts[1..], k - 1);
        ContainsMiddle(parts[0] + sep, rest, []);
        assert parts[0] + sep + rest + [] == parts[0] + sep + rest;
        ContainsTrans(JoinWith(sep, parts), rest, parts[k]);
      }
    }
  }

  /** The first part of a split is the text before the first separator. */
  lemma {:induction false} SplitOnFirst(s: string, sep: char)
    ensures SplitOn(s, sep)[0] <= s
    ensures |SplitOn(s, sep)[0]| == |s| || s[|SplitOn(s, sep)[0]|] == sep
    decreases |s|
  {
    if s != [] {
      SplitOnFirst(s[1..], sep);
    }
  }
}

=== FILE: wrappers.dfy ===
/** Option and Result values used where the source returns None or raises. */
module Wrappers {

  datatype Option<+T> = None | Some(value: T)

  /** `Ok` carries a value; `Err` carries the message of the exception the source raises. */
  datatype Result<+T> = Ok(value: T) | Err(error: string)
}
